=== FILE: README.md ===
# coldstart-zero edge functions, modelled in Dafny

This project models the two CloudFront functions of coldstart-zero.

- **The S3 presigner** (`cloudfront-functions/presign.js`). A viewer request for
  `/presign/<bucket>.s3.<region>.amazonaws.com/<path>` is answered with a
  302 redirect to a presigned GET URL. The URL is built with AWS Signature
  Version 4 in query mode. The signer lays out the canonical request, the
  string to sign and the HMAC key chain, and puts the `X-Amz-*` parameters
  into the query. Any other URI gets a 400.
- **The utilities** (`cloudfront-functions/intrinsicFunctions.js`).
  - `get`, `compare`, `compareByPath` and `sortByPath` sort a JSON array by
    the value at a dotted path.
  - The ULID helpers cover Crockford's Base32 alphabet, `replaceCharAt`,
    `incrementBase32`, `encodeTime` and `decodeTime`.

Modules, one per file:

| module | file | what it holds |
|---|---|---|
| `Wrappers` | wrappers.dfy | `Option` and `Result` |
| `JsString` | js_string.dfy | JavaScript string `<`, ASCII `toLowerCase`, `split`, `join`, `indexOf`, `trim`, `\s` collapsing |
| `Sorting` | sorting.dfy | the stable sort of `Array.prototype.sort` on strings, `map`, concatenated maps, permutations |
| `Rfc3986` | rfc3986.dfy | UTF-8, `encodeURIComponent`, `encodeRfc3986`, `encodeRfc3986Full`, a strict percent-decoder and a model of how `decodeURIComponent` reads bytes, used as their partners |
| `JsObject` | js_object.dfy | a plain object used as a dictionary: insertion-ordered unique keys, `o[k]`, `o[k] = v`, `delete` |
| `QueryString` | query_string.dfy | the query object and Node's `querystring.stringify` |
| `SigV4Query` | sigv4_query.dfy | the canonical query of `canonicalString`, including its `forEach`/`push` loop |
| `SigV4Path` | sigv4_path.dfy | the canonical path |
| `SigV4Headers` | sigv4_headers.dfy | `canonicalHeaders` and `signedHeaders` |
| `SigV4Signature` | sigv4_signature.dfy | `getDate`, `credentialString`, the canonical string, `stringToSign`, `signature` |
| `SigV4Signer` | signer.dfy | the signing state as the class `SigningContext`: `RequestSigner`, `parsePath`, `getDateTime`, `prepareRequest`, `sign`, `formatPath` |
| `PresignHandler` | handler.dfy | the URI pattern, the handler, and the dotted-bucket finding |
| `PathSort` | path_sort.dfy | `index`, `get`, `compare`, `compareByPath`, `sortByPath` |
| `Ulid` | ulid.dfy | the alphabet, `replaceCharAt`, `incrementBase32`, `encodeTime`, `decodeTime` |

How the source maps onto the model:

- **Signer state.** The presigner keeps its state in module globals
  (`tRequest`, `tParsedPath`, `tDatetime`, …). The model makes these the
  fields of one `SigningContext` object per request, and the methods that
  assign them modify those fields.
  - Each method is proved equal to a function of the old state: `Prepared`,
    `SignPrepared`, `SignOutcome`, `ParsePathOf` or `DateTimeOf`.
  - The properties are proved about those functions.
- **Parameters for outside code.** HMAC-SHA256 and SHA-256 are a parameter
  of type `Crypto`, and no property depends on what they compute. So are the
  clock, the key-value store, `Date` parsing, Node's `querystring.parse` and
  the `encodeURI(decodeURI(…))` normalisation of `parsePath` (a
  `UriLibrary`).
- **Thrown errors.** Every JavaScript exception on these paths is an `Err`:
  - `null[1]` when the region pattern fails;
  - `URIError`;
  - an invalid `Date`;
  - `substr` on a repeated `X-Amz-Date`;
  - reading a property of `undefined`;
  - `compare` on a value that is neither a number nor a string.

Where the code does something a reader might not expect, the model follows
the code:

- The final URL lists the query parameters in insertion order, as
  `querystring.stringify` writes them. Only the canonical query inside the
  signature is sorted. `SigV4Query.CanonicalQueryMatchesUrl` proves that the
  two hold the same `key=value` fields, once the `__proto__` key is corrected
  (see Findings).
- `canonicalHeaders` drops only the fixed ignore list.
  `extraHeadersToInclude` and `extraHeadersToIgnore` change
  `signedHeaders` and nothing else.
- `incrementBase32` on a string of only `Z`s does not fail. Its loop reaches
  index -1, and `replaceCharAt` then puts a `0` in front. The result is
  `n + 1` zeros.

## Model

| member | source | states |
|---|---|---|
| Rfc3986.EncodeFullAlphabet | cloudfront-functions/presign.js:26-28 | the full encoding holds only RFC 3986 unreserved characters and `%` |
| Rfc3986.EncodeFullDecodes | cloudfront-functions/presign.js:26-28 | read as uppercase `%XX` triples and unreserved characters, the full encoding gives back exactly the UTF-8 bytes of the input |
| Rfc3986.EncodeFullComponentDecodes | cloudfront-functions/presign.js:26-28 | `decodeURIComponent` reads the full encoding back as exactly the UTF-8 bytes of the input |
| Rfc3986.EncodeFullFixedPoint | cloudfront-functions/presign.js:26-28 | the full encoding leaves a string unchanged exactly when every character of it is unreserved |
| Rfc3986.EncodeFullInjective | cloudfront-functions/presign.js:26-28 | two different strings never have the same full encoding |
| Rfc3986.EncodeFullLength | cloudfront-functions/presign.js:26-28 | the encoding is never shorter than the input, and is as long only when nothing was escaped |
| Rfc3986.PercentIsReEncoded | cloudfront-functions/presign.js:26-28 | an already encoded `%20` is encoded again, as `%2520` |
| Rfc3986.EncodeRfc3986KeepsMeaning | cloudfront-functions/presign.js:20-24 | for every string, escaping `! ' ( ) *` leaves unchanged the bytes `decodeURIComponent` reads from it, or the failure on a `%` that starts no `%XX` triple |
| Rfc3986.EncodeRfc3986Identity | cloudfront-functions/presign.js:20-24 | a string without any of `! ' ( ) *` is returned unchanged |
| Rfc3986.EncodeRfc3986Append | cloudfront-functions/presign.js:20-24 | the escaping works character by character: escaping a concatenation concatenates the escapings |
| Rfc3986.PercentEncodeUnescaped | cloudfront-functions/presign.js:20-28 | the triples `encodeURIComponent` writes pass through `encodeRfc3986` untouched |
| Rfc3986.Utf8StringInjective | cloudfront-functions/intrinsicFunctions.js:21 | different strings have different UTF-8 bytes, so `Buffer.from` loses nothing |
| JsString.LessTransitive | cloudfront-functions/presign.js:205 | the default sort order of strings is transitive |
| JsString.LessTotal | cloudfront-functions/presign.js:205 | of two different strings one sorts before the other |
| JsString.JoinSplit | cloudfront-functions/presign.js:223-230 | splitting at a character and joining with it gives the string back |
| JsString.SplitJoin | cloudfront-functions/presign.js:223-230 | joining separator-free pieces and splitting again gives the pieces back |
| JsString.TrimAllNormalizes | cloudfront-functions/presign.js:246-248 | a trimmed header value has no white space at either end and only single plain spaces inside, and it keeps every other character in order |
| JsString.TrimAllIdempotent | cloudfront-functions/presign.js:246-248 | trimming a trimmed value changes nothing |
| Sorting.SortBySorts | cloudfront-functions/presign.js:204-205 | the sort returns a sorted permutation of its input |
| Sorting.SortStringsCanonical | cloudfront-functions/presign.js:275 | sorting two rearrangements of the same strings gives the same result |
| JsObject.SetGet | cloudfront-functions/presign.js:74-88 | after `o[k] = v`, `k` reads `v` and every other key reads as before |
| JsObject.DeleteGet | cloudfront-functions/presign.js:311 | after `delete o[k]`, `k` is missing and every other key reads as before |
| QueryString.PairsExact | cloudfront-functions/presign.js:313 | the stringified query has one `key=value` pair for each scalar and for each array element, and no others |
| QueryString.EmittedQueryReadsBack | cloudfront-functions/presign.js:313 | the escaped query string splits at `&` into the encoded fields, and each field splits at `=` into the encoded key and value |
| SigV4Query.ReduceLastWins | cloudfront-functions/presign.js:195-202 | in the corrected `reducedQuery` (see Findings), each encoded key holds the value of the last non-empty raw key that encodes to it |
| SigV4Query.ReduceKeepsValues | cloudfront-functions/presign.js:195-202 | in the corrected reduction, each non-empty raw key keeps its value under its encoding |
| SigV4Query.ReduceExact | cloudfront-functions/presign.js:195-202 | the corrected `reducedQuery` is the query without its empty key, with every key encoded and the order kept |
| SigV4Query.PushPieces | cloudfront-functions/presign.js:212-217 | the inner loop appends `key=value` for each sorted encoded array element, in order |
| SigV4Query.EncodeQueryPieces | cloudfront-functions/presign.js:203-219 | the `forEach`/`push` loop builds exactly the pieces of the canonical pairs, in canonical order |
| SigV4Query.CanonicalPairsOrdered | cloudfront-functions/presign.js:204-219 | the canonical pairs are sorted by encoded key, then by encoded value |
| SigV4Query.AsWrittenGet | cloudfront-functions/presign.js:196-202 | as written, the `{}` accumulator holds nothing under `__proto__`, and under every other key what the corrected reduction holds |
| SigV4Query.AsWrittenAgrees | cloudfront-functions/presign.js:196-202 | on a query without a raw `__proto__` key, the reduction as written is the corrected one |
| SigV4Query.ProtoFieldUnsigned | cloudfront-functions/presign.js:196-221 | as written, a query holding `__proto__` signs no `__proto__` pair, while the URL carries one for each of its values |
| SigV4Query.ProtoQueryExample | cloudfront-functions/presign.js:196-221 | for `?__proto__=x` the URL carries `__proto__=x`; the canonical query as written is empty, the corrected one is `__proto__=x` |
| SigV4Query.CanonicalQueryMatchesUrl | cloudfront-functions/presign.js:195-221 | with the corrected reduction, the canonical query holds the same `key=value` fields as the query written into the URL, up to order |
| SigV4Query.CanonicalQueryReadsBack | cloudfront-functions/presign.js:195-221 | the canonical query splits at `&` into its pieces, each the encoded field of a pair of the query |
| SigV4Query.CanonicalQueryAlphabet | cloudfront-functions/presign.js:195-221 | the canonical query holds only unreserved characters, `%`, `=` and `&` |
| SigV4Query.DeleteEmptyKey | cloudfront-functions/presign.js:311 | `delete query[""]` leaves exactly the entries whose key is not empty |
| SigV4Path.CanonicalPathSegments | cloudfront-functions/presign.js:222-232 | the canonical path starts with `/` and has the original segments, each fully encoded, in order, with one empty segment added in front when the path did not start with `/` |
| SigV4Path.CanonicalSegmentsDecode | cloudfront-functions/presign.js:222-232 | every canonical segment decodes to the UTF-8 bytes of the original segment |
| SigV4Path.CanonicalPathAlphabet | cloudfront-functions/presign.js:222-232 | the canonical path holds only unreserved characters, `%` and `/` |
| SigV4Path.SingleSegment | cloudfront-functions/presign.js:222-232 | a path of one segment after `/` keeps the `/` and encodes the segment |
| SigV4Path.CanonicalPathReEncodes | cloudfront-functions/presign.js:222-232 | `/%20` becomes `/%2520`, so the canonical path is not idempotent |
| SigV4Headers.KeptEntries | cloudfront-functions/presign.js:249-252 | the kept headers are exactly those whose lower-cased name is not on the ignore list |
| SigV4Headers.CanonicalHeaderLines | cloudfront-functions/presign.js:244-260 | every kept header has its `name:value` line, every line comes from a kept header, no line is lost or added, and the lines are sorted by lower-cased name |
| SigV4Headers.CanonicalHeadersReadBack | cloudfront-functions/presign.js:244-260 | the canonical headers split at line breaks into exactly their lines |
| SigV4Headers.SignedNamesExact | cloudfront-functions/presign.js:262-277 | a name is signed exactly when some header lower-cases to it and it is either in the include list or in neither ignore list; the names are sorted |
| SigV4Headers.SignedMatchesCanonical | cloudfront-functions/presign.js:244-277 | with no extra lists, the signed names are the names of the canonical header lines, line by line |
| SigV4Headers.HostOnly | cloudfront-functions/presign.js:59-61 | for the handler's request, whose only header is `Host`, the canonical headers are `host:<host>` and the signed headers are `host` |
| SigV4Signature.GetDate | cloudfront-functions/presign.js:138-140 | the date is the first eight characters of the datetime |
| SigV4Signature.CredentialScopeParts | cloudfront-functions/presign.js:279-281 | the scope splits at `/` into the date, the region, `s3` and `aws4_request` |
| SigV4Signature.CanonicalStringLayout | cloudfront-functions/presign.js:234-241 | the canonical request reads back line by line: the method or `GET`, the canonical path, the canonical query, the header lines, an empty line, the signed headers and `UNSIGNED-PAYLOAD` |
| SigV4Signature.StringToSignLayout | cloudfront-functions/presign.js:165-172 | the string to sign reads back as the algorithm, the datetime, the scope and the hash of the canonical request |
| SigV4Signature.SignatureDecodes | cloudfront-functions/presign.js:153-163 | the signature is 64 lowercase hex digits that read back as the HMAC of the string to sign under the derived key |
| SigV4Signature.SigningKeyPerDay | cloudfront-functions/presign.js:153-161 | two datetimes of the same day derive the same signing key |
| SigV4Signature.HexRoundTrip | cloudfront-functions/presign.js:162 | hex digest text reads back as the digest bytes |
| SigV4Signer.RegionSound | cloudfront-functions/presign.js:57 | an accepted host is a dot-free label, `.s3.`, the region and `.amazonaws.com` |
| SigV4Signer.RegionComplete | cloudfront-functions/presign.js:57 | every host of that shape is accepted, and yields its region |
| SigV4Signer.WithHostGet | cloudfront-functions/presign.js:59-61 | `Host` is set to the request host only when neither `Host` nor `host` is set; every other header is unchanged |
| SigV4Signer.SigningContext.RequestSigner | cloudfront-functions/presign.js:50-65 | fails exactly when the host has no region; otherwise gives a fresh context holding the request with `Host` added, the credentials and the region, with nothing parsed yet |
| SigV4Signer.SigningContext.GetDateTime | cloudfront-functions/presign.js:128-136 | returns the datetime already chosen, or else the `Date` header's date or the clock, and stores it |
| SigV4Signer.SigningContext.ParsePath | cloudfront-functions/presign.js:283-302 | stores and returns the parsed path |
| SigV4Signer.ParsePathDefault | cloudfront-functions/presign.js:284 | a missing or empty path parses as `/` with no query |
| SigV4Signer.SplitAtQueryParts | cloudfront-functions/presign.js:290-296 | the path is everything before the first `?` and the query is parsed from everything after it; with no `?` there is no query and the path is whole |
| SigV4Signer.SigningContext.PrepareRequest | cloudfront-functions/presign.js:67-88 | stores the parsed path with the prepared query and the signing datetime, or fails as the specification function does |
| SigV4Signer.SigningContext.TakeDateTime | cloudfront-functions/presign.js:82-83 | keeps a truthy `X-Amz-Date` and takes it as the datetime; otherwise sets `X-Amz-Date` to the datetime `getDateTime` gives, or fails as it does |
| SigV4Signer.DateTimeKept | cloudfront-functions/presign.js:128-136 | asking `getDateTime` again gives the datetime it already holds: a truthy one is kept, and an empty one is recomputed from the same headers and clock |
| SigV4Signer.PreparedQueryGet | cloudfront-functions/presign.js:73-88 | after preparation the query has `X-Amz-Algorithm`, `X-Amz-Credential` and `X-Amz-SignedHeaders`; `X-Amz-Expires` and `X-Amz-Date` are kept when truthy and otherwise set to 86400 and the datetime; the token is written only when there is one; every other parameter is unchanged |
| SigV4Signer.PreparedKeepsOrder | cloudfront-functions/presign.js:73-88 | the parameters already in the query keep their places |
| SigV4Signer.SigningContext.Sign | cloudfront-functions/presign.js:114-126 | prepares first when nothing is parsed, then signs; the request path becomes the formatted path |
| SigV4Signer.SigningContext.SignParsed | cloudfront-functions/presign.js:117-125 | signs the prepared query, stores the signed query and the datetime, and sets the request path |
| SigV4Signer.SigningContext.ComputeSignature | cloudfront-functions/presign.js:153-163 | signs with the key derived from the date of the stored datetime; it fails exactly when getting the datetime or its date fails, and stores the datetime it used |
| SigV4Signer.SigningContext.AttachSignature | cloudfront-functions/presign.js:118-123 | adds `X-Amz-Signature` to the query, formats the path and stores it in the request |
| SigV4Signer.SigningContext.FormatPathNow | cloudfront-functions/presign.js:304-314 | deletes the empty query key in place and returns the formatted path |
| SigV4Signer.FormatWithoutQuery | cloudfront-functions/presign.js:304-308 | with no query, parsing and formatting give the path back |
| SigV4Signer.FormatPathReadsBack | cloudfront-functions/presign.js:304-314 | the formatted path is the path, `?`, and the encoded fields of the query without its empty key, joined by `&` |
| SigV4Signer.SignedQueryPairs | cloudfront-functions/presign.js:114-126 | signing adds the signature pair after the other pairs and adds nothing else |
| SigV4Signer.SignedQueryCoversCanonical | cloudfront-functions/presign.js:114-126 | with the corrected reduction, the fields of the signed URL are the canonical query's pieces plus the signature field |
| SigV4Signer.PresignedPathCoversQuery | cloudfront-functions/presign.js:114-126 | with the corrected reduction, the presigned path is the parsed path, `?`, and exactly the signed canonical fields plus the signature of that canonical request |
| PresignHandler.ExecSound | cloudfront-functions/presign.js:318-321 | what the URI pattern captures occurs in the URI, with a host and a path of the shape the pattern describes |
| PresignHandler.ExecComplete | cloudfront-functions/presign.js:318-321 | `/presign/` followed by any host and path of that shape is matched with exactly that host and path |
| PresignHandler.DotFreeHostRegion | cloudfront-functions/presign.js:57 | a host the pattern accepts whose label has no dot yields its region to the signer |
| PresignHandler.Handle | cloudfront-functions/presign.js:316-353 | the handler run through the signing context returns what `Handler` specifies |
| PresignHandler.HandlerRedirectSound | cloudfront-functions/presign.js:316-353 | a redirect goes to `https://`, the matched bucket and the presigned path of that bucket and path |
| PresignHandler.HandlerRedirectComplete | cloudfront-functions/presign.js:316-353 | every `/presign/` URI with a dot-free bucket label and a path the signer accepts is redirected to its presigned URL |
| PresignHandler.HandlerRejects | cloudfront-functions/presign.js:326-332 | a URI without the pattern gets the 400 with the fixed message, whatever the key-value store holds |
| PresignHandler.HandlerAgrees | cloudfront-functions/presign.js:316-353 | the corrected handler answers as the written one wherever that one answers, and with the 400 where it throws |
| PresignHandler.DottedBucketNoRegion | cloudfront-functions/presign.js:57 | the signer finds no region in `my.bucket.s3.us-east-1.amazonaws.com` |
| PresignHandler.MalformedPathThrows | cloudfront-functions/presign.js:286-288 | a well-formed request whose path `decodeURI` rejects makes the written handler throw, and the corrected one answer 400 |
| PresignHandler.RepeatedDateThrows | cloudfront-functions/presign.js:138-140 | a well-formed request whose query gives `X-Amz-Date` as an array makes the written handler throw in `getDate`, and the corrected one answer 400 |
| PresignHandler.DottedBucketThrows | cloudfront-functions/presign.js:319 | the dotted bucket passes the handler's pattern, and the written handler then throws |
| PathSort.GetProperty | cloudfront-functions/intrinsicFunctions.js:7-9 | a path without a dot is a single property read |
| PathSort.GetDotted | cloudfront-functions/intrinsicFunctions.js:7-9 | `get(o, p + "." + q)` reads `p` from `o`, then `q` from the result; an error reading `p` is the result |
| PathSort.FollowAppend | cloudfront-functions/intrinsicFunctions.js:7-9 | following two key lists is following the first, then the second from where it stopped |
| PathSort.GetOfNullish | cloudfront-functions/intrinsicFunctions.js:2-9 | any path read from `undefined` or `null` throws on its first property |
| PathSort.GetField | cloudfront-functions/intrinsicFunctions.js:2-4 | a field of an object is read back by its name |
| PathSort.ByteCompareFlip | cloudfront-functions/intrinsicFunctions.js:21 | swapping the buffers negates the comparison |
| PathSort.ByteCompareZero | cloudfront-functions/intrinsicFunctions.js:21 | the comparison is 0 exactly for equal bytes |
| PathSort.ByteCompareTrans | cloudfront-functions/intrinsicFunctions.js:21 | the byte order is transitive |
| PathSort.CompareFlip | cloudfront-functions/intrinsicFunctions.js:17-25 | on two numbers or two strings, swapping the arguments negates the result, and NaN stays NaN |
| PathSort.CompareStringsZero | cloudfront-functions/intrinsicFunctions.js:17-25 | two strings compare as 0 exactly when they are equal |
| PathSort.CompareThrows | cloudfront-functions/intrinsicFunctions.js:17-25 | `compare` throws exactly when the first value is not a number and not a string next to a string; a first value of another type throws "value must be a number or string" |
| PathSort.GreaterAntisymmetric | cloudfront-functions/intrinsicFunctions.js:11-15 | the comparator never puts both `x` after `y` and `y` after `x` |
| PathSort.SortByPath | cloudfront-functions/intrinsicFunctions.js:27-29 | sorts in place and returns the same array, with no neighbouring pair out of order; on a comparator error the array still holds the same elements and the error comes from a pair of them |
| PathSort.Insert | cloudfront-functions/intrinsicFunctions.js:27-29 | one round of the sort takes an ordered prefix to an ordered prefix one longer, keeping the elements |
| PathSort.OrderedNumbers | cloudfront-functions/intrinsicFunctions.js:11-29 | when every key is a number, the sorted array has its keys in ascending order |
| PathSort.OrderedStrings | cloudfront-functions/intrinsicFunctions.js:11-29 | when every key is a string, the sorted array has its keys in ascending UTF-8 byte order |
| Ulid.EncodingIncreasing | cloudfront-functions/intrinsicFunctions.js:78-79 | the alphabet has 32 characters, in strictly increasing order, so all different |
| Ulid.EncodingLetters | cloudfront-functions/intrinsicFunctions.js:78 | I, L, O and U are not in the alphabet; it runs from `0` to `Z` |
| Ulid.EncodingIndex | cloudfront-functions/intrinsicFunctions.js:78 | `indexOf` finds every character of the alphabet at its own position |
| Ulid.ReplaceCharAt | cloudfront-functions/intrinsicFunctions.js:84-89 | an index past the end leaves the string unchanged; an index inside replaces that one character and keeps the length; -1 puts the character in front |
| Ulid.IncrementBase32 | cloudfront-functions/intrinsicFunctions.js:91-109 | the loop returns the increment the specification function `Incremented` defines |
| Ulid.IncrementShape | cloudfront-functions/intrinsicFunctions.js:91-109 | the trailing `Z`s become `0`s, the character before them advances to its successor, and everything further left is unchanged |
| Ulid.IncrementAddsOne | cloudfront-functions/intrinsicFunctions.js:91-109 | on a numeral that is not all `Z`s, the increment keeps the length and the alphabet and adds one to the value |
| Ulid.IncrementAllZ | cloudfront-functions/intrinsicFunctions.js:97-104 | a string of `n` `Z`s becomes `n + 1` zeros |
| Ulid.EncodeTime | cloudfront-functions/intrinsicFunctions.js:119-128 | the loop returns the encoding the specification function `EncodedTime` defines |
| Ulid.EncodedTimeValue | cloudfront-functions/intrinsicFunctions.js:119-128 | for a time of at least 0, the encoding has exactly `len` characters of the alphabet and reads as the time modulo 32^len, most significant digit first |
| Ulid.DecodeTimeValue | cloudfront-functions/intrinsicFunctions.js:138-148 | `decodeTime` reads the first ten characters as a base-32 numeral |
| Ulid.TimeRoundTrip | cloudfront-functions/intrinsicFunctions.js:119-148 | for every time below 32^10, decoding the encoded time gives the time back, whatever random part follows |
| Ulid.TimeOrder | cloudfront-functions/intrinsicFunctions.js:119-128 | an earlier time encodes to a string that sorts first, whatever random parts follow |
| Ulid.TimeMaxFits | cloudfront-functions/intrinsicFunctions.js:80-81 | every time up to 2^48 - 1 fits in ten digits |

## Findings

| source | as written | input that shows it | evidently intended | confidence | as-written member | corrected member |
|---|---|---|---|---|---|---|
| cloudfront-functions/presign.js:57, 319 | the handler's pattern admits dots in the bucket label, but the signer's region pattern needs a dot-free first label; `match` then returns `null` and `null[1]` throws | `/presign/my.bucket.s3.us-east-1.amazonaws.com/key` | the 400 response for a bucket the signer cannot take | not executed | PresignHandler.DottedBucketThrows | PresignHandler.HandlerAgrees |
| cloudfront-functions/presign.js:196-202 | `reducedQuery` is built in a `{}` literal, so `obj["__proto__"] = value` runs the inherited `__proto__` setter and stores no own key; the canonical query then lacks the `__proto__` field that `formatPath` writes into the URL | `/presign/b.s3.us-east-1.amazonaws.com/k?__proto__=x` | every field of the URL is signed, with `__proto__` stored as an own key (for example in an `Object.create(null)` accumulator) | not executed | SigV4Query.ProtoQueryExample | SigV4Query.CanonicalQueryMatchesUrl |
| cloudfront-functions/presign.js:286-288 | `decodeURI` throws `URIError` on a malformed path, and nothing catches it, so the function fails instead of answering | `/presign/b.s3.us-east-1.amazonaws.com/%E9<` | the 400 response for a path the signer cannot take | not executed | PresignHandler.MalformedPathThrows | PresignHandler.HandlerAgrees |
| cloudfront-functions/presign.js:138-140 | a repeated `X-Amz-Date` parses to an array; `prepareRequest` keeps it as the datetime and `getDate` calls `.substr` on it, which throws | `/presign/b.s3.us-east-1.amazonaws.com/k?X-Amz-Date=1&X-Amz-Date=2` | the 400 response for a query the signer cannot take | not executed | PresignHandler.RepeatedDateThrows | PresignHandler.HandlerAgrees |

`PresignHandler.HandlerAsWritten` models the handler as written. Each signer
throw is an `Err`: `RegionMismatch` for the dotted bucket, `UriMalformed`
for `decodeURI`, and `DateNotString` for `getDate` on an array.
`PresignHandler.Handler` is the corrected handler. It answers 400 when the
bucket has no region or the signer fails, and the rest of the model uses it.
`PresignHandler.HandlerRedirectComplete` proves that it redirects every
well-formed dot-free request the signer accepts.

`SigV4Query.ReduceQueryAsWritten` models `reducedQuery` as written, without
the `__proto__` key. `SigV4Query.ReduceQuery` keeps that key as an own
property, and the signer uses it. The two agree on every query without a
`__proto__` key (`SigV4Query.AsWrittenAgrees`).

## Left out

- The header-signing branch of `prepareRequest`, `sign` and `canonicalString` (`signQuery` false). The handler always signs in query mode. That branch reads `this.request` and `this.isCodeCommitGit`, which are not the signer's state, and `authHeader` is only used there.
- HMAC-SHA256 and SHA-256 are a `Crypto` parameter and are not modelled bit for bit.
- `new Date(...)`, `toISOString` and the clock are the `UriLibrary.isoDate` and `clock` parameters.
- `kvsHandle.get` is a function from key to value. Its asynchrony and its failures are not modelled.
- Node's `querystring.parse` is the `UriLibrary.parse` parameter. `encodeURI(decodeURI(path))` is `UriLibrary.normalize`, which may fail.
- `querystring.stringify` writes only string values and arrays of strings. The number 86400 is stored as the string `86400`, which is how `stringify` writes it.
- `doNotEncodePath` is not modelled, and paths are always encoded. The handler never sets it.
- `toLowerCase` is modelled for ASCII letters only.
- `Rfc3986.EncodeRfc3986KeepsMeaning`: `Rfc3986.DecodeComponent` does not check that the bytes of `%XX` triples form valid UTF-8. For example, it reads `%E9` as the byte E9, where `decodeURIComponent` throws `URIError`. So the lemma states that the bytes are kept, not that `decodeURIComponent` succeeds on both strings alike. Whether it succeeds depends only on those bytes.
- `SigV4Query.ReduceLastWins`: stated for the corrected reduction. As written, `__proto__` holds nothing (see Findings).
- `SigV4Query.ReduceKeepsValues`: stated for the corrected reduction. As written, the raw key `__proto__` loses its value (see Findings).
- `SigV4Query.ReduceExact`: stated for the corrected reduction. As written, the entry under `__proto__` is missing (see Findings).
- `SigV4Query.CanonicalQueryMatchesUrl`: stated for the corrected reduction. As written, a URL holding `__proto__` carries fields the canonical query lacks (see Findings).
- `SigV4Signer.SignedQueryCoversCanonical`: stated for the corrected reduction. As written, it fails for a query holding `__proto__` (see Findings).
- `SigV4Headers.CanonicalHeaderLines`: the comparator of `canonicalHeaders` never returns 0, so its result for two headers with the same lower-cased name depends on the engine's sort. The model sorts those headers stably.
- JavaScript strings are sequences of UTF-16 code units; here they are sequences of Unicode scalar values. Lone surrogates cannot be represented, and string indexing in `index` is by character.
- A JavaScript object's integer-like keys are listed before its other keys. The model keeps every key in insertion order.
- The cross-request reuse of the module globals is not modelled. Each request gets a fresh `SigningContext`.
- When signing throws part-way, the model does not keep the partly updated globals the source would leave behind.
- `SigV4Signer.PresignedPathCoversQuery`: stated for request paths that do not already carry an `X-Amz-Signature` parameter. With one, the signature would replace it in place. It is also stated for the corrected reduction. As written, it fails for a query holding `__proto__` (see Findings).
- The handler of `intrinsicFunctions.js` is not modelled: the event envelope, `JSON.parse`, `JSON.stringify` and the double-decoding of `%2522`.
- `ulid()`, `randomChar` and `encodeRandom` use `Math.random` and `Date.now` and are not modelled. `Ulid.TimeRoundTrip` and `Ulid.TimeOrder` take the random part as an arbitrary string.
- `Ulid.EncodeTime`: `now` is an integer. A fractional `now` would make `%` and `/` work on floating point, which is not modelled. `Ulid.EncodedTimeValue` states the value only for `now >= 0`. A negative `now` is modelled with JavaScript's truncating `%` and the empty `charAt`, and has no property stated.
- `Ulid.ReplaceCharAt`: for an index below -1 the contract states only that the character comes first and a suffix of the string follows.
- `PathSort.SortByPath`: the engine's sort algorithm is not specified. The model uses a stable insertion sort, so when the comparator throws, the comparisons made before the throw and the order left in the array may differ from the engine's. Whether the sort throws at all can also depend on the order in which the engine passes the arguments, because `compare` is not symmetric in what it accepts. `compare(1, "a")` is NaN, but `compare("a", 1)` throws. So on `[{k:"a"},{k:1}]` the model throws, while an engine that calls `comparefn(arr[1], arr[0])` does not.
- `PathSort.SortByPath`: `Array.prototype.sort` moves `undefined` elements to the end without comparing them; here they go through the comparator, which throws on them.
- `PathSort.ToNumber`: in `a - b`, an array `b` is taken as NaN instead of the number of its joined text. The conversion of a string `b` to a number is a parameter.
- `PathSort.Compare`: every `b` that is not a string gives `Err(BufferFromNonString)`. JavaScript's `Buffer.from(b)` does throw for `undefined`, `null`, numbers and booleans. It does not throw for arrays and array-like objects: it reads them as bytes. For example, `{"length":2}` gives two zero bytes, `{"length":"x"}` gives an empty buffer, and `{"type":"Buffer","data":[1,2]}` gives the bytes 1 and 2. Those comparisons succeed in the source and fail in the model.
- `PathSort.Index`: inherited properties are not modelled, for any kind of value. On numbers, booleans, strings and arrays only `length` and indices are read; any other name reads `undefined`. On objects only their own keys are read. So a name that a plain object inherits from `Object.prototype`, such as `constructor` or `toString`, reads `undefined` in the model, where the source finds a function. For example, `get({}, "constructor.name")` is `"Object"` in the source and `Err(PropertyOfNullish("name"))` in the model.
- Numbers are modelled as exact reals, and NaN is a separate value. Floating-point rounding in `a - b` is not modelled.

=== FILE: handler.dfy ===
/**
 * The CloudFront viewer-request handler of presign.js. It takes
 * `/presign/<bucket>.s3.<region>.amazonaws.com/<path>` out of the request
 * URI, presigns a GET of that object with the keys from the key-value
 * store, and redirects to the presigned URL; any other URI gets a 400.
 *
 * The URI pattern (`/presign/`, then a captured host of 3 to 63 lower-case
 * letters, digits, dots and dashes followed by `.s3.`, a region shaped like
 * `us-east-1` and `.amazonaws.com`, then a captured `/` and the rest of the
 * line) is modelled as the backtracking matcher runs it: the leftmost start
 * position, and at that position the longest label that lets the rest of
 * the pattern match.
 */
module PresignHandler {
  import opened Wrappers
  import opened JsString
  import opened JsObject
  import opened QueryString
  import opened SigV4Signature
  import opened SigV4Signer

  const Prefix := "/presign/"
  const MinLabel := 3
  const MaxLabel := 63
  const BadRequestBody := "Invalid request: URI must be in the format /presign/<bucket>.s3.<region>.amazonaws.com/<path>"

  /** `[-a-z\.0-9]`. */
  predicate IsLabelChar(c: char) {
    c == '-' || ('a' <= c <= 'z') || c == '.' || ('0' <= c <= '9')
  }

  /** `\w`. */
  predicate IsWordChar(c: char) {
    ('a' <= c <= 'z') || ('A' <= c <= 'Z') || ('0' <= c <= '9') || c == '_'
  }

  /** `\d`. */
  predicate IsDigit(c: char) {
    '0' <= c <= '9'
  }

  /** How many `\w` characters follow `i`: what a greedy `\w+` takes. */
  function WordRun(s: string, i: nat): (n: nat)
    requires i <= |s|
    ensures i + n <= |s|
    ensures forall k :: i <= k < i + n ==> IsWordChar(s[k])
    ensures i + n == |s| || !IsWordChar(s[i + n])
    decreases |s| - i
  {
    if i < |s| && IsWordChar(s[i]) then 1 + WordRun(s, i + 1) else 0
  }

  /** How many characters other than line terminators follow `i`: what a greedy `.+` takes. */
  function LineRun(s: string, i: nat): (n: nat)
    requires i <= |s|
    ensures i + n <= |s|
    ensures forall k :: i <= k < i + n ==> !IsLineTerminator(s[k])
    ensures i + n == |s| || IsLineTerminator(s[i + n])
    decreases |s| - i
  {
    if i < |s| && !IsLineTerminator(s[i]) then 1 + LineRun(s, i + 1) else 0
  }

  /** `\.s3\.\w{2}-\w+-\d\.amazonaws\.com` as a whole string. */
  predicate TailShape(t: string) {
    |t| >= 24 && t[..4] == ".s3." && IsWordChar(t[4]) && IsWordChar(t[5]) && t[6] == '-'
    && (forall k :: 7 <= k < |t| - 16 ==> IsWordChar(t[k]))
    && t[|t| - 16] == '-' && IsDigit(t[|t| - 15]) && t[|t| - 14..] == AwsSuffix
  }

  /** `h` is a label of `n` characters followed by the tail. */
  predicate SplitsAt(h: string, n: nat) {
    n <= |h| && (forall k :: 0 <= k < n ==> IsLabelChar(h[k])) && TailShape(h[n..])
  }

  /** The first capture: a bucket host the pattern accepts. */
  predicate HostShape(h: string) {
    exists n: nat :: MinLabel <= n <= MaxLabel && SplitsAt(h, n)
  }

  /** The second capture: `/` and at least one more character, none of them a line terminator. */
  predicate PathShape(p: string) {
    |p| >= 2 && p[0] == '/' && forall k :: 1 <= k < |p| ==> !IsLineTerminator(p[k])
  }

  /**
   * `Prefix + h + p` occurs at `i` in `s`, and `p` runs up to the end of
   * the line, as the greedy `.+` leaves it.
   */
  predicate MatchesAt(s: string, i: nat, h: string, p: string) {
    var end := i + |Prefix| + |h| + |p|;
    end <= |s| && s[i..end] == Prefix + h + p && (end == |s| || IsLineTerminator(s[end]))
  }

  /** The rest of the pattern after the label, from `j`: where `.amazonaws.com` ends. */
  function TailEnd(s: string, j: nat): Option<nat>
    requires j <= |s|
  {
    if j + 7 <= |s| && s[j..j + 4] == ".s3." && IsWordChar(s[j + 4]) && IsWordChar(s[j + 5]) && s[j + 6] == '-' then
      var k := j + 7 + WordRun(s, j + 7);
      if k > j + 7 && k + 16 <= |s| && s[k] == '-' && IsDigit(s[k + 1]) && s[k + 2..k + 16] == AwsSuffix
      then Some(k + 16)
      else None
    else None
  }

  /** `s[from..to]` is made of label characters. */
  predicate LabelRun(s: string, from: nat, to: nat)
    requires from <= to <= |s|
  {
    forall k :: from <= k < to ==> IsLabelChar(s[k])
  }

  /** The pattern at `i` with a label of exactly `n` characters: the two captures. */
  function MatchAt(s: string, i: nat, n: nat): Option<(string, string)>
    requires i <= |s|
  {
    var j := i + |Prefix| + n;
    if j <= |s| && s[i..i + |Prefix|] == Prefix && LabelRun(s, i + |Prefix|, j) then
      match TailEnd(s, j)
      case None => None
      case Some(e) =>
        if e < |s| && s[e] == '/' && LineRun(s, e + 1) >= 1
        then Some((s[i + |Prefix|..e], s[e..e + 1 + LineRun(s, e + 1)]))
        else None
    else None
  }

  /** The greedy `{3,63}`: labels of `n`, `n - 1`, … down to 3 characters in turn. */
  function MatchLabel(s: string, i: nat, n: nat): Option<(string, string)>
    requires i <= |s|
  {
    if n < MinLabel then None
    else match MatchAt(s, i, n)
      case Some(m) => Some(m)
      case None => MatchLabel(s, i, n - 1)
  }

  /** `exec`: the first start position, from `i` on, where the pattern matches. */
  function Exec(s: string, i: nat): Option<(string, string)>
    requires i <= |s|
    decreases |s| - i
  {
    var m := MatchLabel(s, i, MaxLabel);
    if m.Some? then m
    else if i == |s| then None
    else Exec(s, i + 1)
  }

  /** The tail is made of `\w`, `.` and `-` only. */
  lemma {:induction false} TailChars(t: string)
    requires TailShape(t)
    ensures forall k :: 0 <= k < |t| ==> IsWordChar(t[k]) || t[k] == '.' || t[k] == '-'
  {
    forall k | 0 <= k < |t| ensures IsWordChar(t[k]) || t[k] == '.' || t[k] == '-' {
      if k < 4 {
        assert t[k] == ".s3."[k];
      } else if k >= |t| - 14 {
        assert t[k] == AwsSuffix[k - (|t| - 14)];
      }
    }
  }

  /** A host the pattern accepts holds no `/` and no line terminator. */
  lemma {:induction false} HostChars(h: string, n: nat)
    requires SplitsAt(h, n)
    ensures forall k :: 0 <= k < |h| ==> h[k] != '/' && !IsLineTerminator(h[k])
  {
    TailChars(h[n..]);
    forall k | 0 <= k < |h| ensures h[k] != '/' && !IsLineTerminator(h[k]) {
      if k >= n {
        assert h[k] == h[n..][k - n];
      }
    }
  }

  /** What `TailEnd` accepts has the tail shape. */
  lemma {:induction false} TailEndShape(s: string, j: nat)
    requires j <= |s| && TailEnd(s, j).Some?
    ensures j <= TailEnd(s, j).value <= |s| && TailShape(s[j..TailEnd(s, j).value])
  {
    var e := TailEnd(s, j).value;
    var t := s[j..e];
    var k := j + 7 + WordRun(s, j + 7);
    assert e == k + 16;
    assert t[..4] == s[j..j + 4];
    assert t[|t| - 14..] == s[k + 2..k + 16];
    forall x | 7 <= x < |t| - 16 ensures IsWordChar(t[x]) {
      assert t[x] == s[j + x];
    }
  }

  /** `TailEnd` finds every tail: the word run stops at the `-` before the digit. */
  lemma {:induction false} TailShapeEnd(s: string, j: nat, e: nat)
    requires j <= e <= |s| && TailShape(s[j..e])
    ensures TailEnd(s, j) == Some(e)
  {
    var t := s[j..e];
    assert s[j..j + 4] == t[..4];
    assert s[j + 4] == t[4] && s[j + 5] == t[5] && s[j + 6] == t[6];
    var n := WordRun(s, j + 7);
    var m := |t| - 16 - 7;
    forall x | j + 7 <= x < j + 7 + m ensures IsWordChar(s[x]) {
      assert s[x] == t[x - j];
    }
    assert s[j + 7 + m] == t[|t| - 16];
    assert n == m;
    assert s[j + 7 + m + 2..j + 7 + m + 16] == t[|t| - 14..];
  }

  /** Where `MatchAt` captures: the tail found after the label, then `/` and the rest of the line. */
  lemma {:induction false} MatchAtParts(s: string, i: nat, n: nat) returns (e: nat)
    requires i <= |s| && MatchAt(s, i, n).Some?
    ensures i + |Prefix| + n <= |s| && s[i..i + |Prefix|] == Prefix && LabelRun(s, i + |Prefix|, i + |Prefix| + n)
    ensures TailEnd(s, i + |Prefix| + n) == Some(e) && i + |Prefix| + n <= e < |s|
    ensures s[e] == '/' && LineRun(s, e + 1) >= 1
    ensures MatchAt(s, i, n).value == (s[i + |Prefix|..e], s[e..e + 1 + LineRun(s, e + 1)])
  {
    e := TailEnd(s, i + |Prefix| + n).value;
  }

  /** The host `MatchAt` captures is a label of `n` characters and the tail. */
  lemma {:induction false} MatchAtHost(s: string, i: nat, n: nat)
    requires i <= |s| && MatchAt(s, i, n).Some?
    ensures SplitsAt(MatchAt(s, i, n).value.0, n)
  {
    var e := MatchAtParts(s, i, n);
    var j := i + |Prefix| + n;
    TailEndShape(s, j);
    var h := s[i + |Prefix|..e];
    assert h[n..] == s[j..e];
    forall k | 0 <= k < n ensures IsLabelChar(h[k]) {
      assert h[k] == s[i + |Prefix| + k];
    }
  }

  /** The path `MatchAt` captures is `/` and the rest of the line, at least one character. */
  lemma {:induction false} MatchAtPath(s: string, i: nat, n: nat)
    requires i <= |s| && MatchAt(s, i, n).Some?
    ensures PathShape(MatchAt(s, i, n).value.1)
  {
    var e := MatchAtParts(s, i, n);
    var p := s[e..e + 1 + LineRun(s, e + 1)];
    forall k | 1 <= k < |p| ensures !IsLineTerminator(p[k]) {
      assert p[k] == s[e + k];
    }
  }

  /** What `MatchAt` captures occurs at `i`, the path reaching the end of the line. */
  lemma {:induction false} MatchAtOccurs(s: string, i: nat, n: nat)
    requires i <= |s| && MatchAt(s, i, n).Some?
    ensures MatchesAt(s, i, MatchAt(s, i, n).value.0, MatchAt(s, i, n).value.1)
  {
    var e := MatchAtParts(s, i, n);
    var r := LineRun(s, e + 1);
    MatchAtValue(s, i, n, e, r);
    OccurrenceOf(s, i, e, r, MatchAt(s, i, n).value);
  }

  /** The prefix at `i`, a host up to `e` and a path of `1 + r` characters ending a line occur at `i`. */
  lemma OccurrenceOf(s: string, i: nat, e: nat, r: nat, m: (string, string))
    requires i + |Prefix| <= e && e + 1 + r <= |s| && s[i..i + |Prefix|] == Prefix
    requires e + 1 + r == |s| || IsLineTerminator(s[e + 1 + r])
    requires m == (s[i + |Prefix|..e], s[e..e + 1 + r])
    ensures MatchesAt(s, i, m.0, m.1)
  {
    assert s[i..e + 1 + r] == s[i..i + |Prefix|] + s[i + |Prefix|..e] + s[e..e + 1 + r];
  }

  /** A match at `i` with a label of `n` characters is a genuine occurrence of the pattern. */
  lemma {:induction false} MatchAtSound(s: string, i: nat, n: nat)
    requires i <= |s| && MinLabel <= n <= MaxLabel && MatchAt(s, i, n).Some?
    ensures var m := MatchAt(s, i, n).value;
      MatchesAt(s, i, m.0, m.1) && HostShape(m.0) && PathShape(m.1)
  {
    MatchAtHost(s, i, n);
    MatchAtPath(s, i, n);
    MatchAtOccurs(s, i, n);
  }

  /** Whatever `MatchLabel` returns, some label length from 3 to `n` produced it. */
  lemma {:induction false} MatchLabelSound(s: string, i: nat, n: nat)
    requires i <= |s| && MatchLabel(s, i, n).Some?
    ensures exists l: nat :: MinLabel <= l <= n && MatchAt(s, i, l) == MatchLabel(s, i, n)
  {
    if MatchAt(s, i, n).None? {
      MatchLabelSound(s, i, n - 1);
      var l: nat :| MinLabel <= l <= n - 1 && MatchAt(s, i, l) == MatchLabel(s, i, n - 1);
      assert MatchAt(s, i, l) == MatchLabel(s, i, n);
    }
  }

  /**
   * Soundness of `exec`: a match is an occurrence of `/presign/`, a host
   * of the bucket shape and a path of at least two characters reaching the
   * end of the line.
   */
  lemma {:induction false} ExecSound(s: string, i: nat)
    requires i <= |s| && Exec(s, i).Some?
    ensures var m := Exec(s, i).value;
      HostShape(m.0) && PathShape(m.1) && exists j: nat :: i <= j <= |s| && MatchesAt(s, j, m.0, m.1)
    decreases |s| - i
  {
    if MatchLabel(s, i, MaxLabel).Some? {
      MatchLabelSound(s, i, MaxLabel);
      var l: nat :| MinLabel <= l <= MaxLabel && MatchAt(s, i, l) == MatchLabel(s, i, MaxLabel);
      MatchAtSound(s, i, l);
    } else {
      ExecSound(s, i + 1);
    }
  }

  /** `s` is `/presign/` + `host` + `path`, told by slices. */
  predicate Spells(s: string, host: string, path: string) {
    |s| == |Prefix| + |host| + |path|
    && s[..|Prefix|] == Prefix && s[|Prefix|..|Prefix| + |host|] == host && s[|Prefix| + |host|..] == path
  }

  lemma {:induction false} SpellsConcat(host: string, path: string)
    ensures Spells(Prefix + host + path, host, path)
  {
  }

  /** With no line terminator from `i` on, `.+` takes the rest of the string. */
  lemma {:induction false} LineRunAll(s: string, i: nat)
    requires i <= |s| && forall k :: i <= k < |s| ==> !IsLineTerminator(s[k])
    ensures LineRun(s, i) == |s| - i
    decreases |s| - i
  {
    if i < |s| {
      LineRunAll(s, i + 1);
    }
  }

  /** The conditions under which `MatchAt` captures, read the other way. */
  lemma {:induction false} MatchAtFrom(s: string, i: nat, n: nat, e: nat)
    requires i + |Prefix| + n <= |s| && s[i..i + |Prefix|] == Prefix && LabelRun(s, i + |Prefix|, i + |Prefix| + n)
    requires TailEnd(s, i + |Prefix| + n) == Some(e) && e < |s| && s[e] == '/' && LineRun(s, e + 1) >= 1
    ensures MatchAt(s, i, n) == Some((s[i + |Prefix|..e], s[e..e + 1 + LineRun(s, e + 1)]))
  {
  }

  /** On `/presign/` + host + path, every label length that matches ends its host where `host` ends. */
  lemma {:induction false} CapturedHostEnd(s: string, host: string, path: string, n: nat, l: nat)
    requires Spells(s, host, path) && SplitsAt(host, n) && PathShape(path)
    requires MatchAt(s, 0, l).Some?
    ensures TailEnd(s, |Prefix| + l).Some? && TailEnd(s, |Prefix| + l).value == |Prefix| + |host|
  {
    var f := |Prefix| + |host|;
    CapturedSlash(s, l);
    SliceHostChars(s, |Prefix|, f, n);
    assert s[f] == s[f..][0] == path[0];
    FirstSlash(s, |Prefix|, TailEnd(s, |Prefix| + l).value, f);
  }

  /** Two positions that each hold the first `/` from `from` on are the same. */
  lemma FirstSlash(s: string, from: nat, e: nat, f: nat)
    requires from <= e < |s| && s[e] == '/' && forall k :: from <= k < e ==> s[k] != '/'
    requires from <= f < |s| && s[f] == '/' && forall k :: from <= k < f ==> s[k] != '/'
    ensures e == f
  {
  }

  /** The host `MatchAt` captures ends at a `/`, and holds none. */
  lemma {:induction false} CapturedSlash(s: string, l: nat)
    requires MatchAt(s, 0, l).Some?
    ensures TailEnd(s, |Prefix| + l).Some?
    ensures var e := TailEnd(s, |Prefix| + l).value;
      |Prefix| <= e < |s| && s[e] == '/' && forall k :: |Prefix| <= k < e ==> s[k] != '/'
  {
    var e := MatchAtParts(s, 0, l);
    MatchAtHost(s, 0, l);
    SliceHostChars(s, |Prefix|, e, l);
  }

  /** A slice of `s` that splits as a host holds no `/` and no line terminator. */
  lemma SliceHostChars(s: string, from: nat, to: nat, n: nat)
    requires from <= to <= |s| && SplitsAt(s[from..to], n)
    ensures forall k :: from <= k < to ==> s[k] != '/' && !IsLineTerminator(s[k])
  {
    var h := s[from..to];
    HostChars(h, n);
    forall k | from <= k < to ensures s[k] != '/' && !IsLineTerminator(s[k]) {
      assert s[k] == h[k - from];
    }
  }

  /** On `/presign/` + host + path, `.+` after the host's `/` takes the rest of the path. */
  lemma {:induction false} CapturedPathRun(s: string, host: string, path: string)
    requires Spells(s, host, path) && PathShape(path)
    ensures LineRun(s, |Prefix| + |host| + 1) == |path| - 1
  {
    var e := |Prefix| + |host|;
    forall k | e + 1 <= k < |s| ensures !IsLineTerminator(s[k]) {
      assert s[k] == s[e..][k - e] == path[k - e];
    }
    LineRunAll(s, e + 1);
  }

  /** On `/presign/` + host + path, every label length that matches yields that host and path. */
  lemma {:induction false} OnlyCapture(s: string, host: string, path: string, n: nat, l: nat)
    requires Spells(s, host, path) && SplitsAt(host, n) && PathShape(path)
    requires MatchAt(s, 0, l).Some?
    ensures MatchAt(s, 0, l) == Some((host, path))
  {
    var e := |Prefix| + |host|;
    CapturedHostEnd(s, host, path, n, l);
    CapturedPathRun(s, host, path);
    MatchAtValue(s, 0, l, e, |path| - 1);
    CaptureIs(s, MatchAt(s, 0, l), e, |path| - 1, host, path);
  }

  /** What `MatchAt` captures, given where its host ends and how far its path runs. */
  lemma {:induction false} MatchAtValue(s: string, i: nat, n: nat, e: nat, run: nat)
    requires i <= |s| && MatchAt(s, i, n).Some?
    requires TailEnd(s, i + |Prefix| + n) == Some(e) && LineRun(s, e + 1) == run
    ensures e + 1 + run <= |s| && MatchAt(s, i, n) == Some((s[i + |Prefix|..e], s[e..e + 1 + run]))
  {
    var e' := MatchAtParts(s, i, n);
  }

  /** A capture whose host ends at `e` and whose path runs to the end of `s` is the `host` and `path` that spell `s`. */
  lemma CaptureIs(s: string, m: Option<(string, string)>, e: nat, run: nat, host: string, path: string)
    requires Spells(s, host, path) && e == |Prefix| + |host| && run == |path| - 1 && e < |s|
    requires m == Some((s[|Prefix|..e], s[e..e + 1 + run]))
    ensures m == Some((host, path))
  {
    assert e + 1 + run == |s|;
    assert s[e..|s|] == s[e..] == path;
  }

  /** On `/presign/` + host + path, the host's own label length matches, with that host and path. */
  lemma {:induction false} OwnLabelMatches(s: string, host: string, path: string, n: nat)
    requires Spells(s, host, path) && SplitsAt(host, n) && PathShape(path)
    ensures MatchAt(s, 0, n) == Some((host, path))
  {
    var e := |Prefix| + |host|;
    OwnLabelPieces(s, host, path, n);
    CapturedPathRun(s, host, path);
    MatchAtFrom(s, 0, n, e);
  }

  /** On `/presign/` + host + path, the label of `n` characters and the tail after it are found where the host has them. */
  lemma {:induction false} OwnLabelPieces(s: string, host: string, path: string, n: nat)
    requires Spells(s, host, path) && SplitsAt(host, n) && PathShape(path)
    ensures |Prefix| + n <= |Prefix| + |host| < |s|
    ensures s[0..0 + |Prefix|] == Prefix && LabelRun(s, |Prefix|, |Prefix| + n)
    ensures TailEnd(s, |Prefix| + n) == Some(|Prefix| + |host|) && s[|Prefix| + |host|] == '/'
    ensures s[|Prefix|..|Prefix| + |host|] == host && s[|Prefix| + |host|..|s|] == path
  {
    var e := |Prefix| + |host|;
    SliceSplits(s, |Prefix|, e, host, n);
    assert s[e] == s[e..][0] == path[0];
  }

  /** Where `s` holds a host that splits after `n` characters, its label run and its tail are found in place. */
  lemma {:induction false} SliceSplits(s: string, from: nat, to: nat, h: string, n: nat)
    requires from <= to <= |s| && s[from..to] == h && SplitsAt(h, n)
    ensures LabelRun(s, from, from + n) && TailEnd(s, from + n) == Some(to)
  {
    forall k | from <= k < from + n ensures IsLabelChar(s[k]) {
      assert s[k] == h[k - from];
    }
    assert s[from + n..to] == h[n..];
    TailShapeEnd(s, from + n, to);
  }

  /** The greedy label search, from any length at least the host's own label, finds the host and path. */
  lemma {:induction false} LabelSearch(s: string, host: string, path: string, n: nat, l: nat)
    requires Spells(s, host, path) && MinLabel <= n <= l <= MaxLabel && SplitsAt(host, n) && PathShape(path)
    ensures MatchLabel(s, 0, l) == Some((host, path))
    decreases l
  {
    if l == n {
      OwnLabelMatches(s, host, path, n);
    } else if MatchAt(s, 0, l).Some? {
      OnlyCapture(s, host, path, n, l);
    } else {
      LabelSearch(s, host, path, n, l - 1);
    }
  }

  /**
   * Completeness of `exec`: on `/presign/` + a host of the bucket shape + a
   * path of at least two characters with no line terminator, it captures
   * exactly that host and that path.
   */
  lemma {:induction false} ExecComplete(host: string, path: string)
    requires HostShape(host) && PathShape(path)
    ensures Exec(Prefix + host + path, 0) == Some((host, path))
  {
    var n: nat :| MinLabel <= n <= MaxLabel && SplitsAt(host, n);
    var s := Prefix + host + path;
    SpellsConcat(host, path);
    LabelSearch(s, host, path, n, MaxLabel);
  }

  /**
   * A host the handler accepts whose label has no dot is also one the
   * signer's region pattern accepts, and the region is what sits between
   * `.s3.` and `.amazonaws.com`.
   */
  lemma {:induction false} DotFreeHostRegion(host: string, n: nat)
    requires SplitsAt(host, n) && n > 0 && '.' !in host[..n]
    ensures RegionOf(host) == Some(host[n + 4..|host| - 14])
  {
    var region := host[n + 4..|host| - 14];
    HostChars(host, n);
    TailPieces(host, n);
    SliceNoTerminator(host, n + 4, |host| - 14);
    RegionComplete(host[..n], region);
  }

  /** A host that splits after `n` characters is its label, `.s3.`, the region and the AWS suffix. */
  lemma {:induction false} TailPieces(host: string, n: nat)
    requires SplitsAt(host, n)
    ensures n + 4 <= |host| - 14 && host == host[..n] + ".s3." + host[n + 4..|host| - 14] + AwsSuffix
  {
    var t := host[n..];
    assert t[..4] == ".s3." && t[|t| - 14..] == AwsSuffix;
    assert host[n..n + 4] == t[..4];
    assert host[|host| - 14..] == t[|t| - 14..];
    assert host == host[..n] + host[n..n + 4] + host[n + 4..|host| - 14] + host[|host| - 14..];
  }

  /** A slice of a string without line terminators has none either. */
  lemma SliceNoTerminator(h: string, from: nat, to: nat)
    requires from <= to <= |h| && forall k :: 0 <= k < |h| ==> !IsLineTerminator(h[k])
    ensures forall c :: c in h[from..to] ==> !IsLineTerminator(c)
  {
    forall c | c in h[from..to] ensures !IsLineTerminator(c) {
      var k :| 0 <= k < to - from && h[from..to][k] == c;
      assert c == h[from + k];
    }
  }

  /** The response the handler returns. */
  datatype Response =
    | Found(location: string)   // 302, with the presigned URL in `location`
    | BadRequest(body: string)  // 400

  function StatusCode(r: Response): int {
    if r.Found? then 302 else 400
  }

  /** The request the handler signs: a GET of `path` on `bucket`, query signing, no headers. */
  function PresignRequest(bucket: string, path: string): Request {
    Request(bucket, Some(path), Some("GET"), [], {}, {})
  }

  /** The access key pair read from the key-value store. */
  function StoreCredentials(kvs: string -> string): Credentials {
    Credentials(kvs("ACCESS_KEY"), kvs("SECRET_KEY"), None)
  }

  /** What `sign` makes of the request once `RequestSigner` accepted it. */
  function Presign(bucket: string, path: string, region: string, kvs: string -> string,
                   lib: UriLibrary, crypto: Crypto, clock: string): Result<(string, ParsedPath, QueryValue), SignError>
  {
    var req := PresignRequest(bucket, path);
    SignOutcome(req.(headers := WithHost(req.headers, bucket)), StoreCredentials(kvs), region, None, None, lib, crypto, clock)
  }

  /**
   * The handler as written: a URI the pattern rejects gets a 400; any
   * other is signed, and a signer that throws (`Err`) fails the whole
   * function.
   */
  function HandlerAsWritten(uri: string, kvs: string -> string, lib: UriLibrary, crypto: Crypto, clock: string): Result<Response, SignError> {
    match Exec(uri, 0)
    case None => Ok(BadRequest(BadRequestBody))
    case Some(pieces) =>
      var (bucket, path) := pieces;
      if bucket == "" || path == "" then Ok(BadRequest(BadRequestBody))
      else match RegionOf(bucket)
        case None => Err(RegionMismatch)
        case Some(region) =>
          match Presign(bucket, path, region, kvs, lib, crypto, clock)
          case Err(e) => Err(e)
          case Ok(out) => Ok(Found("https://" + bucket + out.0))
  }

  /**
   * The handler with the region check in place: a URI whose bucket the
   * signer cannot take, or whose path it cannot sign, gets the 400 too.
   */
  function Handler(uri: string, kvs: string -> string, lib: UriLibrary, crypto: Crypto, clock: string): Response {
    match Exec(uri, 0)
    case None => BadRequest(BadRequestBody)
    case Some(pieces) =>
      var (bucket, path) := pieces;
      if bucket == "" || path == "" || RegionOf(bucket).None? then BadRequest(BadRequestBody)
      else match Presign(bucket, path, RegionOf(bucket).value, kvs, lib, crypto, clock)
        case Err(_) => BadRequest(BadRequestBody)
        case Ok(out) => Found("https://" + bucket + out.0)
  }

  /** The handler, run through the signer's own state. */
  method Handle(uri: string, kvs: string -> string, lib: UriLibrary, crypto: Crypto, clock: string) returns (r: Response)
    ensures r == Handler(uri, kvs, lib, crypto, clock)
  {
    var pieces := Exec(uri, 0);
    if pieces.None? {
      return BadRequest(BadRequestBody);
    }
    var bucket := pieces.value.0;
    var path := pieces.value.1;
    if bucket == "" || path == "" {
      return BadRequest(BadRequestBody);
    }
    var request := PresignRequest(bucket, path);
    var signer := SigningContext.RequestSigner(request, StoreCredentials(kvs), lib, crypto, clock);
    if signer.Err? {
      return BadRequest(BadRequestBody);
    }
    var ctx := signer.value;
    ghost var spec := Presign(bucket, path, RegionOf(bucket).value, kvs, lib, crypto, clock);
    assert spec == SignOutcome(ctx.request, ctx.credentials, ctx.region, ctx.parsed, ctx.datetime, lib, crypto, clock);
    var result := ctx.Sign();
    if result.Err? {
      return BadRequest(BadRequestBody);
    }
    assert result.value == spec.value.0;
    return Found("https://" + bucket + result.value);
  }

  /**
   * Where the written handler answers, the corrected one answers the same;
   * where the written one throws, the corrected one gives the 400.
   */
  lemma {:induction false} HandlerAgrees(uri: string, kvs: string -> string, lib: UriLibrary, crypto: Crypto, clock: string)
    ensures HandlerAsWritten(uri, kvs, lib, crypto, clock).Ok? ==>
      Handler(uri, kvs, lib, crypto, clock) == HandlerAsWritten(uri, kvs, lib, crypto, clock).value
    ensures HandlerAsWritten(uri, kvs, lib, crypto, clock).Err? ==>
      Handler(uri, kvs, lib, crypto, clock) == BadRequest(BadRequestBody)
  {
  }

  /**
   * A redirect happens only for a URI holding `/presign/`, a bucket host
   * the region pattern also accepts and a path; it points at that host,
   * followed by the presigned path.
   */
  lemma {:induction false} HandlerRedirectSound(uri: string, kvs: string -> string, lib: UriLibrary, crypto: Crypto, clock: string)
    requires Handler(uri, kvs, lib, crypto, clock).Found?
    ensures exists bucket, path, i: nat ::
      && i <= |uri| && MatchesAt(uri, i, bucket, path)
      && HostShape(bucket) && PathShape(path) && RegionOf(bucket).Some?
      && Presign(bucket, path, RegionOf(bucket).value, kvs, lib, crypto, clock).Ok?
      && Handler(uri, kvs, lib, crypto, clock).location
         == "https://" + bucket + Presign(bucket, path, RegionOf(bucket).value, kvs, lib, crypto, clock).value.0
  {
    var m := Exec(uri, 0).value;
    ExecSound(uri, 0);
    var j: nat :| j <= |uri| && MatchesAt(uri, j, m.0, m.1);
    var region := RegionOf(m.0);
    assert region.Some?;
    var out := Presign(m.0, m.1, region.value, kvs, lib, crypto, clock);
    assert out.Ok? && Handler(uri, kvs, lib, crypto, clock).location == "https://" + m.0 + out.value.0;
  }

  /**
   * Every URI of the documented form whose bucket label has no dot, and
   * whose path the signer can sign, is redirected to the bucket host
   * followed by the presigned path.
   */
  lemma {:induction false} HandlerRedirectComplete(host: string, n: nat, path: string, kvs: string -> string, lib: UriLibrary, crypto: Crypto, clock: string)
    requires MinLabel <= n <= MaxLabel && SplitsAt(host, n) && '.' !in host[..n] && PathShape(path)
    requires Presign(host, path, host[n + 4..|host| - 14], kvs, lib, crypto, clock).Ok?
    ensures Handler(Prefix + host + path, kvs, lib, crypto, clock)
      == Found("https://" + host + Presign(host, path, host[n + 4..|host| - 14], kvs, lib, crypto, clock).value.0)
  {
    WellFormedRequest(host, n, path);
  }

  /** A well-formed `/presign/` URI with a dot-free bucket label is matched, and its bucket has a region. */
  lemma WellFormedRequest(host: string, n: nat, path: string)
    requires MinLabel <= n <= MaxLabel && SplitsAt(host, n) && '.' !in host[..n] && PathShape(path)
    ensures Exec(Prefix + host + path, 0) == Some((host, path))
    ensures RegionOf(host) == Some(host[n + 4..|host| - 14])
    ensures host != "" && path != ""
  {
    ExecComplete(host, path);
    DotFreeHostRegion(host, n);
  }

  /** A URI without the `/presign/<host>/<path>` form gets the 400. */
  lemma {:induction false} HandlerRejects(uri: string, kvs: string -> string, lib: UriLibrary, crypto: Crypto, clock: string)
    requires forall bucket, path, i: nat :: i <= |uri| && MatchesAt(uri, i, bucket, path) ==> !(HostShape(bucket) && PathShape(path))
    ensures Handler(uri, kvs, lib, crypto, clock) == BadRequest(BadRequestBody)
  {
    if Exec(uri, 0).Some? {
      ExecSound(uri, 0);
    }
  }

  const DottedLabel := "my" + "." + "bucket"

  const DottedTail := ".s3." + "us-east-1" + AwsSuffix

  /** `my.bucket.s3.us-east-1.amazonaws.com`. */
  const DottedBucket := DottedLabel + DottedTail

  /** `.s3.us-east-1.amazonaws.com` is a tail the handler's pattern accepts. */
  lemma DottedTailShape()
    ensures TailShape(DottedTail)
  {
    var t := DottedTail;
    var region := "us-east-1";
    assert t[..4] == ".s3.";
    assert t[4..13] == region;
    assert t[4] == 'u' && t[5] == 's' && t[6] == '-' by {
      assert region[0] == 'u' && region[1] == 's' && region[2] == '-';
    }
    forall k | 7 <= k < |t| - 16 ensures IsWordChar(t[k]) {
      assert region[3..7] == "east";
      assert t[k] == region[k - 4];
    }
    assert t[|t| - 16] == '-' && t[|t| - 15] == '1' by {
      assert region[7] == '-' && region[8] == '1';
      assert t[|t| - 16] == region[7] && t[|t| - 15] == region[8];
    }
    assert t[|t| - 14..] == AwsSuffix;
  }

  /** `my.bucket` is a label the handler accepts, and the rest is a well-formed tail. */
  lemma DottedBucketShape()
    ensures SplitsAt(DottedBucket, 9)
  {
    assert DottedBucket[9..] == DottedTail;
    DottedTailShape();
    var first := DottedLabel;
    forall k | 0 <= k < 9 ensures IsLabelChar(DottedBucket[k]) {
      assert DottedBucket[k] == first[k];
    }
  }

  /** A host whose second label does not start with `s` has no region. */
  lemma SecondLabelNotS3(host: string, n: nat)
    requires 0 < n && n + 1 < |host| && host[n] == '.' && '.' !in host[..n] && host[n + 1] != 's'
    ensures RegionOf(host) == None
  {
    IndexOfAt(host, '.', n);
    assert host[n + 1..][0] == host[n + 1];
  }

  /** The signer's region pattern stops at the first dot: `bucket.s3…` does not start with `s3.`. */
  lemma DottedBucketNoRegion()
    ensures RegionOf(DottedBucket) == None
  {
    var h := DottedBucket;
    assert h[0] == 'm' && h[1] == 'y' && h[2] == '.' && h[3] == 'b';
    assert h[..2] == [h[0], h[1]];
    SecondLabelNotS3(h, 2);
  }

  /**
   * A bucket name with a dot passes the handler's own format check, but
   * the signer's region pattern wants a dot-free first label: the handler
   * as written throws instead of answering, and the corrected one answers
   * 400.
   */
  lemma {:induction false} DottedBucketThrows(kvs: string -> string, lib: UriLibrary, crypto: Crypto, clock: string)
    ensures Exec(Prefix + DottedBucket + "/key", 0) == Some((DottedBucket, "/key"))
    ensures HandlerAsWritten(Prefix + DottedBucket + "/key", kvs, lib, crypto, clock) == Err(RegionMismatch)
    ensures Handler(Prefix + DottedBucket + "/key", kvs, lib, crypto, clock) == BadRequest(BadRequestBody)
  {
    DottedBucketShape();
    assert PathShape("/key");
    ExecComplete(DottedBucket, "/key");
    DottedBucketNoRegion();
  }

  /**
   * A path with a character `parsePath` does not accept as it is, and that
   * `decodeURI` rejects, passes the handler's pattern; the signer throws
   * on it, so the handler as written fails and the corrected one answers
   * 400.
   */
  lemma {:induction false} MalformedPathThrows(host: string, n: nat, path: string, kvs: string -> string, lib: UriLibrary, crypto: Crypto, clock: string)
    requires MinLabel <= n <= MaxLabel && SplitsAt(host, n) && '.' !in host[..n] && PathShape(path)
    requires !PathChars(path) && lib.normalize(path).None?
    ensures HandlerAsWritten(Prefix + host + path, kvs, lib, crypto, clock) == Err(UriMalformed)
    ensures Handler(Prefix + host + path, kvs, lib, crypto, clock) == BadRequest(BadRequestBody)
  {
    WellFormedRequest(host, n, path);
    PresignMalformed(host, path, host[n + 4..|host| - 14], kvs, lib, crypto, clock);
  }

  /** The signing step behind `MalformedPathThrows`. */
  lemma PresignMalformed(bucket: string, path: string, region: string,
                         kvs: string -> string, lib: UriLibrary, crypto: Crypto, clock: string)
    requires path != "" && !PathChars(path) && lib.normalize(path).None?
    ensures Presign(bucket, path, region, kvs, lib, crypto, clock) == Err(UriMalformed)
  {
    var req := PresignRequest(bucket, path);
    var signed := req.(headers := WithHost(req.headers, bucket));
    assert ParsePathOf(signed.path, lib) == Err(UriMalformed);
    assert Prepared(signed, StoreCredentials(kvs), region, None, lib, clock) == Err(UriMalformed);
  }

  /** The expiry `prepareRequest` adds leaves `X-Amz-Date` as the query had it. */
  lemma ExpiresKeepsDate(q: Query)
    ensures Get(WithExpires(WithToken(q, None)), DateKey) == Get(q, DateKey)
  {
    SetGet(q, ExpiresKey, Scalar(DefaultExpires), DateKey);
  }

  /**
   * A query giving `X-Amz-Date` twice parses to an array under that key;
   * `prepareRequest` keeps it as the datetime and `getDate` throws on it,
   * so the handler as written fails and the corrected one answers 400.
   */
  lemma {:induction false} RepeatedDateThrows(host: string, n: nat, path: string, vs: seq<string>,
                                              kvs: string -> string, lib: UriLibrary, crypto: Crypto, clock: string)
    requires MinLabel <= n <= MaxLabel && SplitsAt(host, n) && '.' !in host[..n] && PathShape(path)
    requires PathChars(path) && Get(QueryOrEmpty(SplitAtQuery(path, lib).query), DateKey) == Some(List(vs))
    ensures HandlerAsWritten(Prefix + host + path, kvs, lib, crypto, clock) == Err(DateNotString)
    ensures Handler(Prefix + host + path, kvs, lib, crypto, clock) == BadRequest(BadRequestBody)
  {
    WellFormedRequest(host, n, path);
    PresignDateNotString(host, path, host[n + 4..|host| - 14], vs, kvs, lib, crypto, clock);
  }

  /** The signing step behind `RepeatedDateThrows`. */
  lemma PresignDateNotString(bucket: string, path: string, region: string, vs: seq<string>,
                             kvs: string -> string, lib: UriLibrary, crypto: Crypto, clock: string)
    requires path != "" && PathChars(path) && Get(QueryOrEmpty(SplitAtQuery(path, lib).query), DateKey) == Some(List(vs))
    ensures Presign(bucket, path, region, kvs, lib, crypto, clock) == Err(DateNotString)
  {
    var req := PresignRequest(bucket, path);
    var signed := req.(headers := WithHost(req.headers, bucket));
    PlainPathParses(path, lib);
    PreparedDateNotString(signed, StoreCredentials(kvs), region, SplitAtQuery(path, lib), vs, lib, clock);
  }

  lemma PlainPathParses(path: string, lib: UriLibrary)
    requires path != "" && PathChars(path)
    ensures ParsePathOf(Some(path), lib) == Ok(SplitAtQuery(path, lib))
  {
  }

  /** Without a session token, an array under `X-Amz-Date` makes `prepareRequest` throw. */
  lemma PreparedDateNotString(req: Request, cred: Credentials, region: string, pp: ParsedPath, vs: seq<string>,
                              lib: UriLibrary, clock: string)
    requires ParsePathOf(req.path, lib) == Ok(pp) && cred.sessionToken == None
    requires Get(QueryOrEmpty(pp.query), DateKey) == Some(List(vs))
    ensures Prepared(req, cred, region, None, lib, clock) == Err(DateNotString)
  {
    var q := QueryOrEmpty(pp.query);
    ExpiresKeepsDate(q);
    assert ChosenDateTime(WithExpires(WithToken(q, None)), None, req.headers, lib, clock) == Ok(List(vs));
  }
}

=== FILE: js_object.dfy ===
/**
 * A plain JavaScript object used as a dictionary (the header object and the
 * parsed query of the presigner): string keys, each present at most once,
 * kept in the order they were first added.  Assigning to a present key
 * changes its value in place; assigning to a new key appends it; `delete`
 * removes it.
 */
module JsObject {
  import opened Wrappers

  predicate UniqueKeys<V>(es: seq<(string, V)>) {
    forall i, j :: 0 <= i < j < |es| ==> es[i].0 != es[j].0
  }

  type Dict<V> = es: seq<(string, V)> | UniqueKeys(es) witness []

  /** `Object.keys(o)`. */
  function Keys<V>(o: seq<(string, V)>): (ks: seq<string>)
    ensures |ks| == |o|
    ensures forall i :: 0 <= i < |o| ==> ks[i] == o[i].0
  {
    if o == [] then [] else [o[0].0] + Keys(o[1..])
  }

  lemma KeysCons<V>(e: (string, V), o: seq<(string, V)>)
    ensures Keys([e] + o) == [e.0] + Keys(o)
  {
    assert ([e] + o)[1..] == o;
  }

  lemma ConsUnique<V>(e: (string, V), o: Dict<V>)
    requires e.0 !in Keys(o)
    ensures UniqueKeys([e] + o)
  {
    var r := [e] + o;
    forall i, j | 0 <= i < j < |r| ensures r[i].0 != r[j].0 {
      if i == 0 {
        assert r[j].0 == Keys(o)[j - 1];
      } else {
        assert r[i] == o[i - 1] && r[j] == o[j - 1];
      }
    }
  }

  /** `o[k]`, with `None` for a missing key. */
  function Get<V>(o: seq<(string, V)>, k: string): (r: Option<V>)
    ensures r.Some? <==> k in Keys(o)
  {
    if o == [] then None
    else if o[0].0 == k then Some(o[0].1)
    else Get(o[1..], k)
  }

  lemma GetCons<V>(e: (string, V), o: seq<(string, V)>, k: string)
    ensures Get([e] + o, k) == if e.0 == k then Some(e.1) else Get(o, k)
  {
    assert ([e] + o)[1..] == o;
  }

  lemma {:induction false} GetAt<V>(o: Dict<V>, i: int)
    requires 0 <= i < |o|
    ensures Get(o, o[i].0) == Some(o[i].1)
  {
    if i > 0 {
      GetAt(o[1..], i - 1);
      assert o[i] == o[1..][i - 1];
    }
  }

  /** The rest of an object after its first entry: still an object, without the first key. */
  lemma Uncons<V>(o: Dict<V>)
    requires o != []
    ensures UniqueKeys(o[1..]) && o[0].0 !in Keys(o[1..])
    ensures Keys(o) == [o[0].0] + Keys(o[1..])
  {
    forall i | 0 <= i < |o| - 1 ensures Keys(o[1..])[i] != o[0].0 {
      assert o[1..][i] == o[i + 1];
    }
    KeysCons(o[0], o[1..]);
    assert o == [o[0]] + o[1..];
  }

  /** `o[k] = v`: an existing key keeps its place, a new one goes last. */
  function Set<V>(o: Dict<V>, k: string, v: V): (r: Dict<V>)
    ensures Keys(r) == if k in Keys(o) then Keys(o) else Keys(o) + [k]
  {
    if o == [] then [(k, v)]
    else if o[0].0 == k then
      Uncons(o);
      KeysCons((k, v), o[1..]);
      ConsUnique((k, v), o[1..]);
      [(k, v)] + o[1..]
    else
      Uncons(o);
      var rest := Set(o[1..], k, v);
      KeysCons(o[0], rest);
      ConsUnique(o[0], rest);
      [o[0]] + rest
  }

  /** After `o[k] = v`, `k` reads `v` and every other key reads as before. */
  lemma {:induction false} SetGet<V>(o: Dict<V>, k: string, v: V, k': string)
    ensures Get(Set(o, k, v), k') == if k' == k then Some(v) else Get(o, k')
  {
    if o == [] {
      GetCons((k, v), [], k');
    } else if o[0].0 == k {
      GetCons((k, v), o[1..], k');
      GetCons(o[0], o[1..], k');
    } else {
      SetGet(o[1..], k, v, k');
      GetCons(o[0], Set(o[1..], k, v), k');
      GetCons(o[0], o[1..], k');
    }
  }

  /** `delete o[k]`. */
  function Delete<V>(o: Dict<V>, k: string): (r: Dict<V>)
    ensures forall k' :: k' in Keys(r) <==> k' in Keys(o) && k' != k
  {
    if o == [] then []
    else if o[0].0 == k then
      KeysCons(o[0], o[1..]);
      o[1..]
    else
      var rest := Delete(o[1..], k);
      KeysCons(o[0], rest);
      KeysCons(o[0], o[1..]);
      ConsUnique(o[0], rest);
      [o[0]] + rest
  }

  /** After `delete o[k]`, `k` is missing and every other key reads as before. */
  lemma {:induction false} DeleteGet<V>(o: Dict<V>, k: string, k': string)
    ensures Get(Delete(o, k), k') == if k' == k then None else Get(o, k')
  {
    if o != [] {
      GetCons(o[0], o[1..], k');
      if o[0].0 != k {
        DeleteGet(o[1..], k, k');
        GetCons(o[0], Delete(o[1..], k), k');
      }
    }
  }

  /** Deleting a key that is not there leaves the object as it was, order included. */
  lemma {:induction false} DeleteAbsent<V>(o: Dict<V>, k: string)
    requires k !in Keys(o)
    ensures Delete(o, k) == o
  {
    if o != [] {
      assert o == [o[0]] + o[1..];
      KeysCons(o[0], o[1..]);
      DeleteAbsent(o[1..], k);
    }
  }

  /** Adding a new key and then deleting another is deleting first and appending the new entry. */
  lemma {:induction false} DeleteSetFresh<V>(o: Dict<V>, k: string, v: V, d: string)
    requires k !in Keys(o) && k != d
    ensures Delete(Set(o, k, v), d) == Delete(o, d) + [(k, v)]
  {
    if o != [] {
      Uncons(o);
      var s := Set(o, k, v);
      var rest := Set(o[1..], k, v);
      assert s == [o[0]] + rest;
      assert s[0] == o[0] && s[1..] == rest;
      DeleteCons(s, d);
      DeleteCons(o, d);
      DeleteSetFresh(o[1..], k, v, d);
      if o[0].0 == d {
        DeleteAbsent(o[1..], d);
        DeleteAbsent(rest, d);
      }
    }
  }

  /** `delete` looks at the first entry, then at the rest. */
  lemma DeleteCons<V>(o: Dict<V>, d: string)
    requires o != []
    ensures Delete(o, d) == if o[0].0 == d then o[1..] else [o[0]] + Delete(o[1..], d)
  {
  }
}

=== FILE: js_string.dfy ===
/**
 * The parts of JavaScript's string semantics that the two edge functions rely
 * on: the `<` order of strings (used by `Array.prototype.sort` with no
 * comparator), ASCII `toLowerCase`, `split` on a one-character separator,
 * `join`, and the `\s` class used by `trim` and `replace(/\s+/g, " ")`.
 *
 * A Dafny `char` is a Unicode scalar value; a JavaScript string is a
 * sequence of UTF-16 code units.  Every well-formed JavaScript string is a
 * `string` here; lone surrogates are not representable.
 */
module JsString {

  /**
   * JavaScript compares strings by UTF-16 code units.  For two different
   * scalar values that order is: everything below U+D800, then every
   * supplementary character (its first unit is a surrogate, 0xD800-0xDBFF),
   * then U+E000..U+FFFF.  Shifting U+E000..U+FFFF above U+10FFFF gives a
   * rank whose integer order is exactly that order.
   */
  function CodeUnitRank(c: char): int {
    if 0xE000 <= c as int <= 0xFFFF then c as int + 0x20_0000 else c as int
  }

  /** JavaScript's `a < b` on two strings. */
  predicate Less(a: string, b: string)
    decreases |a|
  {
    if a == [] then b != []
    else if b == [] then false
    else if a[0] == b[0] then Less(a[1..], b[1..])
    else CodeUnitRank(a[0]) < CodeUnitRank(b[0])
  }

  predicate LessEq(a: string, b: string) {
    a == b || Less(a, b)
  }

  lemma {:induction false} LessIrreflexive(a: string)
    ensures !Less(a, a)
  {
    if a != [] {
      LessIrreflexive(a[1..]);
    }
  }

  lemma {:induction false} LessTransitive(a: string, b: string, c: string)
    requires Less(a, b) && Less(b, c)
    ensures Less(a, c)
  {
    if a != [] && a[0] == b[0] && b[0] == c[0] {
      LessTransitive(a[1..], b[1..], c[1..]);
    }
  }

  /** The order is total: of two different strings one is below the other. */
  lemma {:induction false} LessTotal(a: string, b: string)
    ensures a == b || Less(a, b) || Less(b, a)
  {
    if a != [] && b != [] && a[0] == b[0] {
      LessTotal(a[1..], b[1..]);
      assert a == [a[0]] + a[1..] && b == [b[0]] + b[1..];
    }
  }

  lemma LessAsymmetric(a: string, b: string)
    requires Less(a, b)
    ensures !Less(b, a)
  {
    if Less(b, a) {
      LessTransitive(a, b, a);
      LessIrreflexive(a);
    }
  }

  lemma LessEqTransitive(a: string, b: string, c: string)
    requires LessEq(a, b) && LessEq(b, c)
    ensures LessEq(a, c)
  {
    if a != b && b != c {
      LessTransitive(a, b, c);
    }
  }

  lemma LessEqAntisymmetric(a: string, b: string)
    requires LessEq(a, b) && LessEq(b, a)
    ensures a == b
  {
    if a != b {
      LessAsymmetric(a, b);
    }
  }

  /** `toLowerCase` on the ASCII letters. */
  function LowerChar(c: char): char {
    if 'A' <= c <= 'Z' then (c as int + 32) as char else c
  }

  function Lower(s: string): (r: string)
    ensures |r| == |s|
    ensures forall i :: 0 <= i < |s| ==> r[i] == LowerChar(s[i])
  {
    seq(|s|, i requires 0 <= i < |s| => LowerChar(s[i]))
  }

  /** `s.indexOf(c)`: the first position of `c`, or -1. */
  function IndexOf(s: string, c: char): (i: int)
    ensures -1 <= i < |s|
    ensures i >= 0 ==> s[i] == c && c !in s[..i]
    ensures i == -1 ==> c !in s
  {
    if s == [] then -1
    else if s[0] == c then 0
    else
      var j := IndexOf(s[1..], c);
      if j < 0 then
        assert s == [s[0]] + s[1..];
        -1
      else
        assert s[..j + 1] == [s[0]] + s[1..][..j];
        j + 1
  }

  /** The first occurrence is where `c` occurs with no `c` before it. */
  lemma {:induction false} IndexOfAt(s: string, c: char, i: int)
    requires 0 <= i < |s| && s[i] == c && c !in s[..i]
    ensures IndexOf(s, c) == i
  {
    if i > 0 {
      assert s[0] in s[..i];
      assert s[1..][i - 1] == c && s[1..][..i - 1] == s[1..i];
      assert forall x :: x in s[1..i] ==> x in s[..i];
      IndexOfAt(s[1..], c, i - 1);
    }
  }

  /** `parts.join(sep)`. */
  function Join(parts: seq<string>, sep: string): string
  {
    if |parts| == 0 then ""
    else if |parts| == 1 then parts[0]
    else parts[0] + sep + Join(parts[1..], sep)
  }

  /** `s.split(d)` for a one-character separator `d`. */
  function Split(s: string, d: char): (r: seq<string>)
    ensures |r| >= 1
  {
    if s == [] then [""]
    else
      var rest := Split(s[1..], d);
      if s[0] == d then [""] + rest else [[s[0]] + rest[0]] + rest[1..]
  }

  /** No piece produced by `split` contains the separator. */
  lemma {:induction false} SplitPiecesFree(s: string, d: char)
    ensures forall p :: p in Split(s, d) ==> d !in p
  {
    if s != [] {
      SplitPiecesFree(s[1..], d);
    }
  }

  /** `s.split(d).join(d) == s`. */
  lemma {:induction false} JoinSplit(s: string, d: char)
    ensures Join(Split(s, d), [d]) == s
  {
    if s != [] {
      var rest := Split(s[1..], d);
      JoinSplit(s[1..], d);
      if s[0] == d {
        assert Split(s, d) == [""] + rest;
      } else {
        var r := Split(s, d);
        assert r == [[s[0]] + rest[0]] + rest[1..];
        if |rest| == 1 {
          assert r == [[s[0]] + rest[0]];
        } else {
          assert r[1..] == rest[1..];
          assert Join(rest, [d]) == rest[0] + [d] + Join(rest[1..], [d]);
        }
      }
    }
  }

  lemma {:induction false} SplitFree(x: string, d: char)
    requires d !in x
    ensures Split(x, d) == [x]
  {
    if x != [] {
      SplitFree(x[1..], d);
      assert [x[0]] + x[1..] == x;
    }
  }

  lemma {:induction false} SplitCons(x: string, y: string, d: char)
    requires d !in x
    ensures Split(x + [d] + y, d) == [x] + Split(y, d)
  {
    if x == [] {
      assert x + [d] + y == [d] + y;
      assert ([d] + y)[1..] == y;
    } else {
      var s := x + [d] + y;
      assert s[0] == x[0] && s[1..] == x[1..] + [d] + y;
      SplitCons(x[1..], y, d);
      assert [x[0]] + x[1..] == x;
    }
  }

  /** Joining separator-free pieces and splitting again gives the pieces back. */
  lemma {:induction false} SplitJoin(parts: seq<string>, d: char)
    requires |parts| >= 1
    requires forall p :: p in parts ==> d !in p
    ensures Split(Join(parts, [d]), d) == parts
  {
    if |parts| == 1 {
      SplitFree(parts[0], d);
    } else {
      SplitJoin(parts[1..], d);
      SplitCons(parts[0], Join(parts[1..], [d]), d);
      assert [parts[0]] + parts[1..] == parts;
    }
  }

  /** Joining two non-empty lists of parts is joining each and putting the separator between. */
  lemma {:induction false} JoinAppend(a: seq<string>, b: seq<string>, sep: string)
    requires a != [] && b != []
    ensures Join(a + b, sep) == Join(a, sep) + sep + Join(b, sep)
  {
    if |a| == 1 {
      assert (a + b)[1..] == b;
    } else {
      JoinAppend(a[1..], b, sep);
      assert (a + b)[1..] == a[1..] + b;
    }
  }

  /** A joined string holds only characters of its parts and of the separator. */
  lemma {:induction false} JoinChars(parts: seq<string>, sep: string, allowed: char -> bool)
    requires forall p, c :: p in parts && c in p ==> allowed(c)
    requires forall c :: c in sep ==> allowed(c)
    ensures forall c :: c in Join(parts, sep) ==> allowed(c)
  {
    if |parts| > 1 {
      JoinChars(parts[1..], sep, allowed);
      assert parts[0] in parts;
    } else if |parts| == 1 {
      assert parts[0] in parts;
    }
  }

  /**
   * The `\s` class of JavaScript regular expressions, which is also the set
   * `trim` removes: WhiteSpace and LineTerminator of ECMA-262.
   */
  predicate IsSpace(c: char) {
    var n := c as int;
    n == 0x09 || n == 0x0A || n == 0x0B || n == 0x0C || n == 0x0D || n == 0x20 ||
    n == 0xA0 || n == 0x1680 || (0x2000 <= n <= 0x200A) || n == 0x2028 ||
    n == 0x2029 || n == 0x202F || n == 0x205F || n == 0x3000 || n == 0xFEFF
  }

  function TrimStart(s: string): (r: string)
    ensures |r| <= |s|
    ensures r == [] || !IsSpace(r[0])
  {
    if s != [] && IsSpace(s[0]) then TrimStart(s[1..]) else s
  }

  function TrimEnd(s: string): (r: string)
    ensures |r| <= |s|
    ensures r == [] || !IsSpace(r[|r| - 1])
  {
    if s != [] && IsSpace(s[|s| - 1]) then TrimEnd(s[..|s| - 1]) else s
  }

  /** `s.trim()`. */
  function Trim(s: string): string {
    TrimEnd(TrimStart(s))
  }

  /** `s.replace(/\s+/g, " ")`: every maximal run of `\s` becomes one space. */
  function CollapseSpaces(s: string): string
    decreases |s|
  {
    if s == [] then []
    else if IsSpace(s[0]) then [' '] + CollapseSpaces(TrimStart(s))
    else [s[0]] + CollapseSpaces(s[1..])
  }

  /** `trimAll` of the presigner: trim, then collapse inner runs. */
  function TrimAll(s: string): string {
    CollapseSpaces(Trim(s))
  }

  /**
   * A header value in canonical form: the only white space is a plain
   * space, and every space stands alone between two other characters.
   */
  predicate Normalized(t: string) {
    forall i :: 0 <= i < |t| && IsSpace(t[i]) ==>
      t[i] == ' ' && 0 < i < |t| - 1 && !IsSpace(t[i - 1]) && !IsSpace(t[i + 1])
  }

  /** The characters of `s` that are not white space, in order. */
  function NonSpace(s: string): string {
    if s == [] then [] else (if IsSpace(s[0]) then [] else [s[0]]) + NonSpace(s[1..])
  }

  lemma {:induction false} NonSpaceAppend(a: string, b: string)
    ensures NonSpace(a + b) == NonSpace(a) + NonSpace(b)
  {
    if a == [] {
      assert a + b == b;
    } else {
      assert (a + b)[1..] == a[1..] + b;
      NonSpaceAppend(a[1..], b);
    }
  }

  lemma {:induction false} TrimStartKeepsText(s: string)
    ensures NonSpace(TrimStart(s)) == NonSpace(s)
  {
    if s != [] && IsSpace(s[0]) {
      TrimStartKeepsText(s[1..]);
    }
  }

  lemma {:induction false} TrimEndKeepsText(s: string)
    ensures NonSpace(TrimEnd(s)) == NonSpace(s)
  {
    if s != [] && IsSpace(s[|s| - 1]) {
      var p := s[..|s| - 1];
      TrimEndKeepsText(p);
      assert s == p + [s[|s| - 1]];
      NonSpaceAppend(p, [s[|s| - 1]]);
    }
  }

  /** Every space in `r` is a plain ' ' and is never followed by another one. */
  predicate SingleSpaces(r: string) {
    forall i :: 0 <= i < |r| && IsSpace(r[i]) ==> r[i] == ' ' && (i + 1 < |r| ==> !IsSpace(r[i + 1]))
  }

  lemma {:induction false} CollapseSingle(s: string)
    ensures SingleSpaces(CollapseSpaces(s))
    decreases |s|
  {
    if s != [] {
      var t := if IsSpace(s[0]) then TrimStart(s) else s[1..];
      var x := if IsSpace(s[0]) then ' ' else s[0];
      var c := CollapseSpaces(t);
      CollapseSingle(t);
      CollapseEnds(t);
      assert IsSpace(x) ==> c == [] || !IsSpace(c[0]);
      var r := CollapseSpaces(s);
      assert r == [x] + c;
      forall i | 0 <= i < |r| && IsSpace(r[i])
        ensures r[i] == ' ' && (i + 1 < |r| ==> !IsSpace(r[i + 1]))
      {
        if i > 0 {
          assert r[i] == c[i - 1];
          assert i + 1 < |r| ==> r[i + 1] == c[i];
        }
      }
    }
  }

  /** CollapseSpaces keeps the first and the last character white space or not. */
  lemma {:induction false} CollapseEnds(s: string)
    ensures |CollapseSpaces(s)| == 0 <==> |s| == 0
    ensures s != [] ==> (IsSpace(CollapseSpaces(s)[0]) <==> IsSpace(s[0]))
    ensures s != [] ==> (IsSpace(CollapseSpaces(s)[|CollapseSpaces(s)| - 1]) <==> IsSpace(s[|s| - 1]))
    decreases |s|
  {
    if s != [] {
      if IsSpace(s[0]) {
        TrimStartEnd(s);
        CollapseEnds(TrimStart(s));
      } else {
        CollapseEnds(s[1..]);
      }
    }
  }

  lemma {:induction false} CollapseKeepsText(s: string)
    ensures NonSpace(CollapseSpaces(s)) == NonSpace(s)
    decreases |s|
  {
    if s != [] {
      if IsSpace(s[0]) {
        var t := TrimStart(s);
        CollapseKeepsText(t);
        TrimStartKeepsText(s);
        NonSpaceAppend([' '], CollapseSpaces(t));
      } else {
        CollapseKeepsText(s[1..]);
        NonSpaceAppend([s[0]], CollapseSpaces(s[1..]));
      }
    }
  }

  /** Trimming the start of a string that ends in white space keeps that property
      unless nothing is left. */
  lemma {:induction false} TrimStartEnd(s: string)
    requires s != []
    ensures var t := TrimStart(s);
      t == [] ==> IsSpace(s[|s| - 1])
    ensures var t := TrimStart(s);
      t != [] ==> t[|t| - 1] == s[|s| - 1]
  {
    if IsSpace(s[0]) && |s| > 1 {
      TrimStartEnd(s[1..]);
    }
  }

  lemma {:induction false} TrimEndStart(s: string)
    ensures var t := TrimEnd(s);
      t != [] ==> t[0] == s[0]
  {
    if s != [] && IsSpace(s[|s| - 1]) {
      TrimEndStart(s[..|s| - 1]);
    }
  }

  lemma TrimShape(s: string)
    ensures var t := Trim(s); t == [] || (!IsSpace(t[0]) && !IsSpace(t[|t| - 1]))
    ensures NonSpace(Trim(s)) == NonSpace(s)
  {
    TrimEndStart(TrimStart(s));
    TrimStartKeepsText(s);
    TrimEndKeepsText(TrimStart(s));
  }

  /**
   * `trimAll` yields a canonical header value and drops no visible
   * character: only white space is removed or rewritten.
   */
  lemma TrimAllNormalizes(s: string)
    ensures Normalized(TrimAll(s))
    ensures NonSpace(TrimAll(s)) == NonSpace(s)
  {
    TrimShape(s);
    CollapseSingle(Trim(s));
    CollapseEnds(Trim(s));
    CollapseKeepsText(Trim(s));
    var r := TrimAll(s);
    forall i | 0 <= i < |r| && IsSpace(r[i])
      ensures r[i] == ' ' && 0 < i < |r| - 1 && !IsSpace(r[i - 1]) && !IsSpace(r[i + 1])
    {
    }
  }

  lemma {:induction false} TrimStartNormalized(t: string)
    requires t == [] || !IsSpace(t[0])
    ensures TrimStart(t) == t
  {
  }

  lemma {:induction false} CollapseNormalized(t: string)
    requires forall i :: 0 <= i < |t| && IsSpace(t[i]) ==> t[i] == ' ' && i + 1 < |t| && !IsSpace(t[i + 1])
    ensures CollapseSpaces(t) == t
    decreases |t|
  {
    if t != [] {
      if IsSpace(t[0]) {
        assert TrimStart(t) == TrimStart(t[1..]);
        assert TrimStart(t[1..]) == t[1..];
        CollapseNormalized(t[1..]);
        assert [' '] + t[1..] == t;
      } else {
        CollapseNormalized(t[1..]);
        assert [t[0]] + t[1..] == t;
      }
    }
  }

  /** A canonical header value is left alone, so `trimAll` is idempotent. */
  lemma TrimAllIdempotent(s: string)
    ensures TrimAll(TrimAll(s)) == TrimAll(s)
  {
    var t := TrimAll(s);
    TrimAllNormalizes(s);
    assert Trim(t) == t by {
      assert TrimStart(t) == t;
      assert TrimEnd(t) == t;
    }
    CollapseNormalized(t);
  }
}

=== FILE: path_sort.dfy ===
/**
 * Sorting a parsed JSON array by the value found at a dotted path in each
 * element (intrinsicFunctions.js): `index` reads one property, `get` follows
 * a path of property names separated by `.`, `compare` subtracts numbers and
 * compares strings by their UTF-8 bytes, and `sortByPath` sorts the array in
 * place with the comparator `compareByPath(path)`.
 *
 * JavaScript values are modelled by `Value`: the values `JSON.parse` can
 * produce plus `undefined`, which a lookup of a missing property yields.
 */
module PathSort {
  import opened Wrappers
  import opened JsString
  import opened Rfc3986
  import JsObject

  datatype Value =
    | Undefined
    | Null
    | Bool(b: bool)
    | Num(n: real)
    | Str(s: string)
    | Arr(items: seq<Value>)
    | Obj(fields: seq<(string, Value)>)

  /** What a comparison can throw. */
  datatype Failure =
    | PropertyOfNullish(key: string)  // reading a property of `undefined` or `null`
    | NotNumberOrString               // `compare` with a first value that is neither
    | BufferFromNonString             // `Buffer.from(b)` with `b` not a string

  const NotNumberOrStringMessage := "value must be a number or string"

  /** A JavaScript number as a comparator returns it: a finite value or NaN. */
  datatype Number = Finite(r: real) | NaN

  // ---------------------------------------------------------------------
  // index and get
  // ---------------------------------------------------------------------

  predicate IsDigit(c: char) {
    '0' <= c <= '9'
  }

  function DigitsValue(s: string): nat
    requires forall i :: 0 <= i < |s| ==> IsDigit(s[i])
  {
    if s == [] then 0
    else
      assert IsDigit(s[|s| - 1]);
      DigitsValue(s[..|s| - 1]) * 10 + (s[|s| - 1] as int - '0' as int)
  }

  /**
   * The array index a property name denotes: a non-empty run of decimal
   * digits without a leading zero (other than "0" itself).
   */
  function ArrayIndex(key: string): (r: Option<nat>)
    ensures r.Some? ==> key != [] && forall i :: 0 <= i < |key| ==> IsDigit(key[i])
  {
    if key != [] && (forall i :: 0 <= i < |key| ==> IsDigit(key[i])) && (key == "0" || key[0] != '0')
    then Some(DigitsValue(key))
    else None
  }

  /** `o[key]`: the property `key` of `o`. */
  function Index(o: Value, key: string): Result<Value, Failure> {
    match o
    case Undefined => Err(PropertyOfNullish(key))
    case Null => Err(PropertyOfNullish(key))
    case Bool(_) => Ok(Undefined)
    case Num(_) => Ok(Undefined)
    case Str(s) =>
      if key == "length" then Ok(Num(|s| as real))
      else if ArrayIndex(key).Some? && ArrayIndex(key).value < |s| then Ok(Str([s[ArrayIndex(key).value]]))
      else Ok(Undefined)
    case Arr(items) =>
      if key == "length" then Ok(Num(|items| as real))
      else if ArrayIndex(key).Some? && ArrayIndex(key).value < |items| then Ok(items[ArrayIndex(key).value])
      else Ok(Undefined)
    case Obj(fields) =>
      match JsObject.Get(fields, key)
      case None => Ok(Undefined)
      case Some(v) => Ok(v)
  }

  /** `keys.reduce(index, o)`: the properties followed one after the other from `o`. */
  function Follow(o: Value, keys: seq<string>): Result<Value, Failure>
    decreases |keys|
  {
    if keys == [] then Ok(o)
    else
      match Index(o, keys[0])
      case Err(e) => Err(e)
      case Ok(v) => Follow(v, keys[1..])
  }

  /** `get(o, p)`: the value at the dotted path `p`. */
  function Get(o: Value, p: string): Result<Value, Failure> {
    Follow(o, Split(p, '.'))
  }

  /** Following two lists of keys is following the first, then the second from where it ended. */
  lemma {:induction false} FollowAppend(o: Value, a: seq<string>, b: seq<string>)
    ensures Follow(o, a + b) ==
      match Follow(o, a)
      case Err(e) => Err(e)
      case Ok(v) => Follow(v, b)
    decreases |a|
  {
    if a != [] {
      assert (a + b)[0] == a[0] && (a + b)[1..] == a[1..] + b;
      match Index(o, a[0])
      case Err(e) =>
        assert Follow(o, a) == Err(e) && Follow(o, a + b) == Err(e);
      case Ok(v) =>
        FollowAppend(v, a[1..], b);
        assert Follow(o, a) == Follow(v, a[1..]) && Follow(o, a + b) == Follow(v, a[1..] + b);
    } else {
      assert a + b == b;
    }
  }

  /** A path without `.` reads the one property of that name. */
  lemma GetProperty(o: Value, p: string)
    requires '.' !in p
    ensures Get(o, p) == Index(o, p)
  {
    SplitFree(p, '.');
    assert [p][0] == p && [p][1..] == [];
    match Index(o, p)
    case Err(_) =>
    case Ok(v) => assert Follow(v, []) == Ok(v);
  }

  /**
   * `get(o, p + "." + q)` reads `p` from `o` and then `q` from there; an
   * error reading `p` is the error of the whole path.
   */
  lemma GetDotted(o: Value, p: string, q: string)
    requires '.' !in p
    ensures Get(o, p + "." + q) ==
      match Index(o, p)
      case Err(e) => Err(e)
      case Ok(v) => Get(v, q)
  {
    assert p + "." + q == p + ['.'] + q;
    SplitCons(p, q, '.');
    assert ([p] + Split(q, '.'))[0] == p;
    assert ([p] + Split(q, '.'))[1..] == Split(q, '.');
  }

  /** Every path read from `undefined` or `null` throws, naming its first property. */
  lemma GetOfNullish(o: Value, p: string)
    requires o == Undefined || o == Null
    ensures Get(o, p) == Err(PropertyOfNullish(Split(p, '.')[0]))
  {
  }

  /** A field present in an object is read back by its name. */
  lemma GetField(fields: seq<(string, Value)>, k: string, v: Value)
    requires '.' !in k
    requires (k, v) in fields && JsObject.UniqueKeys(fields)
    ensures Get(Obj(fields), k) == Ok(v)
  {
    GetProperty(Obj(fields), k);
    var i :| 0 <= i < |fields| && fields[i] == (k, v);
    var d: JsObject.Dict<Value> := fields;
    JsObject.GetAt(d, i);
  }

  // ---------------------------------------------------------------------
  // compare
  // ---------------------------------------------------------------------

  /**
   * The `ToNumber` conversion that `a - b` applies to `b`; `toNumber` is the
   * conversion of a string to a number.
   */
  function ToNumber(v: Value, toNumber: string -> Number): Number {
    match v
    case Undefined => NaN
    case Null => Finite(0.0)
    case Bool(b) => Finite(if b then 1.0 else 0.0)
    case Num(n) => Finite(n)
    case Str(s) => toNumber(s)
    case Arr(_) => NaN
    case Obj(_) => NaN
  }

  /** `Buffer.compare`: byte-wise order, a proper prefix first; -1, 0 or 1. */
  function ByteCompare(x: seq<Byte>, y: seq<Byte>): (r: int)
    ensures -1 <= r <= 1
  {
    if x == [] && y == [] then 0
    else if x == [] then -1
    else if y == [] then 1
    else if x[0] < y[0] then -1
    else if x[0] > y[0] then 1
    else ByteCompare(x[1..], y[1..])
  }

  /** `compare(a, b)`. */
  function Compare(a: Value, b: Value, toNumber: string -> Number): Result<Number, Failure> {
    match a
    case Num(x) =>
      var y := ToNumber(b, toNumber);
      if y.NaN? then Ok(NaN) else Ok(Finite(x - y.r))
    case Str(x) =>
      if b.Str? then Ok(Finite(ByteCompare(Utf8String(x), Utf8String(b.s)) as real))
      else Err(BufferFromNonString)
    case _ => Err(NotNumberOrString)
  }

  /** `compareByPath(p)(a, b)`. */
  function CompareByPath(p: string, a: Value, b: Value, toNumber: string -> Number): Result<Number, Failure> {
    match Get(a, p)
    case Err(e) => Err(e)
    case Ok(ka) =>
      match Get(b, p)
      case Err(e) => Err(e)
      case Ok(kb) => Compare(ka, kb, toNumber)
  }

  /** The sort moves `a` after `b` only when the comparator returns a positive number. */
  predicate Greater(c: Result<Number, Failure>) {
    c.Ok? && c.value.Finite? && c.value.r > 0.0
  }

  /** Byte order is antisymmetric. */
  lemma {:induction false} ByteCompareFlip(x: seq<Byte>, y: seq<Byte>)
    ensures ByteCompare(y, x) == -ByteCompare(x, y)
  {
    if x != [] && y != [] && x[0] == y[0] {
      ByteCompareFlip(x[1..], y[1..]);
    }
  }

  /** Byte order says 0 exactly for equal byte strings. */
  lemma {:induction false} ByteCompareZero(x: seq<Byte>, y: seq<Byte>)
    ensures ByteCompare(x, y) == 0 <==> x == y
  {
    if x != [] && y != [] && x[0] == y[0] {
      ByteCompareZero(x[1..], y[1..]);
      assert x == [x[0]] + x[1..] && y == [y[0]] + y[1..];
    }
  }

  /** Byte order is transitive. */
  lemma {:induction false} ByteCompareTrans(x: seq<Byte>, y: seq<Byte>, z: seq<Byte>)
    requires ByteCompare(x, y) <= 0 && ByteCompare(y, z) <= 0
    ensures ByteCompare(x, z) <= 0
  {
    if x != [] && y != [] && z != [] && x[0] == y[0] && y[0] == z[0] {
      ByteCompareTrans(x[1..], y[1..], z[1..]);
    }
  }

  /**
   * `compare` on two numbers or two strings is antisymmetric: swapping the
   * arguments negates a finite result and keeps NaN.
   */
  lemma CompareFlip(a: Value, b: Value, toNumber: string -> Number)
    requires (a.Num? && b.Num?) || (a.Str? && b.Str?)
    ensures Compare(a, b, toNumber).Ok? && Compare(b, a, toNumber).Ok?
    ensures Compare(b, a, toNumber).value ==
      match Compare(a, b, toNumber).value
      case NaN => NaN
      case Finite(r) => Finite(-r)
  {
    if a.Str? {
      ByteCompareFlip(Utf8String(a.s), Utf8String(b.s));
    }
  }

  /** Two strings compare equal exactly when they are the same string. */
  lemma CompareStringsZero(x: string, y: string, toNumber: string -> Number)
    ensures Compare(Str(x), Str(y), toNumber) == Ok(Finite(0.0)) <==> x == y
  {
    ByteCompareZero(Utf8String(x), Utf8String(y));
    if Utf8String(x) == Utf8String(y) {
      Utf8StringInjective(x, y);
    }
  }

  /** `compare` throws exactly when the first value is neither a number nor a string, or a string meets a non-string. */
  lemma CompareThrows(a: Value, b: Value, toNumber: string -> Number)
    ensures Compare(a, b, toNumber).Err? <==> !a.Num? && !(a.Str? && b.Str?)
    ensures !a.Num? && !a.Str? ==> Compare(a, b, toNumber) == Err(NotNumberOrString)
  {
  }

  /** A comparator result and its mirror image are never both "greater". */
  lemma GreaterAntisymmetric(p: string, x: Value, y: Value, toNumber: string -> Number)
    requires Greater(CompareByPath(p, y, x, toNumber))
    ensures !Greater(CompareByPath(p, x, y, toNumber))
  {
    var kx := Get(x, p).value;
    var ky := Get(y, p).value;
    if ky.Str? {
      ByteCompareFlip(Utf8String(ky.s), Utf8String(kx.s));
    }
  }

  // ---------------------------------------------------------------------
  // sortByPath
  // ---------------------------------------------------------------------

  /** No neighbouring pair of `s` is out of order for the comparator. */
  ghost predicate Ordered(s: seq<Value>, p: string, toNumber: string -> Number) {
    forall i :: 0 <= i < |s| - 1 ==> !Greater(CompareByPath(p, s[i], s[i + 1], toNumber))
  }

  /**
   * `sortByPath(arr, path)`: `arr.sort(compareByPath(path))`, in place and
   * returning the same array.  The comparison function is called on
   * neighbouring elements of a growing sorted prefix (a stable insertion
   * sort); the first comparison that throws ends the sort with that error,
   * leaving the array a rearrangement of what it held.
   */
  method SortByPath(arr: array<Value>, p: string, toNumber: string -> Number)
    returns (r: Result<array<Value>, Failure>)
    modifies arr
    ensures multiset(arr[..]) == multiset(old(arr[..]))
    ensures r.Ok? ==> r.value == arr && Ordered(arr[..], p, toNumber)
    ensures r.Err? ==>
      exists x, y :: x in arr[..] && y in arr[..] && CompareByPath(p, x, y, toNumber) == Err(r.error)
  {
    var i := 0;
    while i < arr.Length
      invariant 0 <= i <= arr.Length
      invariant multiset(arr[..]) == multiset(old(arr[..]))
      invariant Ordered(arr[..i], p, toNumber)
    {
      var e := Insert(arr, i, p, toNumber);
      if e.Some? {
        return Err(e.value);
      }
      i := i + 1;
    }
    assert arr[..] == arr[..arr.Length];
    return Ok(arr);
  }

  /**
   * One round of the sort: `arr[i]` is moved down past every element of the
   * ordered prefix `arr[..i]` that the comparator puts after it.
   */
  method Insert(arr: array<Value>, i: int, p: string, toNumber: string -> Number)
    returns (e: Option<Failure>)
    requires 0 <= i < arr.Length
    requires Ordered(arr[..i], p, toNumber)
    modifies arr
    ensures multiset(arr[..]) == multiset(old(arr[..]))
    ensures e.None? ==> Ordered(arr[..i + 1], p, toNumber)
    ensures e.Some? ==>
      exists x, y :: x in arr[..] && y in arr[..] && CompareByPath(p, x, y, toNumber) == Err(e.value)
  {
    var j := i;
    InsertStart(arr[..], i, p, toNumber);
    while 0 < j
      invariant 0 <= j <= i
      invariant multiset(arr[..]) == multiset(old(arr[..]))
      invariant Inserting(arr[..], j, i, p, toNumber)
    {
      var c := CompareByPath(p, arr[j - 1], arr[j], toNumber);
      if c.Err? {
        assert arr[j - 1] in arr[..] && arr[j] in arr[..];
        return Some(c.error);
      }
      if !Greater(c) {
        break;
      }
      InsertStep(arr[..], j, i, p, toNumber);
      Swap(arr, j);
      j := j - 1;
    }
    InsertDone(arr[..], j, i, p, toNumber);
    return None;
  }

  /** Exchanges `arr[j - 1]` and `arr[j]`. */
  method Swap(arr: array<Value>, j: int)
    requires 0 < j < arr.Length
    modifies arr
    ensures arr[..] == Swapped(old(arr[..]), j)
    ensures multiset(arr[..]) == multiset(old(arr[..]))
  {
    arr[j - 1], arr[j] := arr[j], arr[j - 1];
  }

  ghost function Swapped(s: seq<Value>, j: int): seq<Value>
    requires 0 < j < |s|
  {
    s[j - 1 := s[j]][j := s[j - 1]]
  }

  /**
   * Midway through inserting `s[j]`: the elements before it are in order,
   * so are it and the ones after it up to `i`, and its two neighbours are in
   * order with each other.
   */
  ghost predicate Inserting(s: seq<Value>, j: int, i: int, p: string, toNumber: string -> Number) {
    0 <= j <= i < |s| &&
    Ordered(s[..j], p, toNumber) &&
    Ordered(s[j..i + 1], p, toNumber) &&
    (0 < j < i ==> !Greater(CompareByPath(p, s[j - 1], s[j + 1], toNumber)))
  }

  lemma InsertStart(s: seq<Value>, i: int, p: string, toNumber: string -> Number)
    requires 0 <= i < |s| && Ordered(s[..i], p, toNumber)
    ensures Inserting(s, i, i, p, toNumber)
  {
    assert s[i..i + 1] == [s[i]];
  }

  lemma InsertDone(s: seq<Value>, j: int, i: int, p: string, toNumber: string -> Number)
    requires Inserting(s, j, i, p, toNumber)
    requires 0 < j ==> !Greater(CompareByPath(p, s[j - 1], s[j], toNumber))
    ensures Ordered(s[..i + 1], p, toNumber)
  {
    assert s[..i + 1] == s[..j] + s[j..i + 1];
    JoinOrdered(s[..j], s[j..i + 1], p, toNumber);
  }

  /** Two ordered runs whose meeting pair is in order make one ordered run. */
  lemma JoinOrdered(s: seq<Value>, t: seq<Value>, p: string, toNumber: string -> Number)
    requires Ordered(s, p, toNumber) && Ordered(t, p, toNumber)
    requires s != [] && t != [] ==> !Greater(CompareByPath(p, s[|s| - 1], t[0], toNumber))
    ensures Ordered(s + t, p, toNumber)
  {
    var u := s + t;
    forall k | 0 <= k < |u| - 1
      ensures !Greater(CompareByPath(p, u[k], u[k + 1], toNumber))
    {
      if k < |s| - 1 {
        assert u[k] == s[k] && u[k + 1] == s[k + 1];
      } else if k == |s| - 1 {
        assert u[k] == s[|s| - 1] && u[k + 1] == t[0];
      } else {
        assert u[k] == t[k - |s|] && u[k + 1] == t[k - |s| + 1];
      }
    }
  }

  /** Moving the element being inserted one place down keeps the insertion's ordering facts. */
  lemma InsertStep(s: seq<Value>, j: int, i: int, p: string, toNumber: string -> Number)
    requires 0 < j && Inserting(s, j, i, p, toNumber)
    requires Greater(CompareByPath(p, s[j - 1], s[j], toNumber))
    ensures Inserting(Swapped(s, j), j - 1, i, p, toNumber)
  {
    InsertStepPrefix(s, j, i, p, toNumber);
    InsertStepRun(s, j, i, p, toNumber);
  }

  /** The swap leaves the run below the inserted element ordered, and in order with the element it now meets. */
  lemma InsertStepPrefix(s: seq<Value>, j: int, i: int, p: string, toNumber: string -> Number)
    requires 0 < j && Inserting(s, j, i, p, toNumber)
    ensures var t := Swapped(s, j);
      Ordered(t[..j - 1], p, toNumber) && (0 < j - 1 ==> !Greater(CompareByPath(p, t[j - 2], t[j], toNumber)))
  {
    var t := Swapped(s, j);
    assert t[..j - 1] == s[..j - 1];
    forall k | 0 <= k < j - 2
      ensures !Greater(CompareByPath(p, t[k], t[k + 1], toNumber))
    {
      assert s[..j][k] == s[k] && s[..j][k + 1] == s[k + 1];
    }
    if 0 < j - 1 {
      assert s[..j][j - 2] == s[j - 2] && s[..j][j - 1] == s[j - 1];
    }
  }

  /** After the swap, the inserted element and the run above it stay in order. */
  lemma InsertStepRun(s: seq<Value>, j: int, i: int, p: string, toNumber: string -> Number)
    requires 0 < j && Inserting(s, j, i, p, toNumber)
    requires Greater(CompareByPath(p, s[j - 1], s[j], toNumber))
    ensures Ordered(Swapped(s, j)[j - 1..i + 1], p, toNumber)
  {
    GreaterAntisymmetric(p, s[j], s[j - 1], toNumber);
    var t := Swapped(s, j);
    var w := t[j - 1..i + 1];
    forall k | 0 <= k < |w| - 1
      ensures !Greater(CompareByPath(p, w[k], w[k + 1], toNumber))
    {
      if k == 0 {
        assert w[0] == s[j] && w[1] == s[j - 1];
      } else if k == 1 {
        assert w[1] == s[j - 1] && w[2] == s[j + 1];
      } else {
        assert w[k] == s[j - 1 + k] && w[k + 1] == s[j + k];
        assert s[j..i + 1][k - 1] == s[j - 1 + k] && s[j..i + 1][k] == s[j + k];
      }
    }
  }

  // ---------------------------------------------------------------------
  // What the order means for keys of one kind
  // ---------------------------------------------------------------------

  /** Every element has a number at the path. */
  ghost predicate NumberKeys(s: seq<Value>, p: string) {
    forall i :: 0 <= i < |s| ==> Get(s[i], p).Ok? && Get(s[i], p).value.Num?
  }

  /** Every element has a string at the path. */
  ghost predicate StringKeys(s: seq<Value>, p: string) {
    forall i :: 0 <= i < |s| ==> Get(s[i], p).Ok? && Get(s[i], p).value.Str?
  }

  /** With numbers at the path, an ordered array has them in ascending order. */
  lemma {:induction false} OrderedNumbers(s: seq<Value>, p: string, toNumber: string -> Number, i: int, j: int)
    requires Ordered(s, p, toNumber) && NumberKeys(s, p)
    requires 0 <= i <= j < |s|
    ensures Get(s[i], p).value.n <= Get(s[j], p).value.n
    decreases j - i
  {
    if i < j {
      OrderedNumbers(s, p, toNumber, i + 1, j);
      assert !Greater(CompareByPath(p, s[i], s[i + 1], toNumber));
    }
  }

  /** With strings at the path, an ordered array has them in ascending UTF-8 byte order. */
  lemma {:induction false} OrderedStrings(s: seq<Value>, p: string, toNumber: string -> Number, i: int, j: int)
    requires Ordered(s, p, toNumber) && StringKeys(s, p)
    requires 0 <= i <= j < |s|
    ensures ByteCompare(Utf8String(Get(s[i], p).value.s), Utf8String(Get(s[j], p).value.s)) <= 0
    decreases j - i
  {
    var bi := Utf8String(Get(s[i], p).value.s);
    if i == j {
      ByteCompareZero(bi, bi);
    } else {
      OrderedStrings(s, p, toNumber, i + 1, j);
      assert !Greater(CompareByPath(p, s[i], s[i + 1], toNumber));
      ByteCompareTrans(bi, Utf8String(Get(s[i + 1], p).value.s), Utf8String(Get(s[j], p).value.s));
    }
  }
}

=== FILE: query_string.dfy ===
/**
 * The parsed query of a request and Node's `querystring.stringify`, which
 * writes it back.  A value is a string or, for a key given more than once,
 * an array of strings; the presigner also stores the number 86400, which
 * the model keeps as the string it prints as.
 */
module QueryString {
  import opened Wrappers
  import opened JsString
  import opened Rfc3986
  import opened JsObject

  datatype QueryValue = Scalar(s: string) | List(items: seq<string>)

  type Query = Dict<QueryValue>

  /** Whether `query[k]` is truthy in JavaScript: missing and `""` are not; an array always is. */
  predicate Truthy(v: Option<QueryValue>) {
    v.Some? && (v.value.Scalar? ==> v.value.s != "")
  }

  /** Whether `x` is one of the strings a query value holds. */
  predicate Holds(v: QueryValue, x: string) {
    match v
    case Scalar(s) => s == x
    case List(items) => x in items
  }

  /** The `key=value` pairs one entry contributes: one per array element. */
  function EntryPairs(e: (string, QueryValue)): (ps: seq<(string, string)>)
    ensures forall p :: p in ps <==> p.0 == e.0 && Holds(e.1, p.1)
  {
    match e.1
    case Scalar(s) => [(e.0, s)]
    case List(items) =>
      var ps := seq(|items|, i requires 0 <= i < |items| => (e.0, items[i]));
      assert forall x :: x in items ==> (e.0, x) in ps by {
        forall x | x in items ensures (e.0, x) in ps {
          var i :| 0 <= i < |items| && items[i] == x;
          assert ps[i] == (e.0, x);
        }
      }
      ps
  }

  /** The pairs of a whole query, in key order. */
  function Pairs(q: seq<(string, QueryValue)>): seq<(string, string)> {
    if q == [] then [] else EntryPairs(q[0]) + Pairs(q[1..])
  }

  /** The pairs of two queries laid end to end. */
  lemma {:induction false} PairsAppend(a: seq<(string, QueryValue)>, b: seq<(string, QueryValue)>)
    ensures Pairs(a + b) == Pairs(a) + Pairs(b)
  {
    if a != [] {
      assert (a + b)[1..] == a[1..] + b;
      PairsAppend(a[1..], b);
    } else {
      assert a + b == b;
    }
  }

  /** Every pair comes from an entry of the query, and every value of every entry gives a pair. */
  lemma {:induction false} PairsExact(q: seq<(string, QueryValue)>, p: (string, string))
    ensures p in Pairs(q) <==> exists i :: 0 <= i < |q| && q[i].0 == p.0 && Holds(q[i].1, p.1)
  {
    if q != [] {
      PairsExact(q[1..], p);
      if p in EntryPairs(q[0]) {
        assert q[0].0 == p.0 && Holds(q[0].1, p.1);
      }
      if exists i :: 0 <= i < |q| && q[i].0 == p.0 && Holds(q[i].1, p.1) {
        var i :| 0 <= i < |q| && q[i].0 == p.0 && Holds(q[i].1, p.1);
        if i > 0 {
          assert q[1..][i - 1] == q[i];
        }
      }
    }
  }

  /** `escape(key) + "=" + escape(value)`, Node's `querystring.escape` being `encodeURIComponent`. */
  function Field(p: (string, string)): string {
    EncodeUriComponent(p.0) + "=" + EncodeUriComponent(p.1)
  }

  function Fields(ps: seq<(string, string)>): (fs: seq<string>)
    ensures |fs| == |ps|
    ensures forall i :: 0 <= i < |ps| ==> fs[i] == Field(ps[i])
  {
    if ps == [] then [] else [Field(ps[0])] + Fields(ps[1..])
  }

  /** `querystring.stringify(q)`: the fields of every pair, joined with `&`; an empty array writes nothing. */
  function Stringify(q: Query): string {
    Join(Fields(Pairs(q)), "&")
  }

  /** A pair with both halves fully encoded, as it appears after `encodeRfc3986`. */
  function EncodedField(p: (string, string)): string {
    EncodeRfc3986Full(p.0) + "=" + EncodeRfc3986Full(p.1)
  }

  function EncodedFields(ps: seq<(string, string)>): (fs: seq<string>)
    ensures |fs| == |ps|
    ensures forall i :: 0 <= i < |ps| ==> fs[i] == EncodedField(ps[i])
  {
    if ps == [] then [] else [EncodedField(ps[0])] + EncodedFields(ps[1..])
  }

  /** The encoded fields of two pair lists laid end to end. */
  lemma {:induction false} EncodedFieldsAppend(a: seq<(string, string)>, b: seq<(string, string)>)
    ensures EncodedFields(a + b) == EncodedFields(a) + EncodedFields(b)
  {
    if a == [] {
      assert a + b == b;
    } else {
      calc {
        EncodedFields(a + b);
      == { assert (a + b)[0] == a[0] && (a + b)[1..] == a[1..] + b; }
        [EncodedField(a[0])] + EncodedFields(a[1..] + b);
      == { EncodedFieldsAppend(a[1..], b); }
        [EncodedField(a[0])] + (EncodedFields(a[1..]) + EncodedFields(b));
      ==
        EncodedFields(a) + EncodedFields(b);
      }
    }
  }

  lemma EscapeField(p: (string, string))
    ensures EncodeRfc3986(Field(p)) == EncodedField(p)
  {
    var a, b := EncodeUriComponent(p.0), EncodeUriComponent(p.1);
    EncodeRfc3986Append(a + "=", b);
    EncodeRfc3986Append(a, "=");
    EncodeRfc3986Identity("=");
  }

  /** Escaping `! ' ( ) *` in the stringified query escapes each field and leaves the `&`s. */
  lemma {:induction false} EscapeJoin(ps: seq<(string, string)>)
    ensures EncodeRfc3986(Join(Fields(ps), "&")) == Join(EncodedFields(ps), "&")
  {
    if |ps| == 1 {
      EscapeField(ps[0]);
    } else if |ps| > 1 {
      EscapeJoin(ps[1..]);
      EscapeField(ps[0]);
      var f, rest := Field(ps[0]), Join(Fields(ps[1..]), "&");
      assert Fields(ps)[1..] == Fields(ps[1..]);
      assert EncodedFields(ps)[1..] == EncodedFields(ps[1..]);
      EncodeRfc3986Append(f + "&", rest);
      EncodeRfc3986Append(f, "&");
      EncodeRfc3986Identity("&");
    }
  }

  lemma EncodedFieldFree(p: (string, string))
    ensures '&' !in EncodedField(p)
    ensures Split(EncodedField(p), '=') == [EncodeRfc3986Full(p.0), EncodeRfc3986Full(p.1)]
  {
    EncodeFullAlphabet(p.0);
    EncodeFullAlphabet(p.1);
    var a, b := EncodeRfc3986Full(p.0), EncodeRfc3986Full(p.1);
    assert EncodedField(p) == a + ['='] + b;
    SplitCons(a, b, '=');
    SplitFree(b, '=');
  }

  /**
   * The query text `formatPath` emits reads back exactly: split at `&` it
   * gives one field per pair of the query, and each field splits at `=`
   * into the fully encoded key and value, whose characters are unreserved
   * characters and percent-triples only.
   */
  lemma EmittedQueryReadsBack(q: Query)
    ensures Pairs(q) == [] ==> EncodeRfc3986(Stringify(q)) == ""
    ensures Pairs(q) != [] ==> Split(EncodeRfc3986(Stringify(q)), '&') == EncodedFields(Pairs(q))
    ensures forall p :: p in Pairs(q) ==>
      Split(EncodedField(p), '=') == [EncodeRfc3986Full(p.0), EncodeRfc3986Full(p.1)]
  {
    var ps := Pairs(q);
    EscapeJoin(ps);
    forall p | p in ps
      ensures Split(EncodedField(p), '=') == [EncodeRfc3986Full(p.0), EncodeRfc3986Full(p.1)]
    {
      EncodedFieldFree(p);
    }
    if ps != [] {
      forall f | f in EncodedFields(ps) ensures '&' !in f {
        var i :| 0 <= i < |ps| && EncodedFields(ps)[i] == f;
        EncodedFieldFree(ps[i]);
      }
      SplitJoin(EncodedFields(ps), '&');
    }
  }
}

=== FILE: rfc3986.dfy ===
/**
 * Percent-encoding as the presigner does it (presign.js, `encodeRfc3986`
 * and `encodeRfc3986Full`): JavaScript's `encodeURIComponent`, which
 * escapes the UTF-8 bytes of every character outside
 * `A-Z a-z 0-9 - _ . ! ~ * ' ( )`, followed by escaping the five characters
 * `! ' ( ) *` that RFC 3986 reserves but `encodeURIComponent` keeps.  The
 * result uses only the unreserved characters of RFC 3986 section 2.3 and
 * uppercase percent-triples of section 2.1.
 */
module Rfc3986 {
  import opened Wrappers

  type Byte = b: int | 0 <= b < 256

  predicate IsAlphaNum(c: char) {
    'A' <= c <= 'Z' || 'a' <= c <= 'z' || '0' <= c <= '9'
  }

  /** The unreserved characters of RFC 3986 section 2.3. */
  predicate IsUnreserved(c: char) {
    IsAlphaNum(c) || c == '-' || c == '.' || c == '_' || c == '~'
  }

  /** The characters `encodeURIComponent` leaves literal although RFC 3986 reserves them. */
  predicate IsExtraReserved(c: char) {
    c == '!' || c == '\'' || c == '(' || c == ')' || c == '*'
  }

  /** The characters `encodeURIComponent` leaves literal. */
  predicate IsComponentSafe(c: char) {
    IsUnreserved(c) || IsExtraReserved(c)
  }

  /** The UTF-8 encoding of one Unicode scalar value. */
  function Utf8(c: char): (bs: seq<Byte>)
    ensures 1 <= |bs| <= 4
    ensures |bs| == 1 <==> c as int < 0x80
    ensures c as int < 0x80 ==> bs == [c as int]
  {
    var n := c as int;
    if n < 0x80 then [n]
    else if n < 0x800 then [0xC0 + n / 0x40, 0x80 + n % 0x40]
    else if n < 0x1_0000 then [0xE0 + n / 0x1000, 0x80 + (n / 0x40) % 0x40, 0x80 + n % 0x40]
    else [0xF0 + n / 0x4_0000, 0x80 + (n / 0x1000) % 0x40, 0x80 + (n / 0x40) % 0x40, 0x80 + n % 0x40]
  }

  function Utf8String(s: string): seq<Byte> {
    if s == [] then [] else Utf8(s[0]) + Utf8String(s[1..])
  }

  /** An uppercase hexadecimal digit, as `toString(16).toUpperCase()` writes it. */
  function HexDigit(n: int): (c: char)
    requires 0 <= n < 16
    ensures IsUpperHex(c) && HexValue(c) == n
  {
    if n < 10 then ('0' as int + n) as char else ('A' as int + n - 10) as char
  }

  predicate IsUpperHex(c: char) {
    '0' <= c <= '9' || 'A' <= c <= 'F'
  }

  predicate IsHex(c: char) {
    IsUpperHex(c) || 'a' <= c <= 'f'
  }

  function HexValue(c: char): (n: int)
    requires IsHex(c)
    ensures 0 <= n < 16
  {
    if '0' <= c <= '9' then c as int - '0' as int
    else if 'A' <= c <= 'F' then c as int - 'A' as int + 10
    else c as int - 'a' as int + 10
  }

  /** `"%" + b.toString(16).toUpperCase()` for a byte of two hex digits. */
  function PercentTriple(b: Byte): string {
    ['%', HexDigit(b / 16), HexDigit(b % 16)]
  }

  function PercentEncode(bs: seq<Byte>): string {
    if bs == [] then "" else PercentTriple(bs[0]) + PercentEncode(bs[1..])
  }

  /** JavaScript's `encodeURIComponent`. */
  function EncodeUriComponent(s: string): string {
    if s == [] then ""
    else (if IsComponentSafe(s[0]) then [s[0]] else PercentEncode(Utf8(s[0]))) + EncodeUriComponent(s[1..])
  }

  /** `encodeRfc3986`: each of `! ' ( ) *` becomes `%` and its two uppercase hex digits. */
  function EncodeRfc3986(s: string): string {
    if s == [] then ""
    else (if IsExtraReserved(s[0]) then PercentTriple(s[0] as int) else [s[0]]) + EncodeRfc3986(s[1..])
  }

  /** `encodeRfc3986Full`. */
  function EncodeRfc3986Full(s: string): string {
    EncodeRfc3986(EncodeUriComponent(s))
  }

  /**
   * The strict reading of a fully encoded string: unreserved characters
   * stand for their ASCII byte and `%XX` with uppercase hex for byte XX.
   * Anything else (another character, a lowercase or a short triple) is
   * not fully encoded.
   */
  function DecodeStrict(s: string): Option<seq<Byte>>
    decreases |s|
  {
    if s == [] then Some([])
    else if IsUnreserved(s[0]) then
      match DecodeStrict(s[1..])
      case None => None
      case Some(t) => Some([s[0] as int] + t)
    else if s[0] == '%' && |s| >= 3 && IsUpperHex(s[1]) && IsUpperHex(s[2]) then
      match DecodeStrict(s[3..])
      case None => None
      case Some(t) => Some([HexValue(s[1]) * 16 + HexValue(s[2])] + t)
    else None
  }

  /**
   * How `decodeURIComponent` reads a URI component, as the UTF-8 bytes of
   * its result: `%XX` (either case) stands for byte XX, a `%` that does not
   * start such a triple is an error, and every other character stands for
   * its own UTF-8 encoding.
   */
  function DecodeComponent(s: string): Option<seq<Byte>>
    decreases |s|
  {
    if s == [] then Some([])
    else if s[0] != '%' then
      match DecodeComponent(s[1..])
      case None => None
      case Some(t) => Some(Utf8(s[0]) + t)
    else if |s| >= 3 && IsHex(s[1]) && IsHex(s[2]) then
      match DecodeComponent(s[3..])
      case None => None
      case Some(t) => Some([HexValue(s[1]) * 16 + HexValue(s[2])] + t)
    else None
  }

  lemma TripleDecodes(b: Byte)
    ensures DecodeStrict(PercentTriple(b)) == Some([b])
    ensures DecodeComponent(PercentTriple(b)) == Some([b])
  {
    var t := PercentTriple(b);
    assert t[3..] == [];
    assert !IsUnreserved(t[0]) && !IsComponentSafe(t[0]);
    assert IsUpperHex(t[1]) && IsUpperHex(t[2]);
    assert HexValue(t[1]) * 16 + HexValue(t[2]) == b;
    assert DecodeStrict(t[3..]) == Some([]);
    assert DecodeComponent(t[3..]) == Some([]);
    var v: Byte := HexValue(t[1]) * 16 + HexValue(t[2]);
    assert DecodeStrict(t) == Some([v] + []);
    assert [v] + [] == [b];
  }

  /** One decoded byte in front of a decoding that may have failed. */
  function Prepend(b: Byte, o: Option<seq<Byte>>): Option<seq<Byte>> {
    match o
    case None => None
    case Some(t) => Some([b] + t)
  }

  /** Several decoded bytes in front of a decoding that may have failed. */
  function PrependAll(bs: seq<Byte>, o: Option<seq<Byte>>): Option<seq<Byte>> {
    match o
    case None => None
    case Some(t) => Some(bs + t)
  }

  lemma DecodeStrictUnreserved(c: char, r: string)
    requires IsUnreserved(c)
    ensures DecodeStrict([c] + r) == Prepend(c as int, DecodeStrict(r))
  {
    assert ([c] + r)[1..] == r;
  }

  lemma DecodeStrictTriple(x: string, r: string)
    requires |x| == 3 && x[0] == '%' && IsUpperHex(x[1]) && IsUpperHex(x[2])
    ensures DecodeStrict(x + r) == Prepend(HexValue(x[1]) * 16 + HexValue(x[2]), DecodeStrict(r))
  {
    assert (x + r)[3..] == r;
    assert (x + r)[0] == '%' && (x + r)[1] == x[1] && (x + r)[2] == x[2];
  }

  /** A fully encoded string starts with an unreserved character or a whole triple. */
  lemma StrictHead(a: string)
    requires a != [] && DecodeStrict(a).Some?
    ensures IsUnreserved(a[0]) || (|a| >= 3 && a[0] == '%' && IsUpperHex(a[1]) && IsUpperHex(a[2]))
  {
  }

  lemma {:induction false} DecodeStrictAppend(a: string, b: string)
    requires DecodeStrict(a).Some? && DecodeStrict(b).Some?
    ensures DecodeStrict(a + b) == Some(DecodeStrict(a).value + DecodeStrict(b).value)
    decreases |a|
  {
    if a == [] {
      assert a + b == b;
      assert DecodeStrict(a).value + DecodeStrict(b).value == DecodeStrict(b).value;
    } else {
      var n, v := StrictFirst(a, b);
      DecodeStrictAppend(a[n..], b);
      AppendStep(v, DecodeStrict(a), DecodeStrict(a[n..]), DecodeStrict(b), DecodeStrict(a + b), DecodeStrict(a[n..] + b));
    }
  }

  /** The inductive step of `DecodeStrictAppend`, on the decodings themselves. */
  lemma AppendStep(v: Byte, da: Option<seq<Byte>>, dy: Option<seq<Byte>>, db: Option<seq<Byte>>,
                   dab: Option<seq<Byte>>, dyb: Option<seq<Byte>>)
    requires dy.Some? && db.Some? && da == Prepend(v, dy) && dab == Prepend(v, dyb)
    requires dyb == Some(dy.value + db.value)
    ensures dab == Some(da.value + db.value)
  {
    assert [v] + (dy.value + db.value) == ([v] + dy.value) + db.value;
  }

  /** The first unit of a strictly decodable string, an unreserved character or a triple, decodes alike whatever follows. */
  lemma StrictFirst(a: string, b: string) returns (n: nat, v: Byte)
    requires a != [] && DecodeStrict(a).Some?
    ensures 1 <= n <= |a|
    ensures DecodeStrict(a) == Prepend(v, DecodeStrict(a[n..]))
    ensures DecodeStrict(a + b) == Prepend(v, DecodeStrict(a[n..] + b))
  {
    StrictHead(a);
    n := if IsUnreserved(a[0]) then 1 else 3;
    var x, y := a[..n], a[n..];
    assert a == x + y;
    assert a + b == x + (y + b);
    if n == 1 {
      assert x == [a[0]];
      v := a[0] as int;
      DecodeStrictUnreserved(a[0], y);
      DecodeStrictUnreserved(a[0], y + b);
    } else {
      v := HexValue(x[1]) * 16 + HexValue(x[2]);
      DecodeStrictTriple(x, y);
      DecodeStrictTriple(x, y + b);
    }
  }

  lemma {:induction false} PercentEncodeDecodes(bs: seq<Byte>)
    ensures DecodeStrict(PercentEncode(bs)) == Some(bs)
  {
    if bs != [] {
      TripleDecodes(bs[0]);
      PercentEncodeDecodes(bs[1..]);
      DecodeStrictAppend(PercentTriple(bs[0]), PercentEncode(bs[1..]));
      assert bs == [bs[0]] + bs[1..];
    }
  }

  lemma {:induction false} EncodeRfc3986Append(a: string, b: string)
    ensures EncodeRfc3986(a + b) == EncodeRfc3986(a) + EncodeRfc3986(b)
  {
    if a == [] {
      assert a + b == b;
    } else {
      assert (a + b)[1..] == a[1..] + b;
      EncodeRfc3986Append(a[1..], b);
    }
  }

  lemma {:induction false} EncodeRfc3986Identity(x: string)
    requires forall c :: c in x ==> !IsExtraReserved(c)
    ensures EncodeRfc3986(x) == x
  {
    if x != [] {
      EncodeRfc3986Identity(x[1..]);
      assert x == [x[0]] + x[1..];
    }
  }

  lemma TripleUnescaped(b: Byte)
    ensures EncodeRfc3986(PercentTriple(b)) == PercentTriple(b)
  {
    EncodeRfc3986Identity(PercentTriple(b));
  }

  lemma {:induction false} PercentEncodeUnescaped(bs: seq<Byte>)
    ensures EncodeRfc3986(PercentEncode(bs)) == PercentEncode(bs)
  {
    if bs != [] {
      TripleUnescaped(bs[0]);
      PercentEncodeUnescaped(bs[1..]);
      EncodeRfc3986Append(PercentTriple(bs[0]), PercentEncode(bs[1..]));
    }
  }

  /** The full encoding of one character. */
  function EncodeCharFull(c: char): string {
    if IsUnreserved(c) then [c] else PercentEncode(Utf8(c))
  }

  lemma EncodeFullCons(s: string)
    requires s != []
    ensures EncodeRfc3986Full(s) == EncodeCharFull(s[0]) + EncodeRfc3986Full(s[1..])
  {
    var c := s[0];
    var piece := if IsComponentSafe(c) then [c] else PercentEncode(Utf8(c));
    EncodeRfc3986Append(piece, EncodeUriComponent(s[1..]));
    if !IsComponentSafe(c) {
      PercentEncodeUnescaped(Utf8(c));
    } else if IsExtraReserved(c) {
      assert Utf8(c) == [c as int];
      assert PercentEncode([c as int]) == PercentTriple(c as int) + PercentEncode([]);
    }
  }

  lemma {:induction false} EncodeFullEmpty(s: string)
    ensures EncodeRfc3986Full(s) == "" <==> s == ""
  {
    if s != [] {
      EncodeFullCons(s);
    }
  }

  /**
   * The full encoding reads back, strictly, as the UTF-8 bytes of its
   * input: only unreserved characters and uppercase `%XX` triples occur,
   * and nothing is lost.
   */
  lemma {:induction false} EncodeFullDecodes(s: string)
    ensures DecodeStrict(EncodeRfc3986Full(s)) == Some(Utf8String(s))
  {
    if s != [] {
      EncodeFullCons(s);
      EncodeFullDecodes(s[1..]);
      var c := s[0];
      if IsUnreserved(c) {
        assert [c][1..] == [];
        var v: Byte := c as int;
        assert DecodeStrict([c]) == Some([v] + []);
        assert Utf8(c) == [v] + [];
      } else {
        PercentEncodeDecodes(Utf8(c));
      }
      DecodeStrictAppend(EncodeCharFull(c), EncodeRfc3986Full(s[1..]));
    }
  }

  /** Whatever reads strictly reads the same way as a URI component. */
  lemma {:induction false} StrictIsComponent(s: string)
    requires DecodeStrict(s).Some?
    ensures DecodeComponent(s) == DecodeStrict(s)
    decreases |s|
  {
    if s != [] {
      if IsUnreserved(s[0]) {
        StrictIsComponent(s[1..]);
        assert Utf8(s[0]) == [s[0] as int];
      } else {
        assert IsHex(s[1]) && IsHex(s[2]);
        StrictIsComponent(s[3..]);
      }
    }
  }

  /**
   * `decodeURIComponent` undoes the full encoding: it reads back the UTF-8
   * bytes of the input, that is the input itself.
   */
  lemma EncodeFullComponentDecodes(s: string)
    ensures DecodeComponent(EncodeRfc3986Full(s)) == Some(Utf8String(s))
  {
    EncodeFullDecodes(s);
    StrictIsComponent(EncodeRfc3986Full(s));
  }

  lemma {:induction false} StrictAlphabet(t: string)
    requires DecodeStrict(t).Some?
    ensures forall c :: c in t ==> IsUnreserved(c) || c == '%'
    decreases |t|
  {
    if t != [] {
      if IsUnreserved(t[0]) {
        StrictAlphabet(t[1..]);
        assert t == [t[0]] + t[1..];
      } else {
        StrictAlphabet(t[3..]);
        assert t == t[..3] + t[3..];
      }
    }
  }

  /**
   * Every character of a fully encoded string is an RFC 3986 unreserved
   * character or `%`; in particular `/`, `&`, `=` and `?` never occur.
   */
  lemma EncodeFullAlphabet(s: string)
    ensures forall c :: c in EncodeRfc3986Full(s) ==> IsUnreserved(c) || c == '%'
  {
    EncodeFullDecodes(s);
    StrictAlphabet(EncodeRfc3986Full(s));
  }

  lemma {:induction false} EncodeFullLength(s: string)
    ensures |EncodeRfc3986Full(s)| >= |s|
    ensures |EncodeRfc3986Full(s)| == |s| ==> forall c :: c in s ==> IsUnreserved(c)
  {
    if s != [] {
      EncodeFullCons(s);
      EncodeFullLength(s[1..]);
      var c := s[0];
      if !IsUnreserved(c) {
        var u := Utf8(c);
        assert PercentEncode(u) == PercentTriple(u[0]) + PercentEncode(u[1..]);
      }
      assert s == [c] + s[1..];
    }
  }

  lemma {:induction false} EncodeFullUnreserved(s: string)
    requires forall c :: c in s ==> IsUnreserved(c)
    ensures EncodeRfc3986Full(s) == s
  {
    if s != [] {
      EncodeFullCons(s);
      EncodeFullUnreserved(s[1..]);
      assert s == [s[0]] + s[1..];
    }
  }

  /**
   * The encoding is not idempotent: it leaves a string unchanged exactly
   * when every character is already unreserved.  Any `%` is encoded again
   * (`"%20"` becomes `"%2520"`).
   */
  lemma EncodeFullFixedPoint(s: string)
    ensures EncodeRfc3986Full(s) == s <==> forall c :: c in s ==> IsUnreserved(c)
  {
    EncodeFullLength(s);
    if forall c :: c in s ==> IsUnreserved(c) {
      EncodeFullUnreserved(s);
    }
  }

  lemma PercentIsReEncoded()
    ensures EncodeRfc3986Full("%20") == "%2520"
  {
    EncodeFullCons("%20");
    EncodeFullUnreserved("20");
    assert "%20"[1..] == "20";
    assert Utf8('%') == [0x25];
  }

  lemma {:induction false} EncodeRfc3986Hex(x: string)
    requires x != []
    ensures EncodeRfc3986(x) != []
    ensures IsHex(EncodeRfc3986(x)[0]) <==> IsHex(x[0])
    ensures EncodeRfc3986(x)[0] == '%' ==> !IsHex(x[0])
  {
    assert EncodeRfc3986(x) == (if IsExtraReserved(x[0]) then PercentTriple(x[0] as int) else [x[0]]) + EncodeRfc3986(x[1..]);
  }

  lemma DecodeComponentChar(c: char, r: string)
    requires c != '%'
    ensures DecodeComponent([c] + r) == PrependAll(Utf8(c), DecodeComponent(r))
  {
    assert ([c] + r)[1..] == r;
  }

  lemma DecodeComponentTriple(x: string, r: string)
    requires |x| == 3 && x[0] == '%' && IsHex(x[1]) && IsHex(x[2])
    ensures DecodeComponent(x + r) == Prepend(HexValue(x[1]) * 16 + HexValue(x[2]), DecodeComponent(r))
  {
    assert (x + r)[3..] == r;
    assert (x + r)[0] == '%' && (x + r)[1] == x[1] && (x + r)[2] == x[2];
  }

  lemma KeepsMeaningChar(t: string)
    requires t != [] && t[0] != '%'
    requires DecodeComponent(EncodeRfc3986(t[1..])) == DecodeComponent(t[1..])
    ensures DecodeComponent(EncodeRfc3986(t)) == DecodeComponent(t)
  {
    var c := t[0];
    var rest := EncodeRfc3986(t[1..]);
    DecodeComponentChar(c, t[1..]);
    assert t == [c] + t[1..];
    if IsExtraReserved(c) {
      var p := PercentTriple(c as int);
      assert EncodeRfc3986(t) == p + rest;
      DecodeComponentTriple(p, rest);
      assert Utf8(c) == [c as int];
    } else {
      assert EncodeRfc3986(t) == [c] + rest;
      DecodeComponentChar(c, rest);
    }
  }

  /** A well-formed `%XX` triple is left as it is. */
  lemma TripleFixed(x: string)
    requires |x| == 3 && x[0] == '%' && IsHex(x[1]) && IsHex(x[2])
    ensures EncodeRfc3986(x) == x
  {
    forall c | c in x ensures !IsExtraReserved(c) {
      assert c == x[0] || c == x[1] || c == x[2];
    }
    EncodeRfc3986Identity(x);
  }

  lemma KeepsMeaningTriple(t: string)
    requires |t| >= 3 && t[0] == '%' && IsHex(t[1]) && IsHex(t[2])
    requires DecodeComponent(EncodeRfc3986(t[3..])) == DecodeComponent(t[3..])
    ensures DecodeComponent(EncodeRfc3986(t)) == DecodeComponent(t)
  {
    var x := t[..3];
    assert t == x + t[3..];
    TripleFixed(x);
    EncodeRfc3986Append(x, t[3..]);
    DecodeComponentTriple(x, t[3..]);
    DecodeComponentTriple(x, EncodeRfc3986(t[3..]));
  }

  lemma KeepsMeaningBadPercent(t: string)
    requires t != [] && t[0] == '%' && !(|t| >= 3 && IsHex(t[1]) && IsHex(t[2]))
    ensures DecodeComponent(EncodeRfc3986(t)) == None
    ensures DecodeComponent(t) == None
  {
    var e := EncodeRfc3986(t);
    assert e == ['%'] + EncodeRfc3986(t[1..]);
    if |t| >= 2 {
      EncodeRfc3986Hex(t[1..]);
      if IsHex(t[1]) {
        assert EncodeRfc3986(t[1..]) == [t[1]] + EncodeRfc3986(t[2..]);
        if |t| >= 3 {
          EncodeRfc3986Hex(t[2..]);
          assert e[2] == EncodeRfc3986(t[2..])[0];
        } else {
          assert t[2..] == [];
          assert |e| == 2;
        }
      }
    } else {
      assert t[1..] == [];
      assert |e| == 1;
    }
  }

  /**
   * Escaping `! ' ( ) *` never changes what a URI component stands for:
   * the bytes it reads as, or the fact that it does not read as bytes.
   */
  lemma {:induction false} EncodeRfc3986KeepsMeaning(t: string)
    ensures DecodeComponent(EncodeRfc3986(t)) == DecodeComponent(t)
    decreases |t|
  {
    if t == [] {
    } else if t[0] != '%' {
      EncodeRfc3986KeepsMeaning(t[1..]);
      KeepsMeaningChar(t);
    } else if |t| >= 3 && IsHex(t[1]) && IsHex(t[2]) {
      EncodeRfc3986KeepsMeaning(t[3..]);
      KeepsMeaningTriple(t);
    } else {
      KeepsMeaningBadPercent(t);
    }
  }

  /** The length of the UTF-8 sequence announced by its first byte. */
  function SequenceLength(b: Byte): nat {
    if b < 0x80 then 1 else if b < 0xE0 then 2 else if b < 0xF0 then 3 else 4
  }

  /** The scalar value a UTF-8 sequence of one to four bytes stands for. */
  function CodePoint(bs: seq<Byte>): int
    requires 1 <= |bs| <= 4
  {
    if |bs| == 1 then bs[0]
    else if |bs| == 2 then (bs[0] as int - 0xC0) * 0x40 + (bs[1] as int - 0x80)
    else if |bs| == 3 then (bs[0] as int - 0xE0) * 0x1000 + (bs[1] as int - 0x80) * 0x40 + (bs[2] as int - 0x80)
    else (bs[0] as int - 0xF0) * 0x4_0000 + (bs[1] as int - 0x80) * 0x1000 + (bs[2] as int - 0x80) * 0x40 + (bs[3] as int - 0x80)
  }

  lemma Div64(n: nat)
    ensures n / 0x1000 == (n / 0x40) / 0x40
    ensures n / 0x4_0000 == (n / 0x1000) / 0x40
  {
    var q, r := n / 0x40, n % 0x40;
    var q2, r2 := q / 0x40, q % 0x40;
    assert n == 0x1000 * q2 + (0x40 * r2 + r);
    var q3, r3 := q2 / 0x40, q2 % 0x40;
    assert n == 0x4_0000 * q3 + (0x1000 * r3 + 0x40 * r2 + r);
  }

  /** The first byte announces the length; the others are continuation bytes. */
  lemma Utf8Shape(c: char)
    ensures SequenceLength(Utf8(c)[0]) == |Utf8(c)|
    ensures CodePoint(Utf8(c)) == c as int
  {
    var n := c as int;
    Div64(n);
  }

  lemma Utf8StringCons(s: string)
    requires s != []
    ensures Utf8String(s) == Utf8(s[0]) + Utf8String(s[1..])
  {
  }

  /** Different strings have different UTF-8 encodings. */
  lemma {:induction false} Utf8StringInjective(a: string, b: string)
    requires Utf8String(a) == Utf8String(b)
    ensures a == b
    decreases |a|
  {
    if a == [] || b == [] {
      if a != [] {
        Utf8StringCons(a);
      }
      if b != [] {
        Utf8StringCons(b);
      }
    } else {
      Utf8StringCons(a);
      Utf8StringCons(b);
      Utf8Shape(a[0]);
      Utf8Shape(b[0]);
      var x, y := Utf8(a[0]), Utf8(b[0]);
      var u := Utf8String(a);
      assert u[0] == x[0] == y[0];
      assert x == u[..|x|] == y;
      assert Utf8String(a[1..]) == u[|x|..] == Utf8String(b[1..]);
      Utf8StringInjective(a[1..], b[1..]);
      assert a == [a[0]] + a[1..] && b == [b[0]] + b[1..];
    }
  }

  /** Distinct strings never encode to the same text. */
  lemma EncodeFullInjective(a: string, b: string)
    requires EncodeRfc3986Full(a) == EncodeRfc3986Full(b)
    ensures a == b
  {
    EncodeFullDecodes(a);
    EncodeFullDecodes(b);
    Utf8StringInjective(a, b);
  }
}

=== FILE: signer.dfy ===
/**
 * The request signer of presign.js: `RequestSigner`, `parsePath`,
 * `getDateTime`, `prepareRequest` in query mode, `sign` and `formatPath`.
 * The source keeps the request, the credentials, the region, the parsed
 * path and the datetime in module globals that these functions read and
 * assign; here they are the fields of one `SigningContext`.
 */
module SigV4Signer {
  import opened Wrappers
  import opened JsString
  import opened Rfc3986
  import opened Sorting
  import opened JsObject
  import opened QueryString
  import opened SigV4Query
  import opened SigV4Headers
  import opened SigV4Signature

  /** The ways signing throws. */
  datatype SignError =
    | RegionMismatch   // the host is not `<bucket>.s3.<region>.amazonaws.com`: `null[1]`
    | UriMalformed     // `decodeURI` rejects the path
    | InvalidDate      // the `Date` header is not a date: `toISOString` throws
    | DateNotString    // `X-Amz-Date` was given twice, so it is an array without `substr`

  /**
   * Library code the presigner calls: `querystring.parse`,
   * `encodeURI(decodeURI(path))` (`None` when `decodeURI` throws) and
   * `new Date(v)` written in the basic ISO-8601 form (`None` for an
   * invalid date).
   */
  datatype UriLibrary = UriLibrary(
    parse: string -> Query,
    normalize: string -> Option<string>,
    isoDate: string -> Option<string>)

  /** `tParsedPath`. */
  datatype ParsedPath = ParsedPath(path: string, query: Option<Query>)

  /** The request fields the signer reads. */
  datatype Request = Request(
    host: string,
    path: Option<string>,
    verb: Option<string>,
    headers: Headers,
    extraInclude: set<string>,
    extraIgnore: set<string>)

  datatype Credentials = Credentials(accessKeyId: string, secretAccessKey: string, sessionToken: Option<string>)

  /** Whether a string-valued property is truthy: present and not empty. */
  predicate StrTruthy(v: Option<string>) {
    v.Some? && v.value != ""
  }

  /** What `.` in a JavaScript regular expression does not match. */
  predicate IsLineTerminator(c: char) {
    c == '\n' || c == '\r' || c == '\U{2028}' || c == '\U{2029}'
  }

  const AwsSuffix := ".amazonaws.com"

  /**
   * The capture of `/^[^\.]+\.s3\.(.*?)\.amazonaws\.com$/` on the host:
   * a dot-free first label, then `.s3.`, the region, and `.amazonaws.com`
   * at the very end.
   */
  function RegionOf(host: string): Option<string> {
    var dot := IndexOf(host, '.');
    if dot <= 0 then None
    else
      var rest := host[dot + 1..];
      if |rest| >= 17 && rest[..3] == "s3." && rest[|rest| - 14..] == AwsSuffix
         && (forall i :: 3 <= i < |rest| - 14 ==> !IsLineTerminator(rest[i]))
      then Some(rest[3..|rest| - 14])
      else None
  }

  /** A host the region pattern accepts is a dot-free first label, `.s3.`, the region and `.amazonaws.com`. */
  lemma RegionSound(host: string)
    requires RegionOf(host).Some?
    ensures var dot := IndexOf(host, '.');
      dot > 0 && host == host[..dot] + ".s3." + RegionOf(host).value + AwsSuffix
    ensures forall c :: c in RegionOf(host).value ==> !IsLineTerminator(c)
  {
    RegionParts(host);
    RegionChars(host);
  }

  lemma RegionParts(host: string)
    requires RegionOf(host).Some?
    ensures var dot := IndexOf(host, '.');
      dot > 0 && host == host[..dot] + ".s3." + RegionOf(host).value + AwsSuffix
  {
    var dot := IndexOf(host, '.');
    var rest := host[dot + 1..];
    var n := |host|;
    assert host[dot + 1..dot + 4] == rest[..3];
    assert host[dot + 4..n - 14] == rest[3..|rest| - 14];
    assert host[n - 14..] == rest[|rest| - 14..];
    HostPieces(host, dot, RegionOf(host).value);
  }

  /** The slicing behind `RegionParts`, on explicit positions. */
  lemma HostPieces(host: string, dot: int, r: string)
    requires 0 < dot && dot + 4 <= |host| - 14 && host[dot] == '.'
    requires host[dot + 1..dot + 4] == "s3." && host[|host| - 14..] == AwsSuffix
    requires r == host[dot + 4..|host| - 14]
    ensures host == host[..dot] + ".s3." + r + AwsSuffix
  {
    var n := |host|;
    SliceFour(host, dot, dot + 4, n - 14);
    var b := host[dot..dot + 4];
    assert b[0] == '.' && b[1..] == host[dot + 1..dot + 4];
    DotS3(b);
  }

  /** A string cut at three places is the concatenation of its four pieces. */
  lemma SliceFour(s: string, i: int, j: int, k: int)
    requires 0 <= i <= j <= k <= |s|
    ensures s == s[..i] + s[i..j] + s[j..k] + s[k..]
  {
    assert s[..k] == s[..i] + s[i..j] + s[j..k];
  }

  lemma DotS3(b: string)
    requires |b| == 4 && b[0] == '.' && b[1..] == "s3."
    ensures b == ".s3."
  {
    assert b == [b[0]] + b[1..];
  }

  lemma RegionChars(host: string)
    requires RegionOf(host).Some?
    ensures forall c :: c in RegionOf(host).value ==> !IsLineTerminator(c)
  {
    var rest := host[IndexOf(host, '.') + 1..];
    var r := RegionOf(host).value;
    forall c | c in r ensures !IsLineTerminator(c) {
      var i :| 0 <= i < |r| && r[i] == c;
      assert rest[i + 3] == c;
    }
  }

  /** Every host of that shape is accepted, with its region. */
  lemma RegionComplete(first: string, region: string)
    requires first != [] && '.' !in first
    requires forall c :: c in region ==> !IsLineTerminator(c)
    ensures RegionOf(first + ".s3." + region + AwsSuffix) == Some(region)
  {
    var host := first + ".s3." + region + AwsSuffix;
    var dot := IndexOf(host, '.');
    assert host[|first|] == '.';
    assert host[..|first|] == first;
    IndexOfAt(host, '.', |first|);
    var rest := host[dot + 1..];
    assert rest == "s3." + region + AwsSuffix;
    forall i | 3 <= i < |rest| - 14 ensures !IsLineTerminator(rest[i]) {
      assert rest[i] == region[i - 3];
    }
    assert rest[3..|rest| - 14] == region;
  }

  /** `RequestSigner` adds `Host` when neither `Host` nor `host` is truthy. */
  function WithHost(h: Headers, host: string): Headers {
    if !StrTruthy(Get(h, "Host")) && !StrTruthy(Get(h, "host")) then Set(h, "Host", host) else h
  }

  /** After `WithHost`, `Host` holds the request host when it was added, and every other header is as before. */
  lemma WithHostGet(h: Headers, host: string, k: string)
    ensures var added := !StrTruthy(Get(h, "Host")) && !StrTruthy(Get(h, "host"));
      Get(WithHost(h, host), k) == if added && k == "Host" then Some(host) else Get(h, k)
  {
    SetGet(h, "Host", host, k);
  }

  /** The characters `parsePath` accepts without normalizing the path. */
  predicate IsPathChar(c: char) {
    ('0' <= c <= '9') || ('A' <= c <= 'Z') || ('a' <= c <= 'z') || c in ";,/?:@&=+$-_.!~*'()#%"
  }

  /** Splits a path at its first `?` into the path and the parsed query. */
  function SplitAtQuery(p: string, lib: UriLibrary): ParsedPath {
    var ix := IndexOf(p, '?');
    if ix >= 0 then ParsedPath(p[..ix], Some(lib.parse(p[ix + 1..]))) else ParsedPath(p, None)
  }

  /** The path is made of the characters `parsePath` accepts without normalizing. */
  predicate PathChars(p: string) {
    forall i :: 0 <= i < |p| ==> IsPathChar(p[i])
  }

  /** `parsePath`: a missing path is `/`; a path with other characters is normalized first. */
  function ParsePathOf(path: Option<string>, lib: UriLibrary): Result<ParsedPath, SignError> {
    var p := if StrTruthy(path) then path.value else "/";
    if PathChars(p) then Ok(SplitAtQuery(p, lib))
    else match lib.normalize(p)
      case None => Err(UriMalformed)
      case Some(q) => Ok(SplitAtQuery(q, lib))
  }

  /** A missing or empty path parses as `/` with no query. */
  lemma ParsePathDefault(lib: UriLibrary)
    ensures ParsePathOf(None, lib) == Ok(ParsedPath("/", None))
    ensures ParsePathOf(Some(""), lib) == Ok(ParsedPath("/", None))
  {
    RootParses(lib);
  }

  /** The root path `/` needs no normalising and holds no query. */
  lemma RootParses(lib: UriLibrary)
    ensures PathChars("/") && SplitAtQuery("/", lib) == ParsedPath("/", None)
  {
    assert IsPathChar("/"[0]);
    assert IndexOf("/", '?') == -1;
  }

  /**
   * Splitting at the first `?`: the path part holds no `?`; with no `?` it
   * is the whole string and there is no query; otherwise the string is the
   * path, `?` and the text the query is parsed from.
   */
  lemma SplitAtQueryParts(p: string, lib: UriLibrary)
    ensures '?' !in SplitAtQuery(p, lib).path
    ensures SplitAtQuery(p, lib).query.None? <==> '?' !in p
    ensures SplitAtQuery(p, lib).query.None? ==> SplitAtQuery(p, lib).path == p
    ensures SplitAtQuery(p, lib).query.Some? ==>
      var n := |SplitAtQuery(p, lib).path|;
      n < |p| && p == SplitAtQuery(p, lib).path + "?" + p[n + 1..]
      && SplitAtQuery(p, lib).query == Some(lib.parse(p[n + 1..]))
  {
    var ix := IndexOf(p, '?');
    if ix >= 0 {
      assert p == p[..ix] + "?" + p[ix + 1..];
    }
  }

  /** `formatPath` on the parsed path after `delete query[""]`. */
  function FormatPath(pp: ParsedPath): string {
    match pp.query
    case None => pp.path
    case Some(q) => pp.path + "?" + EncodeRfc3986(Stringify(Delete(q, "")))
  }

  /** With no query, `parsePath` followed by `formatPath` gives the path back. */
  lemma FormatWithoutQuery(p: string, lib: UriLibrary)
    requires '?' !in p
    ensures FormatPath(SplitAtQuery(p, lib)) == p
  {
  }

  /**
   * The formatted path reads back: its first `?` ends the path, and the
   * rest splits at `&` into the fully encoded `key=value` fields of the
   * query without its empty key.
   */
  lemma FormatPathReadsBack(path: string, q: Query)
    requires '?' !in path
    requires Pairs(Delete(q, "")) != []
    ensures var s := FormatPath(ParsedPath(path, Some(q)));
      IndexOf(s, '?') == |path| && s[..|path|] == path
      && Split(s[|path| + 1..], '&') == EncodedFields(Pairs(Delete(q, "")))
  {
    var text := EncodeRfc3986(Stringify(Delete(q, "")));
    var s := FormatPath(ParsedPath(path, Some(q)));
    assert s == path + "?" + text;
    assert s[|path| + 1..] == text;
    assert s[..|path|] == path;
    IndexOfAt(s, '?', |path|);
    EmittedQueryReadsBack(Delete(q, ""));
  }

  /** `getDateTime`: a datetime already chosen stays; otherwise the `Date` header's date, or the clock. */
  function DateTimeOf(current: Option<QueryValue>, h: Headers, lib: UriLibrary, clock: string): Result<QueryValue, SignError> {
    if Truthy(current) then Ok(current.value)
    else
      var header := if StrTruthy(Get(h, "Date")) then Get(h, "Date") else Get(h, "date");
      if !StrTruthy(header) then Ok(Scalar(clock))
      else match lib.isoDate(header.value)
        case None => Err(InvalidDate)
        case Some(d) => Ok(Scalar(d))
  }

  /** `getDate()` needs a string datetime. */
  function DateString(v: QueryValue): Result<string, SignError> {
    match v
    case Scalar(s) => Ok(s)
    case List(_) => Err(DateNotString)
  }

  const TokenKey := "X-Amz-Security-Token"
  const ExpiresKey := "X-Amz-Expires"
  const DateKey := "X-Amz-Date"
  const AlgorithmKey := "X-Amz-Algorithm"
  const CredentialKey := "X-Amz-Credential"
  const SignedHeadersKey := "X-Amz-SignedHeaders"
  const SignatureKey := "X-Amz-Signature"
  /** One day, the default lifetime of the presigned URL, in seconds. */
  const DefaultExpires := "86400"

  /** The session token goes into the query only when there is one. */
  function WithToken(q: Query, token: Option<string>): Query {
    if StrTruthy(token) then Set(q, TokenKey, Scalar(token.value)) else q
  }

  /** A truthy `X-Amz-Expires` stays; otherwise it becomes one day. */
  function WithExpires(q: Query): Query {
    if Truthy(Get(q, ExpiresKey)) then q else Set(q, ExpiresKey, Scalar(DefaultExpires))
  }

  /** A truthy `X-Amz-Date` stays; otherwise it becomes the signing datetime. */
  function WithDate(q: Query, dt: QueryValue): Query {
    if Truthy(Get(q, DateKey)) then q else Set(q, DateKey, dt)
  }

  /** The three parameters `prepareRequest` always writes. */
  function WithScope(q: Query, credential: string, signed: string): Query {
    Set(Set(Set(q, AlgorithmKey, Scalar(Algorithm)), CredentialKey, Scalar(credential)), SignedHeadersKey, Scalar(signed))
  }

  /** The query after `prepareRequest`, the datetime `dt` being used when the query gives none. */
  function PreparedQuery(q: Query, token: Option<string>, dt: QueryValue, credential: string, signed: string): Query {
    WithScope(WithDate(WithExpires(WithToken(q, token)), dt), credential, signed)
  }

  /**
   * What `prepareRequest` does to each query parameter: the algorithm,
   * credential and signed headers are always written; the date and the
   * expiry only when not already truthy; the session token only when
   * there is one; every other parameter is as before.
   */
  lemma PreparedQueryGet(q: Query, token: Option<string>, dt: QueryValue, credential: string, signed: string, k: string)
    ensures Get(PreparedQuery(q, token, dt, credential, signed), k) ==
      if k == SignedHeadersKey then Some(Scalar(signed))
      else if k == CredentialKey then Some(Scalar(credential))
      else if k == AlgorithmKey then Some(Scalar(Algorithm))
      else if k == DateKey then (if Truthy(Get(q, DateKey)) then Get(q, DateKey) else Some(dt))
      else if k == ExpiresKey then (if Truthy(Get(q, ExpiresKey)) then Get(q, ExpiresKey) else Some(Scalar(DefaultExpires)))
      else if k == TokenKey && StrTruthy(token) then Some(Scalar(token.value))
      else Get(q, k)
  {
    var q1 := WithToken(q, token);
    var q2 := WithExpires(q1);
    var q3 := WithDate(q2, dt);
    var a := Set(q3, AlgorithmKey, Scalar(Algorithm));
    var c := Set(a, CredentialKey, Scalar(credential));
    if StrTruthy(token) {
      SetGet(q, TokenKey, Scalar(token.value), k);
      SetGet(q, TokenKey, Scalar(token.value), ExpiresKey);
      SetGet(q, TokenKey, Scalar(token.value), DateKey);
    }
    if !Truthy(Get(q1, ExpiresKey)) {
      SetGet(q1, ExpiresKey, Scalar(DefaultExpires), k);
      SetGet(q1, ExpiresKey, Scalar(DefaultExpires), DateKey);
    }
    if !Truthy(Get(q2, DateKey)) {
      SetGet(q2, DateKey, dt, k);
    }
    SetGet(q3, AlgorithmKey, Scalar(Algorithm), k);
    SetGet(a, CredentialKey, Scalar(credential), k);
    SetGet(c, SignedHeadersKey, Scalar(signed), k);
  }

  /** The parameters already in the query keep their places; new ones come after them. */
  lemma {:induction false} PreparedKeepsOrder(q: Query, token: Option<string>, dt: QueryValue, credential: string, signed: string)
    ensures Keys(q) <= Keys(PreparedQuery(q, token, dt, credential, signed))
  {
    var q1 := WithToken(q, token);
    var q2 := WithExpires(q1);
    var q3 := WithDate(q2, dt);
    WithTokenKeepsKeys(q, token);
    WithExpiresKeepsKeys(q1);
    WithDateKeepsKeys(q2, dt);
    WithScopeKeepsKeys(q3, credential, signed);
    PrefixTrans(Keys(q), Keys(q1), Keys(q2));
    PrefixTrans(Keys(q), Keys(q2), Keys(q3));
    PrefixTrans(Keys(q), Keys(q3), Keys(WithScope(q3, credential, signed)));
  }

  lemma WithTokenKeepsKeys(q: Query, token: Option<string>)
    ensures Keys(q) <= Keys(WithToken(q, token))
  {
  }

  lemma WithExpiresKeepsKeys(q: Query)
    ensures Keys(q) <= Keys(WithExpires(q))
  {
  }

  lemma WithDateKeepsKeys(q: Query, dt: QueryValue)
    ensures Keys(q) <= Keys(WithDate(q, dt))
  {
  }

  lemma WithScopeKeepsKeys(q: Query, credential: string, signed: string)
    ensures Keys(q) <= Keys(WithScope(q, credential, signed))
  {
    var a := Set(q, AlgorithmKey, Scalar(Algorithm));
    var c := Set(a, CredentialKey, Scalar(credential));
    PrefixTrans(Keys(q), Keys(a), Keys(c));
    PrefixTrans(Keys(q), Keys(c), Keys(Set(c, SignedHeadersKey, Scalar(signed))));
  }

  lemma PrefixTrans(a: seq<string>, b: seq<string>, c: seq<string>)
    requires a <= b && b <= c
    ensures a <= c
  {
    assert c[..|a|] == c[..|b|][..|a|];
  }

  /** `sign` adds the signature; `formatPath` then deletes the empty key. */
  function SignedQuery(q: Query, signature: string): Query {
    Delete(Set(q, SignatureKey, Scalar(signature)), "")
  }

  /** `tParsedPath.query || {}`. */
  function QueryOrEmpty(q: Option<Query>): Query {
    if q.Some? then q.value else []
  }

  /** `if (query["X-Amz-Date"]) tDatetime = query["X-Amz-Date"]; else … getDateTime()`: the datetime `prepareRequest` signs with. */
  function ChosenDateTime(q: Query, dt0: Option<QueryValue>, h: Headers, lib: UriLibrary, clock: string): Result<QueryValue, SignError> {
    if Truthy(Get(q, DateKey)) then Ok(Get(q, DateKey).value) else DateTimeOf(dt0, h, lib, clock)
  }

  /**
   * `prepareRequest` in query mode, as a function of the request, the
   * credentials, the region and the datetime chosen so far: the parsed
   * path with the prepared query, and the signing datetime.
   */
  function Prepared(req: Request, cred: Credentials, region: string, dt0: Option<QueryValue>,
                    lib: UriLibrary, clock: string): Result<(ParsedPath, QueryValue), SignError>
  {
    match ParsePathOf(req.path, lib)
    case Err(e) => Err(e)
    case Ok(pp) =>
      var q := QueryOrEmpty(pp.query);
      var q2 := WithExpires(WithToken(q, cred.sessionToken));
      match ChosenDateTime(q2, dt0, req.headers, lib, clock)
      case Err(e) => Err(e)
      case Ok(dt) =>
        match DateString(dt)
        case Err(e) => Err(e)
        case Ok(ds) =>
          var credential := cred.accessKeyId + "/" + CredentialScope(ds, region);
          var signed := SignedHeaders(req.headers, req.extraInclude, req.extraIgnore);
          Ok((ParsedPath(pp.path, Some(PreparedQuery(q, cred.sessionToken, dt, credential, signed))), dt))
  }

  /** `signature()`: the signature of the canonical request for the parsed path. */
  function RequestSignature(req: Request, cred: Credentials, region: string, pp: ParsedPath, ds: string, crypto: Crypto): string {
    var canonical := CanonicalString(req.verb, pp.path, pp.query, req.headers, req.extraInclude, req.extraIgnore);
    Signature(crypto, cred.secretAccessKey, ds, region, StringToSign(crypto, ds, region, canonical))
  }

  /**
   * `sign` once the query is prepared: the signature of the canonical
   * request goes into the query as `X-Amz-Signature`, and the result is
   * the formatted path, with the query and datetime left behind.
   */
  function SignPrepared(req: Request, cred: Credentials, region: string, pp: ParsedPath, dt0: Option<QueryValue>,
                        lib: UriLibrary, crypto: Crypto, clock: string): Result<(string, ParsedPath, QueryValue), SignError>
  {
    match SignatureOf(req, cred, region, pp, dt0, lib, crypto, clock)
    case Err(e) => Err(e)
    case Ok((sig, dt)) =>
      var withSignature := ParsedPath(pp.path, Some(Set(QueryOrEmpty(pp.query), SignatureKey, Scalar(sig))));
      Ok((FormatPath(withSignature), ParsedPath(pp.path, Some(SignedQuery(QueryOrEmpty(pp.query), sig))), dt))
  }

  /**
   * `signature()`: asks `getDate()`, which may throw, and signs the
   * canonical request; the datetime it settled on comes back too.
   */
  function SignatureOf(req: Request, cred: Credentials, region: string, pp: ParsedPath, dt0: Option<QueryValue>,
                       lib: UriLibrary, crypto: Crypto, clock: string): Result<(string, QueryValue), SignError>
  {
    match DateTimeOf(dt0, req.headers, lib, clock)
    case Err(e) => Err(e)
    case Ok(dt) =>
      match DateString(dt)
      case Err(e) => Err(e)
      case Ok(ds) => Ok((RequestSignature(req, cred, region, pp, ds, crypto), dt))
  }

  /** Asking `getDateTime` again keeps the datetime it chose: a truthy one stays, an empty one is recomputed alike. */
  lemma DateTimeKept(dt: QueryValue, h: Headers, lib: UriLibrary, clock: string)
    requires Truthy(Some(dt)) || DateTimeOf(None, h, lib, clock) == Ok(dt)
    ensures DateTimeOf(Some(dt), h, lib, clock) == Ok(dt)
  {
  }

  /** `prepareRequest` succeeds once the path, the datetime and its date string are known. */
  lemma PreparedOk(req: Request, cred: Credentials, region: string, dt0: Option<QueryValue>,
                   lib: UriLibrary, clock: string, pp: ParsedPath, dt: QueryValue, ds: string)
    requires ParsePathOf(req.path, lib) == Ok(pp)
    requires var q2 := WithExpires(WithToken(QueryOrEmpty(pp.query), cred.sessionToken));
      ChosenDateTime(q2, dt0, req.headers, lib, clock) == Ok(dt)
    requires DateString(dt) == Ok(ds)
    ensures var credential := cred.accessKeyId + "/" + CredentialScope(ds, region);
      var signed := SignedHeaders(req.headers, req.extraInclude, req.extraIgnore);
      Prepared(req, cred, region, dt0, lib, clock)
      == Ok((ParsedPath(pp.path, Some(PreparedQuery(QueryOrEmpty(pp.query), cred.sessionToken, dt, credential, signed))), dt))
  {
  }

  /**
   * `prepareRequest` throws at the first step that fails: parsing the path
   * (`at` is `None`), choosing the datetime (`at` holds the parsed path), or
   * formatting its date (`at` also holds the datetime).
   */
  lemma PreparedFails(req: Request, cred: Credentials, region: string, dt0: Option<QueryValue>,
                      lib: UriLibrary, clock: string, at: Option<(ParsedPath, Option<QueryValue>)>, e: SignError)
    requires at.None? ==> ParsePathOf(req.path, lib) == Err(e)
    requires at.Some? ==> ParsePathOf(req.path, lib) == Ok(at.value.0)
    requires at.Some? ==>
      var q2 := WithExpires(WithToken(QueryOrEmpty(at.value.0.query), cred.sessionToken));
      var chosen := ChosenDateTime(q2, dt0, req.headers, lib, clock);
      if at.value.1.None? then chosen == Err(e) else chosen == Ok(at.value.1.value) && DateString(at.value.1.value) == Err(e)
    ensures Prepared(req, cred, region, dt0, lib, clock) == Err(e)
  {
  }

  /** `sign` succeeds once the datetime and its date string are known. */
  lemma SignPreparedOk(req: Request, cred: Credentials, region: string, pp: ParsedPath, dt0: Option<QueryValue>,
                       lib: UriLibrary, crypto: Crypto, clock: string, dt: QueryValue, ds: string)
    requires DateTimeOf(dt0, req.headers, lib, clock) == Ok(dt)
    requires DateString(dt) == Ok(ds)
    requires pp.query.Some?
    ensures var sig := RequestSignature(req, cred, region, pp, ds, crypto);
      SignPrepared(req, cred, region, pp, dt0, lib, crypto, clock)
      == Ok((FormatPath(pp.(query := Some(Set(pp.query.value, SignatureKey, Scalar(sig))))),
             pp.(query := Some(SignedQuery(pp.query.value, sig))), dt))
  {
  }

  /** Signing a query without a signature of its own appends the signature pair to its pairs. */
  lemma {:induction false} SignedQueryPairs(q: Query, sig: string)
    requires SignatureKey !in Keys(q)
    ensures Pairs(SignedQuery(q, sig)) == Pairs(Delete(q, "")) + [(SignatureKey, sig)]
  {
    var e := (SignatureKey, Scalar(sig));
    DeleteSetFresh(q, SignatureKey, Scalar(sig), "");
    PairsAppend(Delete(q, ""), [e]);
    assert Pairs([e]) == EntryPairs(e) + Pairs([]);
    assert EntryPairs(e) == [(SignatureKey, sig)];
  }

  /** The fields of a signed query are the fields of the unsigned one, then the signature field. */
  lemma {:induction false} SignedQueryFields(q: Query, sig: string)
    requires SignatureKey !in Keys(q)
    ensures EncodedFields(Pairs(SignedQuery(q, sig))) == EncodedFields(Pairs(Delete(q, ""))) + [EncodedField((SignatureKey, sig))]
  {
    SignedQueryPairs(q, sig);
    EncodedFieldsAppend(Pairs(Delete(q, "")), [(SignatureKey, sig)]);
  }

  /**
   * When the query had no `X-Amz-Signature` of its own, the fields the
   * presigned path carries are, as a multiset, exactly the canonical query
   * pieces that were signed, plus the signature field.
   */
  lemma {:induction false} SignedQueryCoversCanonical(q: Query, sig: string)
    requires SignatureKey !in Keys(q)
    ensures multiset(EncodedFields(Pairs(SignedQuery(q, sig))))
      == multiset(Map(Piece, CanonicalPairs(ReduceQuery(q)))) + multiset{EncodedField((SignatureKey, sig))}
  {
    var fields := EncodedFields(Pairs(Delete(q, "")));
    var f := EncodedField((SignatureKey, sig));
    SignedQueryFields(q, sig);
    assert multiset(fields + [f]) == multiset(fields) + multiset{f};
    CanonicalQueryMatchesUrl(q);
  }

  /** `sign`: prepares the request first unless a parsed path is already there. */
  function SignOutcome(req: Request, cred: Credentials, region: string, parsed0: Option<ParsedPath>, dt0: Option<QueryValue>,
                       lib: UriLibrary, crypto: Crypto, clock: string): Result<(string, ParsedPath, QueryValue), SignError>
  {
    if parsed0.Some? then SignPrepared(req, cred, region, parsed0.value, dt0, lib, crypto, clock)
    else match Prepared(req, cred, region, dt0, lib, clock)
      case Err(e) => Err(e)
      case Ok(prep) => SignPrepared(req, cred, region, prep.0, Some(prep.1), lib, crypto, clock)
  }

  /** The path part `parsePath` keeps never holds a `?`. */
  lemma ParsedPathNoQuery(path: Option<string>, lib: UriLibrary)
    requires ParsePathOf(path, lib).Ok?
    ensures '?' !in ParsePathOf(path, lib).value.path
  {
    var p := if StrTruthy(path) then path.value else "/";
    if PathChars(p) {
      SplitAtQueryParts(p, lib);
    } else {
      SplitAtQueryParts(lib.normalize(p).value, lib);
    }
  }

  /** The request path carries no `X-Amz-Signature` parameter of its own. */
  predicate UnsignedPath(path: Option<string>, lib: UriLibrary) {
    match ParsePathOf(path, lib)
    case Ok(pp) => SignatureKey !in Keys(QueryOrEmpty(pp.query))
    case Err(_) => true
  }

  /**
   * Presigning a fresh request. The datetime it signs with is the one
   * `prepareRequest` chose and the one `X-Amz-Date` carries. The path part
   * of the result is the parsed path up to its first `?`. Unless the
   * request path already held a signature, the fields after the `?` are,
   * as a multiset, the canonical query pieces that went into the
   * signature plus the `X-Amz-Signature` field itself.
   */
  lemma {:induction false} PresignedPathCoversQuery(req: Request, cred: Credentials, region: string, lib: UriLibrary,
                                                   crypto: Crypto, clock: string, url: string, after: ParsedPath, dt: QueryValue)
    requires SignOutcome(req, cred, region, None, None, lib, crypto, clock) == Ok((url, after, dt))
    requires UnsignedPath(req.path, lib)
    ensures Prepared(req, cred, region, None, lib, clock).Ok?
    ensures var prepared := Prepared(req, cred, region, None, lib, clock).value.0;
      prepared.query.Some? && Prepared(req, cred, region, None, lib, clock).value.1 == dt
      && Get(prepared.query.value, DateKey) == Some(dt)
      && DateString(dt).Ok?
      && var sig := RequestSignature(req, cred, region, prepared, DateString(dt).value, crypto);
         after == ParsedPath(prepared.path, Some(SignedQuery(prepared.query.value, sig)))
         && IndexOf(url, '?') == |prepared.path| && url[..|prepared.path|] == prepared.path
         && multiset(Split(url[|prepared.path| + 1..], '&'))
            == multiset(Map(Piece, CanonicalPairs(ReduceQuery(prepared.query.value)))) + multiset{EncodedField((SignatureKey, sig))}
  {
    SignedFromPrepared(req, cred, region, lib, crypto, clock, url, after, dt);
    var prepared := Prepared(req, cred, region, None, lib, clock).value.0;
    var sig := RequestSignature(req, cred, region, prepared, DateString(dt).value, crypto);
    SignedUrlFields(prepared.path, prepared.query.value, sig);
  }

  /**
   * The URL of a path and a query without a signature, once signed: the path
   * up to its `?`, then the canonical pieces and the signature field.
   */
  lemma SignedUrlFields(path: string, q: Query, sig: string)
    requires '?' !in path
    requires SignatureKey !in Keys(q)
    ensures var url := FormatPath(ParsedPath(path, Some(Set(q, SignatureKey, Scalar(sig)))));
      IndexOf(url, '?') == |path| && url[..|path|] == path
      && multiset(Split(url[|path| + 1..], '&'))
         == multiset(Map(Piece, CanonicalPairs(ReduceQuery(q)))) + multiset{EncodedField((SignatureKey, sig))}
  {
    SignedQueryPairs(q, sig);
    SignedQueryCoversCanonical(q, sig);
    FormatPathReadsBack(path, Set(q, SignatureKey, Scalar(sig)));
  }

  /**
   * A fresh request signs the query `prepareRequest` built, with the
   * datetime it chose, and the URL is that query with the signature added.
   */
  lemma SignedFromPrepared(req: Request, cred: Credentials, region: string, lib: UriLibrary,
                           crypto: Crypto, clock: string, url: string, after: ParsedPath, dt: QueryValue)
    requires SignOutcome(req, cred, region, None, None, lib, crypto, clock) == Ok((url, after, dt))
    requires UnsignedPath(req.path, lib)
    ensures Prepared(req, cred, region, None, lib, clock).Ok?
    ensures var prepared := Prepared(req, cred, region, None, lib, clock).value.0;
      prepared.query.Some? && Prepared(req, cred, region, None, lib, clock).value.1 == dt
      && Get(prepared.query.value, DateKey) == Some(dt)
      && DateString(dt).Ok?
      && SignatureKey !in Keys(prepared.query.value)
      && '?' !in prepared.path
      && var sig := RequestSignature(req, cred, region, prepared, DateString(dt).value, crypto);
         after == ParsedPath(prepared.path, Some(SignedQuery(prepared.query.value, sig)))
         && url == FormatPath(ParsedPath(prepared.path, Some(Set(prepared.query.value, SignatureKey, Scalar(sig)))))
  {
    SignOutcomeFresh(req, cred, region, lib, crypto, clock);
    var pp := ParsePathOf(req.path, lib).value;
    var q := QueryOrEmpty(pp.query);
    var q2 := WithExpires(WithToken(q, cred.sessionToken));
    var prep := Prepared(req, cred, region, None, lib, clock);
    var prepared := prep.value.0;
    var dt0 := prep.value.1;
    var ds := DateString(dt0).value;
    var credential := cred.accessKeyId + "/" + CredentialScope(ds, region);
    var signed := SignedHeaders(req.headers, req.extraInclude, req.extraIgnore);
    assert prepared == ParsedPath(pp.path, Some(PreparedQuery(q, cred.sessionToken, dt0, credential, signed)));
    var bigQ := prepared.query.value;
    // The datetime: `sign` asks `getDateTime` again, which keeps a truthy one
    // and otherwise recomputes the same value.
    DateTimeKept(dt0, req.headers, lib, clock);
    SignPreparedOk(req, cred, region, prepared, Some(dt0), lib, crypto, clock, dt0, ds);
    PreparedQueryGet(q, cred.sessionToken, dt0, credential, signed, DateKey);
    PreparedQueryGet(q, cred.sessionToken, dt0, credential, signed, ExpiresKey);
    PreparedQueryGet(q, cred.sessionToken, dt0, credential, signed, SignatureKey);
    assert Get(q2, DateKey) == Get(q, DateKey) by {
      SetGet(q, TokenKey, Scalar(if cred.sessionToken.Some? then cred.sessionToken.value else ""), DateKey);
      SetGet(WithToken(q, cred.sessionToken), ExpiresKey, Scalar(DefaultExpires), DateKey);
    }
    assert Get(bigQ, DateKey) == Some(dt);
    assert SignatureKey !in Keys(bigQ);
    ParsedPathNoQuery(req.path, lib);
  }

  /** A fresh request is prepared first, then signed with the datetime preparing chose. */
  lemma SignOutcomeFresh(req: Request, cred: Credentials, region: string, lib: UriLibrary, crypto: Crypto, clock: string)
    requires SignOutcome(req, cred, region, None, None, lib, crypto, clock).Ok?
    ensures Prepared(req, cred, region, None, lib, clock).Ok?
    ensures var prep := Prepared(req, cred, region, None, lib, clock).value;
      SignOutcome(req, cred, region, None, None, lib, crypto, clock)
      == SignPrepared(req, cred, region, prep.0, Some(prep.1), lib, crypto, clock)
  {
  }

  /** The module globals of the presigner, for one request. */
  class SigningContext {
    var request: Request
    var credentials: Credentials
    var region: string
    var parsed: Option<ParsedPath>
    var datetime: Option<QueryValue>
    const lib: UriLibrary
    const crypto: Crypto
    const clock: string

    /** Once a path is parsed, its query object exists (`prepareRequest` creates it at once). */
    predicate Valid()
      reads this
    {
      parsed.Some? ==> parsed.value.query.Some?
    }

    constructor (request: Request, credentials: Credentials, region: string, lib: UriLibrary, crypto: Crypto, clock: string)
      ensures this.request == request && this.credentials == credentials && this.region == region
      ensures this.lib == lib && this.crypto == crypto && this.clock == clock
      ensures parsed == None && datetime == None
      ensures Valid()
    {
      this.request := request;
      this.credentials := credentials;
      this.region := region;
      this.lib := lib;
      this.crypto := crypto;
      this.clock := clock;
      parsed := None;
      datetime := None;
    }

    /**
     * `RequestSigner`: fails when the host does not name an S3 region;
     * otherwise a fresh context for the request, with `Host` added to the
     * headers when neither `Host` nor `host` is set.
     */
    static method RequestSigner(request: Request, credentials: Credentials, lib: UriLibrary, crypto: Crypto, clock: string)
      returns (r: Result<SigningContext, SignError>)
      ensures r.Err? <==> RegionOf(request.host).None?
      ensures r.Err? ==> r.error == RegionMismatch
      ensures r.Ok? ==>
        fresh(r.value) && r.value.Valid()
        && r.value.request == request.(headers := WithHost(request.headers, request.host))
        && r.value.credentials == credentials && r.value.region == RegionOf(request.host).value
        && r.value.parsed == None && r.value.datetime == None
        && r.value.lib == lib && r.value.crypto == crypto && r.value.clock == clock
    {
      var region := RegionOf(request.host);
      if region.None? {
        return Err(RegionMismatch);
      }
      var headers := request.headers;
      if !StrTruthy(Get(headers, "Host")) && !StrTruthy(Get(headers, "host")) {
        headers := Set(headers, "Host", request.host);
      }
      var ctx := new SigningContext(request.(headers := headers), credentials, region.value, lib, crypto, clock);
      return Ok(ctx);
    }

    /** `getDateTime`: computes the datetime once and keeps it. */
    method GetDateTime() returns (r: Result<QueryValue, SignError>)
      modifies this`datetime
      ensures r == DateTimeOf(old(datetime), request.headers, lib, clock)
      ensures datetime == if r.Ok? then Some(r.value) else old(datetime)
    {
      if Truthy(datetime) {
        return Ok(datetime.value);
      }
      var headers := request.headers;
      var header := Get(headers, "Date");
      if !StrTruthy(header) {
        header := Get(headers, "date");
      }
      if !StrTruthy(header) {
        datetime := Some(Scalar(clock));
        return Ok(Scalar(clock));
      }
      var iso := lib.isoDate(header.value);
      if iso.None? {
        return Err(InvalidDate);
      }
      datetime := Some(Scalar(iso.value));
      return Ok(Scalar(iso.value));
    }

    /**
     * `parsePath`: stores the path and its parsed query.  A path without
     * `?` leaves the stored query `None`, which `Valid()` does not allow;
     * `PrepareRequest` is its only caller and stores a query right after.
     */
    method ParsePath() returns (r: Result<ParsedPath, SignError>)
      modifies this`parsed
      ensures r == ParsePathOf(request.path, lib)
      ensures parsed == if r.Ok? then Some(r.value) else old(parsed)
    {
      var path := if StrTruthy(request.path) then request.path.value else "/";
      if !PathChars(path) {
        var normalized := lib.normalize(path);
        if normalized.None? {
          return Err(UriMalformed);
        }
        path := normalized.value;
      }
      var queryIx := IndexOf(path, '?');
      var query: Option<Query> := None;
      if queryIx >= 0 {
        query := Some(lib.parse(path[queryIx + 1..]));
        path := path[..queryIx];
      }
      parsed := Some(ParsedPath(path, query));
      return Ok(ParsedPath(path, query));
    }

    /**
     * `prepareRequest` in query mode: writes the `X-Amz-*` parameters into
     * the query and fixes the signing datetime.
     */
    method PrepareRequest() returns (r: Result<(), SignError>)
      modifies this`parsed, this`datetime
      ensures var spec := Prepared(request, credentials, region, old(datetime), lib, clock);
        r.Ok? == spec.Ok? && (r.Err? ==> r.error == spec.error)
        && (r.Ok? ==> parsed == Some(spec.value.0) && datetime == Some(spec.value.1))
      ensures Valid()
    {
      var req, cred, dt0 := request, credentials, datetime;
      var pp := ParsePath();
      if pp.Err? {
        parsed := None;
        PreparedFails(req, cred, region, dt0, lib, clock, None, pp.error);
        return Err(pp.error);
      }
      var path := pp.value.path;
      var query := QueryOrEmpty(pp.value.query);
      var q0 := query;
      parsed := Some(ParsedPath(path, Some(query)));
      if StrTruthy(cred.sessionToken) {
        query := Set(query, TokenKey, Scalar(cred.sessionToken.value));
      }
      if !Truthy(Get(query, ExpiresKey)) {
        query := Set(query, ExpiresKey, Scalar(DefaultExpires));
      }
      assert query == WithExpires(WithToken(q0, cred.sessionToken));
      var dated := TakeDateTime(query);
      if dated.Err? {
        PreparedFails(req, cred, region, dt0, lib, clock, Some((pp.value, None)), dated.error);
        parsed := Some(ParsedPath(path, Some(query)));
        return Err(dated.error);
      }
      query := dated.value;
      var dt := datetime.value;
      query := Set(query, AlgorithmKey, Scalar(Algorithm));
      var ds := DateString(dt);
      if ds.Err? {
        PreparedFails(req, cred, region, dt0, lib, clock, Some((pp.value, Some(dt))), ds.error);
        parsed := Some(ParsedPath(path, Some(query)));
        return Err(ds.error);
      }
      query := Set(query, CredentialKey, Scalar(cred.accessKeyId + "/" + CredentialScope(ds.value, region)));
      query := Set(query, SignedHeadersKey, Scalar(SignedHeaders(req.headers, req.extraInclude, req.extraIgnore)));
      PreparedOk(req, cred, region, dt0, lib, clock, pp.value, dt, ds.value);
      parsed := Some(ParsedPath(path, Some(query)));
      return Ok(());
    }

    /**
     * `if (query["X-Amz-Date"]) tDatetime = query["X-Amz-Date"]; else
     * query["X-Amz-Date"] = getDateTime();` on the query being prepared.
     */
    method TakeDateTime(query: Query) returns (r: Result<Query, SignError>)
      modifies this`datetime
      ensures var c := ChosenDateTime(query, old(datetime), request.headers, lib, clock);
        r.Ok? == c.Ok? && (r.Err? ==> r.error == c.error)
        && (r.Ok? ==> datetime == Some(c.value) && r.value == WithDate(query, c.value))
    {
      var date := Get(query, DateKey);
      if Truthy(date) {
        datetime := date;
        return Ok(query);
      }
      var now := GetDateTime();
      if now.Err? {
        return Err(now.error);
      }
      return Ok(Set(query, DateKey, now.value));
    }

    /**
     * `sign` followed by `formatPath`: adds `X-Amz-Signature` to the query,
     * deletes the empty key, and sets the request path to the presigned
     * path, which it returns.
     */
    method Sign() returns (r: Result<string, SignError>)
      requires Valid()
      modifies this`parsed, this`datetime, this`request
      ensures var spec := SignOutcome(old(request), credentials, region, old(parsed), old(datetime), lib, crypto, clock);
        r.Ok? == spec.Ok? && (r.Err? ==> r.error == spec.error)
        && (r.Ok? ==> r.value == spec.value.0 && parsed == Some(spec.value.1) && datetime == Some(spec.value.2)
                      && request == old(request).(path := Some(r.value)))
      ensures Valid()
    {
      if parsed.None? {
        var prep := PrepareRequest();
        if prep.Err? {
          return Err(prep.error);
        }
      }
      r := SignParsed();
    }

    /** `formatPath`: drops the empty query key in place and formats path and query. */
    method FormatPathNow() returns (r: string)
      requires parsed.Some?
      modifies this`parsed
      ensures r == FormatPath(old(parsed).value)
      ensures parsed == Some(if old(parsed).value.query.Some?
        then old(parsed).value.(query := Some(Delete(old(parsed).value.query.value, "")))
        else old(parsed).value)
    {
      var path := parsed.value.path;
      var query := parsed.value.query;
      if query.None? {
        return path;
      }
      if Get(query.value, "").Some? {
        parsed := Some(ParsedPath(path, Some(Delete(query.value, ""))));
      } else {
        DeleteAbsent(query.value, "");
      }
      return path + "?" + EncodeRfc3986(Stringify(parsed.value.query.value));
    }

    /**
     * `tParsedPath.query["X-Amz-Signature"] = signature` followed by
     * `tRequest.path = formatPath()`.
     */
    method AttachSignature(sig: string) returns (r: string)
      requires Valid() && parsed.Some?
      modifies this`parsed, this`request
      ensures r == FormatPath(old(parsed).value.(query := Some(Set(old(parsed).value.query.value, SignatureKey, Scalar(sig)))))
      ensures parsed == Some(old(parsed).value.(query := Some(SignedQuery(old(parsed).value.query.value, sig))))
      ensures request == old(request).(path := Some(r))
      ensures Valid()
    {
      var pp := parsed.value;
      parsed := Some(ParsedPath(pp.path, Some(Set(pp.query.value, SignatureKey, Scalar(sig)))));
      r := FormatPathNow();
      request := request.(path := Some(r));
    }

    /** `sign` once the query is prepared, followed by `formatPath`. */
    method SignParsed() returns (r: Result<string, SignError>)
      requires Valid() && parsed.Some?
      modifies this`parsed, this`datetime, this`request
      ensures var spec := SignPrepared(old(request), credentials, region, old(parsed).value, old(datetime), lib, crypto, clock);
        r.Ok? == spec.Ok? && (r.Err? ==> r.error == spec.error)
        && (r.Ok? ==> r.value == spec.value.0 && parsed == Some(spec.value.1) && datetime == Some(spec.value.2)
                      && request == old(request).(path := Some(r.value)))
      ensures Valid()
    {
      var sig := ComputeSignature();
      if sig.Err? {
        return Err(sig.error);
      }
      var formatted := AttachSignature(sig.value);
      return Ok(formatted);
    }

    /** `signature()`, on the parsed path as it stands. */
    method ComputeSignature() returns (r: Result<string, SignError>)
      requires parsed.Some?
      modifies this`datetime
      ensures var spec := SignatureOf(request, credentials, region, parsed.value, old(datetime), lib, crypto, clock);
        r.Ok? == spec.Ok? && (r.Err? ==> r.error == spec.error)
        && (r.Ok? ==> r.value == spec.value.0 && datetime == Some(spec.value.1))
    {
      var now := GetDateTime();
      if now.Err? {
        return Err(now.error);
      }
      var ds := DateString(now.value);
      if ds.Err? {
        return Err(ds.error);
      }
      return Ok(RequestSignature(request, credentials, region, parsed.value, ds.value, crypto));
    }
  }
}
=== FILE: sigv4_headers.dfy ===
/**
 * The header parts of the SigV4 canonical request (presign.js):
 * `canonicalHeaders`, one `name:value` line per header that is not on the
 * ignore list, sorted by lower-cased name; and `signedHeaders`, the sorted
 * lower-cased names, where a request may add names to sign anyway or names
 * to leave out.
 */
module SigV4Headers {
  import opened JsString
  import opened Sorting
  import opened JsObject

  /** Header values are strings (the presigner only ever stores strings). */
  type Headers = Dict<string>

  /** `HEADERS_TO_IGNORE`: headers that proxies and clients rewrite in transit. */
  const HeadersToIgnore: seq<string> :=
    ["authorization", "connection", "x-amzn-trace-id", "user-agent", "expect", "presigned-expires", "range"]

  function EntryName(e: (string, string)): string {
    Lower(e.0)
  }

  /** The headers `canonicalHeaders` keeps, in insertion order. */
  function KeptEntries(h: seq<(string, string)>): (r: seq<(string, string)>)
    ensures forall e :: e in r <==> e in h && EntryName(e) !in HeadersToIgnore
  {
    if h == [] then []
    else (if EntryName(h[0]) in HeadersToIgnore then [] else [h[0]]) + KeptEntries(h[1..])
  }

  /** `key.toLowerCase() + ":" + trimAll(value)`. */
  function HeaderLine(e: (string, string)): string {
    Lower(e.0) + ":" + TrimAll(e.1)
  }

  /** The kept headers sorted by lower-cased name, equal names keeping their order. */
  function SortedHeaders(h: Headers): seq<(string, string)> {
    SortBy(KeptEntries(h), EntryName)
  }

  function HeaderLines(h: Headers): seq<string> {
    Map(HeaderLine, SortedHeaders(h))
  }

  function CanonicalHeaders(h: Headers): string {
    Join(HeaderLines(h), "\n")
  }

  /**
   * Whether `signedHeaders` keeps the lower-cased name `n`: a name the
   * request asks to include always, otherwise one on neither ignore list.
   */
  predicate Signs(n: string, extraInclude: set<string>, extraIgnore: set<string>) {
    n in extraInclude || (n !in HeadersToIgnore && n !in extraIgnore)
  }

  function SignedCandidates(names: seq<string>, extraInclude: set<string>, extraIgnore: set<string>): (r: seq<string>)
    ensures forall n :: n in r <==> n in names && Signs(n, extraInclude, extraIgnore)
  {
    if names == [] then []
    else (if Signs(names[0], extraInclude, extraIgnore) then [names[0]] else []) + SignedCandidates(names[1..], extraInclude, extraIgnore)
  }

  function SignedNames(h: Headers, extraInclude: set<string>, extraIgnore: set<string>): seq<string> {
    SortStrings(SignedCandidates(Map(Lower, Keys(h)), extraInclude, extraIgnore))
  }

  function SignedHeaders(h: Headers, extraInclude: set<string>, extraIgnore: set<string>): string {
    Join(SignedNames(h, extraInclude, extraIgnore), ";")
  }

  /** The sorted headers are exactly the kept ones. */
  lemma SortedKept(h: Headers)
    ensures forall e :: e in SortedHeaders(h) <==> e in h && EntryName(e) !in HeadersToIgnore
  {
    var kept := KeptEntries(h);
    SortBySorts(kept, EntryName);
    forall e ensures e in SortedHeaders(h) <==> e in kept {
      assert e in SortedHeaders(h) <==> e in multiset(SortedHeaders(h));
      assert e in kept <==> e in multiset(kept);
    }
  }

  /** Line `j` is the line of sorted header `j`. */
  lemma HeaderLineAt(h: Headers, j: int)
    requires 0 <= j < |SortedHeaders(h)|
    ensures j < |HeaderLines(h)| && HeaderLines(h)[j] == HeaderLine(SortedHeaders(h)[j])
  {
  }

  /** Every kept header has its line among the canonical header lines. */
  lemma LineOfKept(h: Headers, i: int)
    requires 0 <= i < |h| && EntryName(h[i]) !in HeadersToIgnore
    ensures HeaderLine(h[i]) in HeaderLines(h)
  {
    var sorted := SortedHeaders(h);
    SortedKept(h);
    assert h[i] in sorted;
    var j :| 0 <= j < |sorted| && sorted[j] == h[i];
    HeaderLineAt(h, j);
  }

  /** `line` is the canonical line of a header that is not ignored. */
  predicate LineOfKeptHeader(h: Headers, line: string) {
    exists i :: 0 <= i < |h| && EntryName(h[i]) !in HeadersToIgnore && line == HeaderLine(h[i])
  }

  /** Every canonical header line is the line of a kept header. */
  lemma KeptOfLine(h: Headers, j: int)
    requires 0 <= j < |HeaderLines(h)|
    ensures LineOfKeptHeader(h, HeaderLines(h)[j])
  {
    var sorted := SortedHeaders(h);
    HeaderLineAt(h, j);
    SortedKept(h);
    assert sorted[j] in sorted;
    var i :| 0 <= i < |h| && h[i] == sorted[j];
  }

  lemma AllKeptHaveLines(h: Headers)
    ensures forall i :: 0 <= i < |h| && EntryName(h[i]) !in HeadersToIgnore ==> HeaderLine(h[i]) in HeaderLines(h)
  {
    forall i | 0 <= i < |h| && EntryName(h[i]) !in HeadersToIgnore
      ensures HeaderLine(h[i]) in HeaderLines(h)
    {
      LineOfKept(h, i);
    }
  }

  lemma AllLinesKept(h: Headers)
    ensures forall j :: 0 <= j < |HeaderLines(h)| ==> LineOfKeptHeader(h, HeaderLines(h)[j])
  {
    forall j | 0 <= j < |HeaderLines(h)| ensures LineOfKeptHeader(h, HeaderLines(h)[j]) {
      KeptOfLine(h, j);
    }
  }

  /**
   * The canonical header lines: one line for every header whose
   * lower-cased name is not ignored, no other line, and the lines in
   * order of lower-cased name.
   */
  lemma CanonicalHeaderLines(h: Headers)
    ensures forall i :: 0 <= i < |h| && EntryName(h[i]) !in HeadersToIgnore ==> HeaderLine(h[i]) in HeaderLines(h)
    ensures forall j :: 0 <= j < |HeaderLines(h)| ==>
      exists i :: 0 <= i < |h| && EntryName(h[i]) !in HeadersToIgnore && HeaderLines(h)[j] == HeaderLine(h[i])
    ensures multiset(HeaderLines(h)) == multiset(Map(HeaderLine, KeptEntries(h)))
    ensures |HeaderLines(h)| == |SortedHeaders(h)|
    ensures SortedBy(SortedHeaders(h), EntryName)
  {
    SortBySorts(KeptEntries(h), EntryName);
    MapPermutation(HeaderLine, SortedHeaders(h), KeptEntries(h));
    AllKeptHaveLines(h);
    AllLinesKept(h);
  }

  lemma LowerNoNewline(s: string)
    requires '\n' !in s
    ensures '\n' !in Lower(s)
  {
  }

  /** A trimmed value has no line break left in it. */
  lemma TrimAllNoNewline(v: string)
    ensures '\n' !in TrimAll(v)
  {
    TrimAllNormalizes(v);
    var t := TrimAll(v);
    forall i | 0 <= i < |t| ensures t[i] != '\n' {
      if IsSpace(t[i]) {
        assert t[i] == ' ';
      }
    }
  }

  lemma LineNoNewline(h: Headers, j: int)
    requires forall i :: 0 <= i < |h| ==> '\n' !in h[i].0
    requires 0 <= j < |HeaderLines(h)|
    ensures '\n' !in HeaderLines(h)[j]
  {
    KeptOfLine(h, j);
    var i :| 0 <= i < |h| && EntryName(h[i]) !in HeadersToIgnore && HeaderLines(h)[j] == HeaderLine(h[i]);
    LowerNoNewline(h[i].0);
    TrimAllNoNewline(h[i].1);
  }

  lemma LinesNoNewline(h: Headers)
    requires forall i :: 0 <= i < |h| ==> '\n' !in h[i].0
    ensures forall l :: l in HeaderLines(h) ==> '\n' !in l
  {
    forall l | l in HeaderLines(h) ensures '\n' !in l {
      var j :| 0 <= j < |HeaderLines(h)| && HeaderLines(h)[j] == l;
      LineNoNewline(h, j);
    }
  }

  lemma LinesNonEmpty(h: Headers)
    requires KeptEntries(h) != []
    ensures HeaderLines(h) != []
  {
    SortBySorts(KeptEntries(h), EntryName);
    assert |multiset(SortedHeaders(h))| == |multiset(KeptEntries(h))|;
  }

  /**
   * The canonical headers read back line by line: split at the line
   * breaks they give exactly the header lines, provided no header name
   * itself holds a line break (values cannot, once trimmed).
   */
  lemma {:induction false} CanonicalHeadersReadBack(h: Headers)
    requires forall i :: 0 <= i < |h| ==> '\n' !in h[i].0
    requires KeptEntries(h) != []
    ensures Split(CanonicalHeaders(h), '\n') == HeaderLines(h)
  {
    var lines := HeaderLines(h);
    LinesNoNewline(h);
    LinesNonEmpty(h);
    SplitJoin(lines, '\n');
  }

  lemma SignedMember(h: Headers, extraInclude: set<string>, extraIgnore: set<string>, n: string)
    ensures n in SignedNames(h, extraInclude, extraIgnore) <==>
      (exists i :: 0 <= i < |h| && Lower(h[i].0) == n) && Signs(n, extraInclude, extraIgnore)
  {
    var names := Map(Lower, Keys(h));
    var cands := SignedCandidates(names, extraInclude, extraIgnore);
    SortBySorts(cands, Identity);
    assert n in SignedNames(h, extraInclude, extraIgnore) <==> n in multiset(cands);
    if n in names {
      var i :| 0 <= i < |names| && names[i] == n;
      assert Lower(h[i].0) == n;
    }
    if exists i :: 0 <= i < |h| && Lower(h[i].0) == n {
      var i :| 0 <= i < |h| && Lower(h[i].0) == n;
      assert names[i] == n;
    }
  }

  /**
   * The signed header names: every lower-cased header name the request
   * signs and no other, sorted in string order, each as often as it occurs.
   */
  lemma SignedNamesExact(h: Headers, extraInclude: set<string>, extraIgnore: set<string>)
    ensures forall n :: n in SignedNames(h, extraInclude, extraIgnore) <==>
      (exists i :: 0 <= i < |h| && Lower(h[i].0) == n) && Signs(n, extraInclude, extraIgnore)
    ensures SortedBy(SignedNames(h, extraInclude, extraIgnore), Identity)
    ensures multiset(SignedNames(h, extraInclude, extraIgnore)) == multiset(SignedCandidates(Map(Lower, Keys(h)), extraInclude, extraIgnore))
  {
    SortBySorts(SignedCandidates(Map(Lower, Keys(h)), extraInclude, extraIgnore), Identity);
    forall n ensures n in SignedNames(h, extraInclude, extraIgnore) <==>
      (exists i :: 0 <= i < |h| && Lower(h[i].0) == n) && Signs(n, extraInclude, extraIgnore)
    {
      SignedMember(h, extraInclude, extraIgnore, n);
    }
  }

  /** With no extra lists, the kept names are the names of the kept lines, in insertion order. */
  lemma {:induction false} CandidatesAreKept(h: seq<(string, string)>)
    ensures SignedCandidates(Map(Lower, Keys(h)), {}, {}) == Map(EntryName, KeptEntries(h))
  {
    if h != [] {
      CandidatesAreKept(h[1..]);
      var names := Map(Lower, Keys(h));
      assert names[1..] == Map(Lower, Keys(h[1..]));
      var rest := KeptEntries(h[1..]);
      if EntryName(h[0]) in HeadersToIgnore {
        assert KeptEntries(h) == rest;
      } else {
        assert KeptEntries(h) == [h[0]] + rest;
        MapAppend(EntryName, [h[0]], rest);
      }
    }
  }

  /**
   * When the request adds no names to sign or skip, the signed headers
   * name exactly the canonical header lines, in the same order: line `i`
   * is signed name `i`, a colon and the trimmed value.
   */
  lemma SignedMatchesCanonical(h: Headers)
    ensures |SignedNames(h, {}, {})| == |HeaderLines(h)|
    ensures forall i :: 0 <= i < |HeaderLines(h)| ==>
      HeaderLines(h)[i] == SignedNames(h, {}, {})[i] + ":" + TrimAll(SortedHeaders(h)[i].1)
  {
    var kept := KeptEntries(h);
    var sorted := SortedHeaders(h);
    var a := Map(EntryName, sorted);
    var b := SignedNames(h, {}, {});
    SortBySorts(kept, EntryName);
    assert SortedBy(a, Identity) by {
      forall i, j | 0 <= i < j < |a| ensures LessEq(Identity(a[i]), Identity(a[j])) {
        assert a[i] == EntryName(sorted[i]) && a[j] == EntryName(sorted[j]);
      }
    }
    MapPermutation(EntryName, sorted, kept);
    CandidatesAreKept(h);
    SortBySorts(SignedCandidates(Map(Lower, Keys(h)), {}, {}), Identity);
    SortedUnique(a, b);
  }

  /**
   * The request the handler builds has the single header `Host`: its
   * canonical headers are the one `host:` line and it signs `host` only.
   */
  lemma HostOnly(host: string)
    ensures CanonicalHeaders([("Host", host)]) == "host:" + TrimAll(host)
    ensures SignedHeaders([("Host", host)], {}, {}) == "host"
  {
    var h: Headers := [("Host", host)];
    assert Lower("Host") == "host";
    assert "host" !in HeadersToIgnore;
    assert KeptEntries(h) == h;
    assert SortBy(h[1..], EntryName) == [];
    assert SortedHeaders(h) == h;
    assert Keys(h) == ["Host"];
    assert Map(Lower, Keys(h)) == ["host"];
    assert SignedCandidates(["host"], {}, {}) == ["host"];
  }
}

=== FILE: sigv4_path.dfy ===
/**
 * The path part of the SigV4 canonical request, as `canonicalString`
 * builds it (presign.js): `/` stays as it is; any other path is split at
 * every `/`, each segment is fully percent-encoded, the segments are joined
 * with `/` again, and a `/` is put in front when the result does not start
 * with one.
 */
module SigV4Path {
  import opened Wrappers
  import opened JsString
  import opened Sorting
  import opened Rfc3986

  function CanonicalPath(path: string): string {
    if path == "/" then path
    else
      var joined := Join(Map(EncodeRfc3986Full, Split(path, '/')), "/");
      if joined == [] || joined[0] != '/' then "/" + joined else joined
  }

  lemma SplitHead(s: string, d: char)
    requires s != []
    ensures Split(s, d)[0] == [] <==> s[0] == d
  {
  }

  lemma SegmentsFree(parts: seq<string>)
    ensures forall x :: x in Map(EncodeRfc3986Full, parts) ==> '/' !in x
  {
    forall x | x in Map(EncodeRfc3986Full, parts) ensures '/' !in x {
      var i :| 0 <= i < |parts| && Map(EncodeRfc3986Full, parts)[i] == x;
      EncodeFullAlphabet(parts[i]);
    }
  }

  /**
   * The canonical path always starts with `/`, and it has the segments of
   * the original path, each fully encoded, in the same order: the same
   * number of them when the path started with `/`, and one empty segment
   * more in front when it did not.
   */
  lemma CanonicalPathSegments(path: string)
    ensures CanonicalPath(path) != [] && CanonicalPath(path)[0] == '/'
    ensures path != [] && path[0] == '/' ==>
      Split(CanonicalPath(path), '/') == Map(EncodeRfc3986Full, Split(path, '/'))
    ensures path == [] || path[0] != '/' ==>
      Split(CanonicalPath(path), '/') == [""] + Map(EncodeRfc3986Full, Split(path, '/'))
  {
    if path == "/" {
      RootSegments();
    } else if path == [] {
      EmptySegments();
    } else if path[0] == '/' {
      AbsoluteSegments(path);
    } else {
      RelativeSegments(path);
    }
  }

  lemma RootSegments()
    ensures CanonicalPath("/") == "/" && Split("/", '/') == ["", ""]
    ensures Split(CanonicalPath("/"), '/') == Map(EncodeRfc3986Full, Split("/", '/'))
  {
    assert "/" == "" + ['/'] + "";
    SplitCons("", "", '/');
    assert EncodeRfc3986Full("") == "";
  }

  lemma EmptySegments()
    ensures CanonicalPath("") == "/"
    ensures Split(CanonicalPath(""), '/') == [""] + Map(EncodeRfc3986Full, Split("", '/'))
  {
    assert Split("", '/') == [""];
    assert Map(EncodeRfc3986Full, [""]) == [""];
    assert Join([""], "/") == "";
    assert "/" == "" + ['/'] + "";
    SplitCons("", "", '/');
  }

  /** A path other than `/` that starts with `/`: the encoded segments start with an empty one. */
  lemma AbsoluteSegments(path: string)
    requires path != [] && path[0] == '/' && path != "/"
    ensures CanonicalPath(path) != [] && CanonicalPath(path)[0] == '/'
    ensures Split(CanonicalPath(path), '/') == Map(EncodeRfc3986Full, Split(path, '/'))
  {
    var parts := Split(path, '/');
    var enc := Map(EncodeRfc3986Full, parts);
    var joined := Join(enc, "/");
    SegmentsFree(parts);
    SplitJoin(enc, '/');
    SplitHead(path, '/');
    EncodeFullEmpty(parts[0]);
    assert |parts| >= 2;
    assert joined == enc[0] + "/" + Join(enc[1..], "/");
  }

  /** A path that does not start with `/`: one `/` goes in front of the encoded segments. */
  lemma RelativeSegments(path: string)
    requires path != [] && path[0] != '/'
    ensures CanonicalPath(path) != [] && CanonicalPath(path)[0] == '/'
    ensures Split(CanonicalPath(path), '/') == [""] + Map(EncodeRfc3986Full, Split(path, '/'))
  {
    var parts := Split(path, '/');
    var enc := Map(EncodeRfc3986Full, parts);
    var joined := Join(enc, "/");
    SegmentsFree(parts);
    SplitJoin(enc, '/');
    SplitHead(path, '/');
    EncodeFullEmpty(parts[0]);
    assert enc[0] != [] && '/' !in enc[0];
    JoinFirst(enc, "/");
    SlashFront(joined);
  }

  /** Joined parts start with the first character of the first part. */
  lemma JoinFirst(parts: seq<string>, sep: string)
    requires parts != [] && parts[0] != []
    ensures Join(parts, sep) != [] && Join(parts, sep)[0] == parts[0][0]
  {
  }

  /** A `/` in front adds one empty segment in front. */
  lemma SlashFront(s: string)
    ensures Split("/" + s, '/') == [""] + Split(s, '/')
  {
    assert "/" + s == "" + ['/'] + s;
    SplitCons("", s, '/');
  }

  /** Every canonical segment reads back as the UTF-8 bytes of the original segment. */
  lemma CanonicalSegmentsDecode(path: string)
    ensures forall i :: 0 <= i < |Split(path, '/')| ==>
      DecodeStrict(Map(EncodeRfc3986Full, Split(path, '/'))[i]) == Some(Utf8String(Split(path, '/')[i]))
  {
    forall i | 0 <= i < |Split(path, '/')| {
      EncodeFullDecodes(Split(path, '/')[i]);
    }
  }

  /** The canonical path holds only unreserved characters, `%` and `/`. */
  lemma CanonicalPathAlphabet(path: string)
    ensures forall c :: c in CanonicalPath(path) ==> IsUnreserved(c) || c == '%' || c == '/'
  {
    var allowed := (c: char) => IsUnreserved(c) || c == '%' || c == '/';
    var parts := Split(path, '/');
    var enc := Map(EncodeRfc3986Full, parts);
    forall x, c | x in enc && c in x ensures allowed(c) {
      var i :| 0 <= i < |enc| && enc[i] == x;
      EncodeFullAlphabet(parts[i]);
    }
    JoinChars(enc, "/", allowed);
  }

  /** A path made of one segment after the leading `/` keeps the `/` and encodes the segment. */
  lemma SingleSegment(seg: string)
    requires '/' !in seg
    ensures CanonicalPath("/" + seg) == "/" + EncodeRfc3986Full(seg)
  {
    if seg != [] {
      assert "/" + seg == "" + ['/'] + seg;
      SplitCons("", seg, '/');
      SplitFree(seg, '/');
      assert EncodeRfc3986Full("") == "";
      var e := EncodeRfc3986Full(seg);
      assert Split("/" + seg, '/') == ["", seg];
      assert Map(EncodeRfc3986Full, ["", seg]) == ["", e];
      assert Join(["", e], "/") == "" + "/" + Join(["", e][1..], "/");
      assert ["", e][1..] == [e];
      assert |"/" + seg| > 1;
    } else {
      assert "/" + seg == "/";
    }
  }

  /** Encoding is not idempotent: an already-encoded `%20` is encoded again. */
  lemma CanonicalPathReEncodes()
    ensures CanonicalPath("/%20") == "/%2520"
    ensures CanonicalPath(CanonicalPath("/%20")) != CanonicalPath("/%20")
  {
    EncodedOnce();
    EncodedTwice();
  }

  lemma EncodedOnce()
    ensures CanonicalPath("/%20") == "/%2520"
  {
    PercentIsReEncoded();
    SingleSegment("%20");
    PercentPaths();
    SamePath("/%20", "/" + "%20", "/%2520", "/" + EncodeRfc3986Full("%20"));
  }

  lemma PercentPaths()
    ensures "/%20" == "/" + "%20" && "/%2520" == "/" + "%2520"
  {
  }

  /** Equal paths canonicalize equally. */
  lemma SamePath(p: string, q: string, r: string, c: string)
    requires p == q && r == c && CanonicalPath(q) == c
    ensures CanonicalPath(p) == r
  {
  }

  lemma EncodedTwice()
    ensures CanonicalPath("/%2520") != "/%2520"
  {
    var seg := "%2520";
    assert '/' !in seg && !IsUnreserved(seg[0]);
    SingleSegment(seg);
    EncodeFullFixedPoint(seg);
    assert "/%2520" == "/" + seg;
    assert EncodeRfc3986Full(seg) != seg;
    assert ("/" + EncodeRfc3986Full(seg))[1..] == EncodeRfc3986Full(seg);
  }
}

=== FILE: sigv4_query.dfy ===
/**
 * The canonical query string of a SigV4 canonical request, as
 * `canonicalString` builds it (presign.js): the query is first re-keyed by
 * the fully encoded key, dropping the empty key; the keys are then sorted,
 * and every value (or every element of an array value, encoded and
 * sorted) becomes one `key=value` piece; the pieces are joined with `&`.
 */
module SigV4Query {
  import opened Wrappers
  import opened JsString
  import opened Sorting
  import opened Rfc3986
  import opened JsObject
  import opened QueryString

  function EncodeAll(xs: seq<string>): seq<string> {
    Map(EncodeRfc3986Full, xs)
  }

  /**
   * One step of the `reduce`, every key stored as an own property: the
   * empty key is skipped, any other is stored under its encoding. The
   * source's `{}` accumulator loses `__proto__` (`ReduceStepAsWritten`);
   * this is the corrected step the signer uses.
   */
  function ReduceStep(acc: Query, e: (string, QueryValue)): Query {
    if e.0 == "" then acc else Set(acc, EncodeRfc3986Full(e.0), e.1)
  }

  /** `reducedQuery`: `Object.keys(query).reduce(…, {})`, a left fold over the entries. */
  function ReduceQuery(es: seq<(string, QueryValue)>): Query
    decreases |es|
  {
    if es == [] then [] else ReduceStep(ReduceQuery(es[..|es| - 1]), es[|es| - 1])
  }

  /** The value of the last entry whose non-empty key encodes to `ek`. */
  function LastWith(es: seq<(string, QueryValue)>, ek: string): Option<QueryValue>
    decreases |es|
  {
    if es == [] then None
    else if es[|es| - 1].0 != "" && EncodeRfc3986Full(es[|es| - 1].0) == ek then Some(es[|es| - 1].1)
    else LastWith(es[..|es| - 1], ek)
  }

  /**
   * Under an encoded key, the reduced query holds the value of the last
   * raw key that encodes to it; an encoded key no raw key gives is absent.
   */
  lemma {:induction false} ReduceLastWins(es: seq<(string, QueryValue)>, ek: string)
    ensures Get(ReduceQuery(es), ek) == LastWith(es, ek)
    decreases |es|
  {
    if es != [] {
      var last := es[|es| - 1];
      ReduceLastWins(es[..|es| - 1], ek);
      if last.0 != "" {
        SetGet(ReduceQuery(es[..|es| - 1]), EncodeRfc3986Full(last.0), last.1, ek);
      }
    }
  }

  lemma {:induction false} GetSnoc<V>(a: seq<(string, V)>, e: (string, V), k: string)
    ensures Get(a + [e], k) == if Get(a, k).Some? then Get(a, k) else if e.0 == k then Some(e.1) else None
  {
    if a != [] {
      GetSnoc(a[1..], e, k);
      assert (a + [e])[1..] == a[1..] + [e];
    }
  }

  /** No two raw keys share an encoding, so each non-empty key keeps its own value. */
  lemma {:induction false} LastWithOwnKey(q: Query, k: string)
    requires k != ""
    ensures LastWith(q, EncodeRfc3986Full(k)) == Get(q, k)
    decreases |q|
  {
    if q != [] {
      var n := |q| - 1;
      var front: Query := q[..n];
      assert q == front + [q[n]];
      GetSnoc(front, q[n], k);
      if q[n].0 == k {
        forall i | 0 <= i < |front| ensures Keys(front)[i] != k {
          assert front[i] == q[i];
        }
      } else {
        if q[n].0 != "" && EncodeRfc3986Full(q[n].0) == EncodeRfc3986Full(k) {
          EncodeFullInjective(q[n].0, k);
        }
        LastWithOwnKey(front, k);
      }
    }
  }

  /** Each non-empty raw key keeps its value under its encoding. */
  lemma ReduceKeepsValues(q: Query, k: string)
    requires k != ""
    ensures Get(ReduceQuery(q), EncodeRfc3986Full(k)) == Get(q, k)
  {
    ReduceLastWins(q, EncodeRfc3986Full(k));
    LastWithOwnKey(q, k);
  }

  /** The entries of `es` with a non-empty key, in order. */
  function NonEmptyKeys(es: seq<(string, QueryValue)>): seq<(string, QueryValue)> {
    if es == [] then [] else (if es[0].0 == "" then [] else [es[0]]) + NonEmptyKeys(es[1..])
  }

  lemma {:induction false} NonEmptyKeysSnoc(es: seq<(string, QueryValue)>, e: (string, QueryValue))
    ensures NonEmptyKeys(es + [e]) == NonEmptyKeys(es) + (if e.0 == "" then [] else [e])
  {
    if es == [] {
      assert es + [e] == [e];
    } else {
      NonEmptyKeysSnoc(es[1..], e);
      assert (es + [e])[1..] == es[1..] + [e];
    }
  }

  function EncodeKey(e: (string, QueryValue)): (string, QueryValue) {
    (EncodeRfc3986Full(e.0), e.1)
  }

  /** Every entry kept by `NonEmptyKeys` is an entry of `es` with a non-empty key. */
  lemma {:induction false} NonEmptyKeysFrom(es: seq<(string, QueryValue)>, i: int)
    requires 0 <= i < |NonEmptyKeys(es)|
    ensures exists j :: 0 <= j < |es| && es[j].0 != "" && es[j] == NonEmptyKeys(es)[i]
  {
    var h := if es[0].0 == "" then [] else [es[0]];
    assert NonEmptyKeys(es) == h + NonEmptyKeys(es[1..]);
    if i >= |h| {
      NonEmptyKeysFrom(es[1..], i - |h|);
      var j :| 0 <= j < |es[1..]| && es[1..][j].0 != "" && es[1..][j] == NonEmptyKeys(es[1..])[i - |h|];
      assert es[j + 1] == es[1..][j];
    }
  }

  /** Every key of the re-keyed entries is the encoding of a non-empty key of `es`. */
  lemma EncodedKeysFrom(es: seq<(string, QueryValue)>, i: int)
    requires 0 <= i < |Map(EncodeKey, NonEmptyKeys(es))|
    ensures exists j :: 0 <= j < |es| && es[j].0 != "" && EncodeRfc3986Full(es[j].0) == Map(EncodeKey, NonEmptyKeys(es))[i].0
  {
    NonEmptyKeysFrom(es, i);
  }

  /** `reducedQuery` is the query without its empty key, every key encoded, order kept. */
  lemma {:induction false} ReduceExact(q: Query)
    ensures ReduceQuery(q) == Map(EncodeKey, NonEmptyKeys(q))
    decreases |q|
  {
    if q != [] {
      var n := |q| - 1;
      var front: Query := q[..n];
      var e := q[n];
      assert q == front + [e];
      ReduceExact(front);
      NonEmptyKeysSnoc(front, e);
      if e.0 != "" {
        forall j | 0 <= j < |front| ensures front[j].0 != e.0 {
          assert front[j] == q[j];
        }
        ReduceFreshStep(front, e, ReduceQuery(front));
      } else {
        assert NonEmptyKeys(front) + [] == NonEmptyKeys(front);
      }
    }
  }

  /** Storing an entry under a key its predecessors do not have appends its re-keyed form. */
  lemma ReduceFreshStep(front: seq<(string, QueryValue)>, e: (string, QueryValue), m: Query)
    requires e.0 != ""
    requires forall j :: 0 <= j < |front| ==> front[j].0 != e.0
    requires m == Map(EncodeKey, NonEmptyKeys(front))
    ensures Set(m, EncodeRfc3986Full(e.0), e.1) == Map(EncodeKey, NonEmptyKeys(front) + [e])
  {
    EncodedKeyFresh(front, e.0);
    SetFresh(m, EncodeRfc3986Full(e.0), e.1);
    MapAppend(EncodeKey, NonEmptyKeys(front), [e]);
  }

  /** A key absent from the entries encodes to a key absent from their encoded keys. */
  lemma EncodedKeyFresh(es: seq<(string, QueryValue)>, k: string)
    requires forall j :: 0 <= j < |es| ==> es[j].0 != k
    ensures EncodeRfc3986Full(k) !in Keys(Map(EncodeKey, NonEmptyKeys(es)))
  {
    var m := Map(EncodeKey, NonEmptyKeys(es));
    forall i | 0 <= i < |m| ensures Keys(m)[i] != EncodeRfc3986Full(k) {
      EncodedKeysFrom(es, i);
      var j :| 0 <= j < |es| && es[j].0 != "" && EncodeRfc3986Full(es[j].0) == m[i].0;
      if m[i].0 == EncodeRfc3986Full(k) {
        EncodeFullInjective(es[j].0, k);
      }
    }
  }

  lemma SetFresh<V>(o: Dict<V>, k: string, v: V)
    requires k !in Keys(o)
    ensures Set(o, k, v) == o + [(k, v)]
  {
    if o != [] {
      SetFresh(o[1..], k, v);
    }
  }

  /** `vs.map(v => [key, v])`. */
  function Tag(key: string, vs: seq<string>): (ps: seq<(string, string)>)
    ensures |ps| == |vs|
    ensures forall i :: 0 <= i < |vs| ==> ps[i] == (key, vs[i])
  {
    seq(|vs|, i requires 0 <= i < |vs| => (key, vs[i]))
  }

  /** The encoded pairs one reduced entry contributes, array elements encoded and sorted. */
  function ValuePairs(ek: string, v: QueryValue): seq<(string, string)> {
    match v
    case Scalar(s) => [(ek, EncodeRfc3986Full(s))]
    case List(items) => Tag(ek, SortStrings(EncodeAll(items)))
  }

  function KeyPairs(r: Query): string -> seq<(string, string)> {
    (ek: string) => match Get(r, ek)
      case None => []
      case Some(v) => ValuePairs(ek, v)
  }

  /** The encoded `(key, value)` pairs of the canonical query, in their canonical order. */
  function CanonicalPairs(r: Query): seq<(string, string)> {
    ConcatMap(KeyPairs(r), SortStrings(Keys(r)))
  }

  function Piece(p: (string, string)): string {
    p.0 + "=" + p.1
  }

  /** `queryStr`: empty when there is no query object. */
  function CanonicalQuery(q: Option<Query>): string {
    match q
    case None => ""
    case Some(query) => Join(Map(Piece, CanonicalPairs(ReduceQuery(query))), "&")
  }

  lemma PiecesStep(reduced: Query, keys: seq<string>, i: int)
    requires 0 <= i < |keys|
    ensures Map(Piece, ConcatMap(KeyPairs(reduced), keys[..i + 1]))
      == Map(Piece, ConcatMap(KeyPairs(reduced), keys[..i])) + Map(Piece, KeyPairs(reduced)(keys[i]))
  {
    assert keys[..i + 1] == keys[..i] + [keys[i]];
    ConcatMapAppend(KeyPairs(reduced), keys[..i], [keys[i]]);
    MapAppend(Piece, ConcatMap(KeyPairs(reduced), keys[..i]), KeyPairs(reduced)(keys[i]));
  }

  /** The pieces one key contributes, by what the reduced query holds under it. */
  lemma PiecesAt(reduced: Query, key: string, found: Option<QueryValue>)
    requires found == Get(reduced, key)
    ensures found.None? ==> Map(Piece, KeyPairs(reduced)(key)) == []
    ensures found.Some? && found.value.Scalar? ==>
      Map(Piece, KeyPairs(reduced)(key)) == [key + "=" + EncodeRfc3986Full(found.value.s)]
    ensures found.Some? && found.value.List? ==>
      Map(Piece, KeyPairs(reduced)(key)) == Map(Piece, Tag(key, SortStrings(EncodeAll(found.value.items))))
  {
  }

  /** Pushes `key=value` for each of `vals`, in order. */
  method PushPieces(pieces: seq<string>, key: string, vals: seq<string>) returns (out: seq<string>)
    ensures out == pieces + Map(Piece, Tag(key, vals))
  {
    out := pieces;
    var j := 0;
    while j < |vals|
      invariant 0 <= j <= |vals|
      invariant out == pieces + Map(Piece, Tag(key, vals[..j]))
    {
      assert Tag(key, vals[..j + 1]) == Tag(key, vals[..j]) + [(key, vals[j])];
      MapAppend(Piece, Tag(key, vals[..j]), [(key, vals[j])]);
      out := out + [key + "=" + vals[j]];
      j := j + 1;
    }
    assert vals[..j] == vals;
  }

  /** The `forEach`/`push` loop that collects `encodedQueryPieces`. */
  method EncodeQueryPieces(reduced: Query) returns (pieces: seq<string>)
    ensures pieces == Map(Piece, CanonicalPairs(reduced))
  {
    var keys := SortStrings(Keys(reduced));
    pieces := [];
    var i := 0;
    while i < |keys|
      invariant 0 <= i <= |keys|
      invariant pieces == Map(Piece, ConcatMap(KeyPairs(reduced), keys[..i]))
    {
      var key := keys[i];
      var found: Option<QueryValue> := Get(reduced, key);
      PiecesStep(reduced, keys, i);
      PiecesAt(reduced, key, found);
      match found {
        case None =>
        case Some(Scalar(s)) =>
          pieces := pieces + [key + "=" + EncodeRfc3986Full(s)];
        case Some(List(items)) =>
          pieces := PushPieces(pieces, key, SortStrings(EncodeAll(items)));
      }
      i := i + 1;
    }
    assert keys[..i] == keys;
  }

  /** Sorted by key, and by value among equal keys: the order SigV4 prescribes. */
  predicate PairsOrdered(ps: seq<(string, string)>) {
    forall i, j :: 0 <= i < j < |ps| ==> Less(ps[i].0, ps[j].0) || (ps[i].0 == ps[j].0 && LessEq(ps[i].1, ps[j].1))
  }

  lemma ValuePairsOrdered(ek: string, v: QueryValue)
    ensures PairsOrdered(ValuePairs(ek, v))
    ensures forall p :: p in ValuePairs(ek, v) ==> p.0 == ek
  {
    if v.List? {
      SortBySorts(EncodeAll(v.items), Identity);
    }
  }

  lemma OrderedAppend(a: seq<(string, string)>, b: seq<(string, string)>)
    requires PairsOrdered(a) && PairsOrdered(b)
    requires forall x, y :: x in a && y in b ==> Less(x.0, y.0)
    ensures PairsOrdered(a + b)
  {
    var c := a + b;
    forall i, j | 0 <= i < j < |c|
      ensures Less(c[i].0, c[j].0) || (c[i].0 == c[j].0 && LessEq(c[i].1, c[j].1))
    {
      if j < |a| {
        assert c[i] == a[i] && c[j] == a[j];
      } else if i >= |a| {
        assert c[i] == b[i - |a|] && c[j] == b[j - |a|];
      } else {
        assert c[i] in a && c[j] in b;
      }
    }
  }

  /** Over sorted distinct keys, the pairs come out sorted by key, then value. */
  lemma {:induction false} ConcatOrdered(r: Query, keys: seq<string>)
    requires SortedBy(keys, Identity) && Distinct(keys)
    ensures PairsOrdered(ConcatMap(KeyPairs(r), keys))
    ensures forall p :: p in ConcatMap(KeyPairs(r), keys) ==> p.0 in keys
  {
    if keys != [] {
      var k := keys[0];
      var head, tail := KeyPairs(r)(k), ConcatMap(KeyPairs(r), keys[1..]);
      SortedTail(keys);
      assert Distinct(keys[1..]) by {
        forall i, j | 0 <= i < j < |keys[1..]| ensures keys[1..][i] != keys[1..][j] {
          assert keys[1..][i] == keys[i + 1] && keys[1..][j] == keys[j + 1];
        }
      }
      ConcatOrdered(r, keys[1..]);
      if Get(r, k).Some? {
        ValuePairsOrdered(k, Get(r, k).value);
      }
      forall x, y | x in head && y in tail ensures Less(x.0, y.0) {
        var j :| 0 <= j < |keys[1..]| && keys[1..][j] == y.0;
        assert LessEq(Identity(keys[0]), Identity(keys[j + 1]));
        assert keys[0] != keys[j + 1];
      }
      OrderedAppend(head, tail);
    }
  }

  /** The canonical pairs are sorted by encoded key, then by encoded value. */
  lemma CanonicalPairsOrdered(r: Query)
    ensures PairsOrdered(CanonicalPairs(r))
  {
    var keys := Keys(r);
    SortBySorts(keys, Identity);
    forall i, j | 0 <= i < j < |keys| ensures keys[i] != keys[j] {
    }
    DistinctPermutation(keys, SortStrings(keys));
    ConcatOrdered(r, SortStrings(keys));
  }

  function EntryValuePairs(e: (string, QueryValue)): seq<(string, string)> {
    ValuePairs(e.0, e.1)
  }

  lemma {:induction false} DictConcat(r: Query, i: int)
    requires 0 <= i <= |r|
    ensures ConcatMap(KeyPairs(r), Keys(r)[i..]) == ConcatMap(EntryValuePairs, r[i..])
    decreases |r| - i
  {
    if i < |r| {
      DictConcat(r, i + 1);
      GetAt(r, i);
      assert Keys(r)[i..][1..] == Keys(r)[i + 1..];
      assert r[i..][1..] == r[i + 1..];
    }
  }

  function EncodePair(p: (string, string)): (string, string) {
    (EncodeRfc3986Full(p.0), EncodeRfc3986Full(p.1))
  }

  lemma EntryPermutation(e: (string, QueryValue))
    ensures multiset(EntryValuePairs(EncodeKey(e))) == multiset(Map(EncodePair, EntryPairs(e)))
  {
    if e.1.List? {
      var ek := EncodeRfc3986Full(e.0);
      var encoded := EncodeAll(e.1.items);
      var tag := (v: string) => (ek, v);
      SortBySorts(encoded, Identity);
      MapPermutation(tag, SortStrings(encoded), encoded);
      assert Tag(ek, SortStrings(encoded)) == Map(tag, SortStrings(encoded));
      assert Map(EncodePair, EntryPairs(e)) == Map(tag, encoded);
    }
  }

  lemma {:induction false} EntriesPermutation(es: seq<(string, QueryValue)>)
    ensures multiset(ConcatMap(EntryValuePairs, Map(EncodeKey, es))) == multiset(Map(EncodePair, Pairs(es)))
  {
    if es != [] {
      EntriesPermutation(es[1..]);
      EntryPermutation(es[0]);
      assert Map(EncodeKey, es)[1..] == Map(EncodeKey, es[1..]);
      MapAppend(EncodePair, EntryPairs(es[0]), Pairs(es[1..]));
    }
  }

  lemma {:induction false} NoEmptyKey(es: seq<(string, QueryValue)>)
    requires "" !in Keys(es)
    ensures NonEmptyKeys(es) == es
  {
    if es != [] {
      KeysCons(es[0], es[1..]);
      assert es == [es[0]] + es[1..];
      NoEmptyKey(es[1..]);
    }
  }

  /** `delete query[""]` leaves exactly the entries with a non-empty key. */
  lemma {:induction false} DeleteEmptyKey(q: Query)
    ensures Delete(q, "") == NonEmptyKeys(q)
  {
    if q != [] {
      var rest: Query := q[1..];
      if q[0].0 == "" {
        Uncons(q);
        NoEmptyKey(rest);
        assert Delete(q, "") == rest;
        assert NonEmptyKeys(q) == [] + NonEmptyKeys(rest);
      } else {
        DeleteEmptyKey(rest);
        assert Delete(q, "") == [q[0]] + Delete(rest, "");
        assert NonEmptyKeys(q) == [q[0]] + NonEmptyKeys(rest);
      }
    }
  }

  /**
   * The canonical query signs exactly the fields the presigned URL carries:
   * its `key=value` pieces are the fields `formatPath` emits once the empty
   * key is deleted, each encoded the same way, only rearranged.
   */
  lemma CanonicalQueryMatchesUrl(q: Query)
    ensures multiset(Map(Piece, CanonicalPairs(ReduceQuery(q)))) == multiset(EncodedFields(Pairs(Delete(q, ""))))
  {
    var r := ReduceQuery(q);
    SortBySorts(Keys(r), Identity);
    ConcatMapPermutation(KeyPairs(r), SortStrings(Keys(r)), Keys(r));
    DictConcat(r, 0);
    assert Keys(r)[0..] == Keys(r) && r[0..] == r;
    ReduceExact(q);
    EntriesPermutation(NonEmptyKeys(q));
    DeleteEmptyKey(q);
    var ps := Pairs(NonEmptyKeys(q));
    MapPermutation(Piece, CanonicalPairs(r), Map(EncodePair, ps));
    assert Map(Piece, Map(EncodePair, ps)) == EncodedFields(ps);
  }

  /**
   * The canonical query text splits at `&` back into its pieces, and every
   * piece is one field of the URL: a fully encoded key, `=`, and a fully
   * encoded value.
   */
  lemma CanonicalQueryReadsBack(q: Query)
    ensures forall x :: x in Map(Piece, CanonicalPairs(ReduceQuery(q))) ==>
      exists p :: p in Pairs(Delete(q, "")) && x == EncodedField(p)
    ensures Map(Piece, CanonicalPairs(ReduceQuery(q))) != [] ==>
      Split(CanonicalQuery(Some(q)), '&') == Map(Piece, CanonicalPairs(ReduceQuery(q)))
  {
    var pieces := Map(Piece, CanonicalPairs(ReduceQuery(q)));
    var ps := Pairs(Delete(q, ""));
    CanonicalQueryMatchesUrl(q);
    forall x | x in pieces ensures '&' !in x && exists p :: p in ps && x == EncodedField(p) {
      assert x in multiset(pieces);
      assert x in multiset(EncodedFields(ps));
      var i :| 0 <= i < |ps| && EncodedFields(ps)[i] == x;
      EncodedFieldFree(ps[i]);
      assert ps[i] in ps;
    }
    if pieces != [] {
      SplitJoin(pieces, '&');
    }
  }

  /** The canonical query holds only unreserved characters, `%`, `=` and `&`. */
  lemma CanonicalQueryAlphabet(q: Option<Query>)
    ensures forall c :: c in CanonicalQuery(q) ==> IsUnreserved(c) || c == '%' || c == '=' || c == '&'
  {
    if q.Some? {
      var allowed := (c: char) => IsUnreserved(c) || c == '%' || c == '=' || c == '&';
      var pieces := Map(Piece, CanonicalPairs(ReduceQuery(q.value)));
      CanonicalQueryReadsBack(q.value);
      forall x, c | x in pieces && c in x ensures allowed(c) {
        var p :| p in Pairs(Delete(q.value, "")) && x == EncodedField(p);
        EncodeFullAlphabet(p.0);
        EncodeFullAlphabet(p.1);
      }
      JoinChars(pieces, "&", allowed);
    }
  }

  /**
   * The key whose assignment on a `{}` literal runs the `__proto__` setter
   * the literal inherits from `Object.prototype`.
   */
  const ProtoKey := "__proto__"

  /** `__proto__` is all unreserved, so it is its own full encoding. */
  lemma ProtoKeyFixed()
    ensures EncodeRfc3986Full(ProtoKey) == ProtoKey
  {
    forall c | c in ProtoKey ensures IsUnreserved(c) {
    }
    EncodeFullFixedPoint(ProtoKey);
  }

  /** No key but `__proto__` encodes to `__proto__`. */
  lemma ProtoKeyEncoding(k: string)
    ensures EncodeRfc3986Full(k) == ProtoKey <==> k == ProtoKey
  {
    ProtoKeyFixed();
    if EncodeRfc3986Full(k) == ProtoKey {
      EncodeFullInjective(k, ProtoKey);
    }
  }

  /**
   * The `reduce` step as written: its accumulator is the `{}` literal, so
   * storing under `__proto__` runs the inherited setter and creates no own
   * property (an array value only replaces the prototype, which neither
   * `Object.keys` nor the own-key reads after it see).
   */
  function ReduceStepAsWritten(acc: Query, e: (string, QueryValue)): Query {
    if e.0 == "" || EncodeRfc3986Full(e.0) == ProtoKey then acc else Set(acc, EncodeRfc3986Full(e.0), e.1)
  }

  /** `reducedQuery` as written, a left fold of `ReduceStepAsWritten`. */
  function ReduceQueryAsWritten(es: seq<(string, QueryValue)>): Query
    decreases |es|
  {
    if es == [] then [] else ReduceStepAsWritten(ReduceQueryAsWritten(es[..|es| - 1]), es[|es| - 1])
  }

  /** As written, the reduced query is `ReduceQuery` without `__proto__`, key by key. */
  lemma {:induction false} AsWrittenGet(es: seq<(string, QueryValue)>, ek: string)
    ensures Get(ReduceQueryAsWritten(es), ek) == if ek == ProtoKey then None else Get(ReduceQuery(es), ek)
    decreases |es|
  {
    if es != [] {
      var front, last := es[..|es| - 1], es[|es| - 1];
      AsWrittenGet(front, ek);
      if last.0 != "" {
        var k := EncodeRfc3986Full(last.0);
        SetGet(ReduceQuery(front), k, last.1, ek);
        if k != ProtoKey {
          SetGet(ReduceQueryAsWritten(front), k, last.1, ek);
        }
      }
    }
  }

  /** On a query without a raw `__proto__` key, the reduction as written is `ReduceQuery`. */
  lemma {:induction false} AsWrittenAgrees(es: seq<(string, QueryValue)>)
    requires ProtoKey !in Keys(es)
    ensures ReduceQueryAsWritten(es) == ReduceQuery(es)
    decreases |es|
  {
    if es != [] {
      var n := |es| - 1;
      var front := es[..n];
      forall i | 0 <= i < |front| ensures Keys(front)[i] != ProtoKey {
        assert front[i] == es[i] && Keys(es)[i] == es[i].0;
      }
      AsWrittenAgrees(front);
      assert Keys(es)[n] == es[n].0;
      ProtoKeyEncoding(es[n].0);
    }
  }

  /** Every pair collected over some keys belongs to a key the reduced query holds. */
  lemma {:induction false} PairsOfHeldKeys(r: Query, keys: seq<string>, p: (string, string))
    requires p in ConcatMap(KeyPairs(r), keys)
    ensures Get(r, p.0).Some?
  {
    var head := KeyPairs(r)(keys[0]);
    assert ConcatMap(KeyPairs(r), keys) == head + ConcatMap(KeyPairs(r), keys[1..]);
    if p in head {
      ValuePairsOrdered(keys[0], Get(r, keys[0]).value);
    } else {
      PairsOfHeldKeys(r, keys[1..], p);
    }
  }

  /** A value `x` held under a non-empty key `k` gives a pair of the URL. */
  lemma PairInUrl(q: Query, k: string, x: string)
    requires k != "" && Get(q, k).Some? && Holds(Get(q, k).value, x)
    ensures EncodePair((k, x)) in Map(EncodePair, Pairs(Delete(q, "")))
  {
    DeleteGet(q, "", k);
    HeldPair(Delete(q, ""), k, x);
    EncodedPairIn(Pairs(Delete(q, "")), (k, x));
  }

  lemma HeldPair(d: Query, k: string, x: string)
    requires Get(d, k).Some? && Holds(Get(d, k).value, x)
    ensures (k, x) in Pairs(d)
  {
    var i :| 0 <= i < |d| && Keys(d)[i] == k;
    GetAt(d, i);
    PairsExact(d, (k, x));
  }

  lemma EncodedPairIn(ps: seq<(string, string)>, p: (string, string))
    requires p in ps
    ensures EncodePair(p) in Map(EncodePair, ps)
  {
    var j :| 0 <= j < |ps| && ps[j] == p;
    assert Map(EncodePair, ps)[j] == EncodePair(p);
  }

  lemma EncodeProtoPair(x: string)
    ensures EncodePair((ProtoKey, x)) == (ProtoKey, EncodeRfc3986Full(x))
  {
    ProtoKeyFixed();
  }

  /**
   * As written, a query holding `__proto__` signs no `__proto__` pair,
   * while the URL `formatPath` writes carries that field.
   */
  lemma ProtoFieldUnsigned(q: Query, x: string)
    requires Get(q, ProtoKey).Some? && Holds(Get(q, ProtoKey).value, x)
    ensures (ProtoKey, EncodeRfc3986Full(x)) in Map(EncodePair, Pairs(Delete(q, "")))
    ensures forall p :: p in CanonicalPairs(ReduceQueryAsWritten(q)) ==> p.0 != ProtoKey
  {
    PairInUrl(q, ProtoKey, x);
    EncodeProtoPair(x);
    var r := ReduceQueryAsWritten(q);
    forall p | p in CanonicalPairs(r) ensures p.0 != ProtoKey {
      PairsOfHeldKeys(r, SortStrings(Keys(r)), p);
      AsWrittenGet(q, p.0);
    }
  }

  /** The one field of `?__proto__=x`. */
  lemma ProtoField()
    ensures EncodedField((ProtoKey, "x")) == "__proto__=x"
  {
    ProtoKeyFixed();
    XFixed();
    assert EncodedField((ProtoKey, "x")) == ProtoKey + "=" + "x";
    ProtoFieldText();
  }

  lemma ProtoFieldText()
    ensures ProtoKey + "=" + "x" == "__proto__=x"
  {
  }

  lemma XFixed()
    ensures EncodeRfc3986Full("x") == "x"
  {
    assert IsUnreserved("x"[0]);
    EncodeFullFixedPoint("x");
  }

  lemma SingletonMultiset<T>(s: seq<T>, x: T)
    requires multiset(s) == multiset{x}
    ensures s == [x]
  {
    assert |s| == |multiset(s)| == 1;
    assert s[0] in multiset(s);
  }

  /** The query `?__proto__=x` parses to. */
  function ProtoQuery(): Query {
    [(ProtoKey, Scalar("x"))]
  }

  lemma ProtoQueryUrl()
    ensures EncodedFields(Pairs(Delete(ProtoQuery(), ""))) == ["__proto__=x"]
  {
    var q := ProtoQuery();
    assert Delete(q, "") == q;
    assert Pairs(q) == [(ProtoKey, "x")] + Pairs([]);
    ProtoField();
  }

  lemma ProtoQueryAsWritten()
    ensures ReduceQueryAsWritten(ProtoQuery()) == []
  {
    var q := ProtoQuery();
    ProtoKeyFixed();
    assert q[..0] == [];
  }

  lemma ProtoQueryCorrected()
    ensures Map(Piece, CanonicalPairs(ReduceQuery(ProtoQuery()))) == ["__proto__=x"]
  {
    ProtoQueryUrl();
    CanonicalQueryMatchesUrl(ProtoQuery());
    SingletonMultiset(Map(Piece, CanonicalPairs(ReduceQuery(ProtoQuery()))), "__proto__=x");
  }

  /**
   * `?__proto__=x`: the URL carries the field `__proto__=x`; the canonical
   * query as written signs nothing, the corrected one signs that field.
   */
  lemma ProtoQueryExample()
    ensures Map(Piece, CanonicalPairs(ReduceQueryAsWritten(ProtoQuery()))) == []
    ensures EncodedFields(Pairs(Delete(ProtoQuery(), ""))) == ["__proto__=x"]
    ensures Map(Piece, CanonicalPairs(ReduceQuery(ProtoQuery()))) == ["__proto__=x"]
  {
    ProtoQueryAsWritten();
    ProtoQueryUrl();
    ProtoQueryCorrected();
  }
}

=== FILE: sigv4_signature.dfy ===
/**
 * The second half of SigV4 (presign.js): the credential scope, the
 * six-field canonical request, the four-line string to sign, and the
 * signature, an HMAC-SHA256 under a key derived by a chain of HMACs.
 * HMAC-SHA256 and SHA-256 are parameters: the properties here hold for any
 * functions with 32-byte results.
 */
module SigV4Signature {
  import opened Wrappers
  import opened JsString
  import opened Sorting
  import opened Rfc3986
  import opened JsObject
  import opened QueryString
  import opened SigV4Query
  import opened SigV4Path
  import opened SigV4Headers

  const Algorithm := "AWS4-HMAC-SHA256"
  const Service := "s3"
  const Terminator := "aws4_request"
  /** The body hash of a presigned S3 request, whose body is not signed. */
  const UnsignedPayload := "UNSIGNED-PAYLOAD"

  type Digest = d: seq<Byte> | |d| == 32 witness seq(32, i => 0)

  /** `createHmac("sha256", key).update(data).digest()` and `createHash("sha256")…digest()`. */
  datatype Crypto = Crypto(hmac: (seq<Byte>, seq<Byte>) -> Digest, sha256: seq<Byte> -> Digest)

  /** `getDate`: `datetime.substr(0, 8)`, the `YYYYMMDD` part of `YYYYMMDDTHHMMSSZ`. */
  function GetDate(datetime: string): (d: string)
    ensures |d| == if |datetime| < 8 then |datetime| else 8
    ensures d == datetime[..|d|]
  {
    if |datetime| < 8 then datetime else datetime[..8]
  }

  /** `credentialString`: `date/region/s3/aws4_request`. */
  function CredentialScope(datetime: string, region: string): string {
    Join([GetDate(datetime), region, Service, Terminator], "/")
  }

  /** `tRequest.method || "GET"`. */
  function MethodOrGet(verb: Option<string>): string {
    if verb.Some? && verb.value != "" then verb.value else "GET"
  }

  /** The canonical request of a query-signed S3 request. */
  function CanonicalString(verb: Option<string>, path: string, query: Option<Query>,
                           headers: Headers, extraInclude: set<string>, extraIgnore: set<string>): string
  {
    Join([MethodOrGet(verb), CanonicalPath(path), CanonicalQuery(query),
          CanonicalHeaders(headers) + "\n", SignedHeaders(headers, extraInclude, extraIgnore),
          UnsignedPayload], "\n")
  }

  function LowerHexDigit(n: int): char
    requires 0 <= n < 16
  {
    if n < 10 then ('0' as int + n) as char else ('a' as int + n - 10) as char
  }

  predicate IsLowerHex(c: char) {
    '0' <= c <= '9' || 'a' <= c <= 'f'
  }

  function LowerHexValue(c: char): (n: int)
    requires IsLowerHex(c)
    ensures 0 <= n < 16 && LowerHexDigit(n) == c
  {
    if c <= '9' then c as int - '0' as int else c as int - 'a' as int + 10
  }

  /** `digest("hex")`: two lowercase hex digits per byte. */
  function LowerHex(bs: seq<Byte>): (s: string)
    ensures |s| == 2 * |bs|
    ensures forall c :: c in s ==> IsLowerHex(c)
  {
    if bs == [] then "" else [LowerHexDigit(bs[0] / 16), LowerHexDigit(bs[0] % 16)] + LowerHex(bs[1..])
  }

  /** Reads lowercase hex back into bytes. */
  function HexBytes(s: string): Option<seq<Byte>> {
    if s == [] then Some([])
    else if |s| < 2 || !IsLowerHex(s[0]) || !IsLowerHex(s[1]) then None
    else match HexBytes(s[2..])
      case None => None
      case Some(rest) => Some([16 * LowerHexValue(s[0]) + LowerHexValue(s[1])] + rest)
  }

  lemma {:induction false} HexRoundTrip(bs: seq<Byte>)
    ensures HexBytes(LowerHex(bs)) == Some(bs)
  {
    if bs != [] {
      var s := LowerHex(bs);
      HexPair(bs[0]);
      assert s[0] == LowerHexDigit(bs[0] / 16) && s[1] == LowerHexDigit(bs[0] % 16) && s[2..] == LowerHex(bs[1..]);
      HexRoundTrip(bs[1..]);
      assert [bs[0]] + bs[1..] == bs;
    }
  }

  /** The two hex digits of a byte read back as the byte. */
  lemma HexPair(b: Byte)
    ensures IsLowerHex(LowerHexDigit(b / 16)) && IsLowerHex(LowerHexDigit(b % 16))
    ensures 16 * LowerHexValue(LowerHexDigit(b / 16)) + LowerHexValue(LowerHexDigit(b % 16)) == b
  {
    HexDigitValue(b / 16);
    HexDigitValue(b % 16);
  }

  lemma HexDigitValue(n: int)
    requires 0 <= n < 16
    ensures IsLowerHex(LowerHexDigit(n)) && LowerHexValue(LowerHexDigit(n)) == n
  {
  }

  /** `hash(s, "hex")`. */
  function HashHex(c: Crypto, s: string): string {
    LowerHex(c.sha256(Utf8String(s)))
  }

  /** `stringToSign`: the algorithm, the datetime, the scope and the hash of the canonical request. */
  function StringToSign(c: Crypto, datetime: string, region: string, canonical: string): string {
    Join([Algorithm, datetime, CredentialScope(datetime, region), HashHex(c, canonical)], "\n")
  }

  /** `kCredentials`: `"AWS4" + secret` keys the date, then the region, the service and the terminator. */
  function SigningKey(c: Crypto, secret: string, date: string, region: string): Digest {
    var kDate := c.hmac(Utf8String("AWS4" + secret), Utf8String(date));
    var kRegion := c.hmac(kDate, Utf8String(region));
    var kService := c.hmac(kRegion, Utf8String(Service));
    c.hmac(kService, Utf8String(Terminator))
  }

  /** `signature`: the hex HMAC of the string to sign under the derived key. */
  function Signature(c: Crypto, secret: string, datetime: string, region: string, stringToSign: string): string {
    LowerHex(c.hmac(SigningKey(c, secret, GetDate(datetime), region), Utf8String(stringToSign)))
  }

  /**
   * The signature is 64 lowercase hex digits, and it reads back as the
   * HMAC of the string to sign under the key derived from the secret, the
   * date part of the datetime, the region, `s3` and `aws4_request`.
   */
  lemma SignatureDecodes(c: Crypto, secret: string, datetime: string, region: string, sts: string)
    ensures |Signature(c, secret, datetime, region, sts)| == 64
    ensures forall ch :: ch in Signature(c, secret, datetime, region, sts) ==> IsLowerHex(ch)
    ensures HexBytes(Signature(c, secret, datetime, region, sts)).Some?
    ensures HexBytes(Signature(c, secret, datetime, region, sts)).value
      == c.hmac(SigningKey(c, secret, GetDate(datetime), region), Utf8String(sts))
  {
    HexRoundTrip(c.hmac(SigningKey(c, secret, GetDate(datetime), region), Utf8String(sts)));
  }

  /** Two datetimes of the same day with the same secret and region give the same signing key. */
  lemma SigningKeyPerDay(c: Crypto, secret: string, dt1: string, dt2: string, region: string)
    requires |dt1| >= 8 && |dt2| >= 8 && dt1[..8] == dt2[..8]
    ensures SigningKey(c, secret, GetDate(dt1), region) == SigningKey(c, secret, GetDate(dt2), region)
  {
  }

  /** The scope splits at `/` into its four parts, when the date and region hold no `/`. */
  lemma CredentialScopeParts(datetime: string, region: string)
    requires '/' !in datetime && '/' !in region
    ensures Split(CredentialScope(datetime, region), '/') == [GetDate(datetime), region, Service, Terminator]
  {
    var parts := [GetDate(datetime), region, Service, Terminator];
    forall p | p in parts ensures '/' !in p {
      if p == GetDate(datetime) {
        assert forall i :: 0 <= i < |p| ==> p[i] == datetime[i];
      }
    }
    SplitJoin(parts, '/');
  }

  lemma NoNewlineIn(s: string, allowed: char -> bool)
    requires forall c :: c in s ==> allowed(c)
    requires !allowed('\n')
    ensures '\n' !in s
  {
  }

  lemma SignedHeadersNoNewline(h: Headers, extraInclude: set<string>, extraIgnore: set<string>)
    requires forall i :: 0 <= i < |h| ==> '\n' !in h[i].0
    ensures '\n' !in SignedHeaders(h, extraInclude, extraIgnore)
  {
    var names := SignedNames(h, extraInclude, extraIgnore);
    SignedNamesExact(h, extraInclude, extraIgnore);
    var allowed := (c: char) => c != '\n';
    forall x, c | x in names && c in x ensures allowed(c) {
      var i :| 0 <= i < |h| && Lower(h[i].0) == x;
      LowerNoNewline(h[i].0);
    }
    JoinChars(names, ";", allowed);
  }

  /** Six fields whose fourth is a block of lines plus a line break read back as their lines. */
  lemma SplitSix(m: string, p: string, q: string, lines: seq<string>, sh: string, u: string)
    requires lines != []
    requires '\n' !in m && '\n' !in p && '\n' !in q && '\n' !in sh && '\n' !in u
    requires forall l :: l in lines ==> '\n' !in l
    ensures Split(Join([m, p, q, Join(lines, "\n") + "\n", sh, u], "\n"), '\n') == [m, p, q] + lines + ["", sh, u]
  {
    var head, tail := [m, p, q], ["", sh, u];
    JoinSix(m, p, q, Join(lines, "\n"), sh, u);
    JoinThree(head, lines, tail);
    assert forall x :: x in head + lines + tail ==> '\n' !in x;
    SplitJoin(head + lines + tail, '\n');
    assert "\n" == ['\n'];
  }

  /** Joining six fields whose fourth ends in a line break leaves an empty line before the fifth. */
  lemma JoinSix(m: string, p: string, q: string, hs: string, sh: string, u: string)
    ensures Join([m, p, q, hs + "\n", sh, u], "\n") == Join([m, p, q], "\n") + "\n" + hs + "\n" + Join(["", sh, u], "\n")
  {
    var head, tail := [m, p, q], ["", sh, u];
    assert Join([q], "\n") == q;
    assert Join([p, q], "\n") == p + "\n" + q by {
      assert [p, q][1..] == [q];
    }
    assert Join(head, "\n") == m + "\n" + (p + "\n" + q) by {
      assert head[1..] == [p, q];
    }
    assert Join([sh, u], "\n") == sh + "\n" + u by {
      assert [sh, u][1..] == [u];
    }
    assert Join(tail, "\n") == "" + "\n" + (sh + "\n" + u) by {
      assert tail[1..] == [sh, u];
    }
    var six := [m, p, q, hs + "\n", sh, u];
    assert Join(six[4..], "\n") == sh + "\n" + u by {
      assert six[4..] == [sh, u];
    }
    assert Join(six[3..], "\n") == hs + "\n" + "\n" + (sh + "\n" + u) by {
      assert six[3..][1..] == six[4..];
    }
    assert Join(six[2..], "\n") == q + "\n" + Join(six[3..], "\n") by {
      assert six[2..][1..] == six[3..];
    }
    assert Join(six[1..], "\n") == p + "\n" + Join(six[2..], "\n") by {
      assert six[1..][1..] == six[2..];
    }
    assert Join(six, "\n") == m + "\n" + Join(six[1..], "\n");
  }

  /** Joining three non-empty blocks of lines is joining each and putting a line break between. */
  lemma JoinThree(head: seq<string>, lines: seq<string>, tail: seq<string>)
    requires head != [] && lines != [] && tail != []
    ensures Join(head + lines + tail, "\n") == Join(head, "\n") + "\n" + Join(lines, "\n") + "\n" + Join(tail, "\n")
  {
    JoinAppend(head, lines + tail, "\n");
    JoinAppend(lines, tail, "\n");
    assert head + lines + tail == head + (lines + tail);
  }

  /**
   * The canonical request reads back line by line: the method, the path,
   * the query, one line per canonical header, the empty line that ends the
   * headers, the signed header names and the body hash.  This holds when
   * the method and the header names hold no line break; the path, the
   * query and the header values cannot.
   */
  lemma {:induction false} CanonicalStringLayout(verb: Option<string>, path: string, query: Option<Query>,
                              headers: Headers, extraInclude: set<string>, extraIgnore: set<string>)
    requires '\n' !in MethodOrGet(verb)
    requires forall i :: 0 <= i < |headers| ==> '\n' !in headers[i].0
    requires KeptEntries(headers) != []
    ensures Split(CanonicalString(verb, path, query, headers, extraInclude, extraIgnore), '\n')
      == [MethodOrGet(verb), CanonicalPath(path), CanonicalQuery(query)] + HeaderLines(headers)
         + ["", SignedHeaders(headers, extraInclude, extraIgnore), UnsignedPayload]
  {
    var m, p, q := MethodOrGet(verb), CanonicalPath(path), CanonicalQuery(query);
    var lines := HeaderLines(headers);
    var sh := SignedHeaders(headers, extraInclude, extraIgnore);
    CanonicalStringJoin(verb, path, query, headers, extraInclude, extraIgnore);
    LayoutParts(path, query, headers, extraInclude, extraIgnore);
    PayloadNoNewline();
    SplitSix(m, p, q, lines, sh, UnsignedPayload);
  }

  lemma CanonicalStringJoin(verb: Option<string>, path: string, query: Option<Query>,
                            headers: Headers, extraInclude: set<string>, extraIgnore: set<string>)
    ensures CanonicalString(verb, path, query, headers, extraInclude, extraIgnore)
      == Join([MethodOrGet(verb), CanonicalPath(path), CanonicalQuery(query), Join(HeaderLines(headers), "\n") + "\n",
               SignedHeaders(headers, extraInclude, extraIgnore), UnsignedPayload], "\n")
  {
  }

  /** The parts of the canonical request other than the header block hold no line break, nor does any header line. */
  lemma LayoutParts(path: string, query: Option<Query>, headers: Headers, extraInclude: set<string>, extraIgnore: set<string>)
    requires forall i :: 0 <= i < |headers| ==> '\n' !in headers[i].0
    requires KeptEntries(headers) != []
    ensures '\n' !in CanonicalPath(path) && '\n' !in CanonicalQuery(query)
    ensures '\n' !in SignedHeaders(headers, extraInclude, extraIgnore)
    ensures HeaderLines(headers) != [] && forall l :: l in HeaderLines(headers) ==> '\n' !in l
  {
    PathNoNewline(path);
    QueryNoNewline(query);
    SignedHeadersNoNewline(headers, extraInclude, extraIgnore);
    LinesNoNewline(headers);
    LinesNonEmpty(headers);
  }

  lemma PayloadNoNewline()
    ensures '\n' !in UnsignedPayload
  {
    forall i | 0 <= i < |UnsignedPayload| ensures UnsignedPayload[i] != '\n' {
      assert 'A' <= UnsignedPayload[i] <= 'Z' || UnsignedPayload[i] == '-';
    }
  }

  lemma PathNoNewline(path: string)
    ensures '\n' !in CanonicalPath(path)
  {
    CanonicalPathAlphabet(path);
  }

  lemma QueryNoNewline(query: Option<Query>)
    ensures '\n' !in CanonicalQuery(query)
  {
    CanonicalQueryAlphabet(query);
  }

  /** The string to sign reads back as its four lines, when the datetime and region hold no line break. */
  lemma StringToSignLayout(c: Crypto, datetime: string, region: string, canonical: string)
    requires '\n' !in datetime && '\n' !in region
    ensures Split(StringToSign(c, datetime, region, canonical), '\n')
      == [Algorithm, datetime, CredentialScope(datetime, region), HashHex(c, canonical)]
  {
    var scope := CredentialScope(datetime, region);
    var allowed := (ch: char) => ch != '\n';
    forall x, ch | x in [GetDate(datetime), region, Service, Terminator] && ch in x ensures allowed(ch) {
      if x == GetDate(datetime) {
        assert forall i :: 0 <= i < |x| ==> x[i] == datetime[i];
      }
    }
    JoinChars([GetDate(datetime), region, Service, Terminator], "/", allowed);
    NoNewlineIn(HashHex(c, canonical), IsLowerHex);
    SplitJoin([Algorithm, datetime, scope, HashHex(c, canonical)], '\n');
  }
}

=== FILE: sorting.dfy ===
/**
 * Sorting by a string key in JavaScript's string order.  This is what
 * `Array.prototype.sort` does with no comparator (the key is the element
 * itself) and what the header sort of the presigner does (the key is the
 * lower-cased header name).  ECMAScript requires the sort to be stable; the
 * insertion sort below is.
 */
module Sorting {
  import opened JsString

  predicate SortedBy<T>(s: seq<T>, key: T -> string) {
    forall i, j :: 0 <= i < j < |s| ==> LessEq(key(s[i]), key(s[j]))
  }

  function Insert<T>(x: T, s: seq<T>, key: T -> string): seq<T> {
    if s == [] || LessEq(key(x), key(s[0])) then [x] + s
    else [s[0]] + Insert(x, s[1..], key)
  }

  /** `s` sorted by `key`, keeping equal keys in their original order. */
  function SortBy<T>(s: seq<T>, key: T -> string): seq<T> {
    if s == [] then [] else Insert(s[0], SortBy(s[1..], key), key)
  }

  function Identity(s: string): string {
    s
  }

  /** `array.sort()` on an array of strings. */
  function SortStrings(s: seq<string>): seq<string> {
    SortBy(s, Identity)
  }

  lemma {:induction false} InsertPermutes<T>(x: T, s: seq<T>, key: T -> string)
    ensures multiset(Insert(x, s, key)) == multiset(s) + multiset{x}
  {
    if !(s == [] || LessEq(key(x), key(s[0]))) {
      InsertPermutes(x, s[1..], key);
      assert s == [s[0]] + s[1..];
    }
  }

  lemma {:induction false} InsertSorted<T>(x: T, s: seq<T>, key: T -> string)
    requires SortedBy(s, key)
    ensures SortedBy(Insert(x, s, key), key)
  {
    var r := Insert(x, s, key);
    if s == [] {
    } else if LessEq(key(x), key(s[0])) {
      forall j | 1 <= j < |r| ensures LessEq(key(x), key(r[j])) {
        LessEqTransitive(key(x), key(s[0]), key(s[j - 1]));
      }
    } else {
      LessTotal(key(x), key(s[0]));
      var t := Insert(x, s[1..], key);
      InsertSorted(x, s[1..], key);
      InsertPermutes(x, s[1..], key);
      forall j | 0 <= j < |t| ensures LessEq(key(s[0]), key(t[j])) {
        assert t[j] in multiset(t);
        if t[j] != x {
          assert t[j] in multiset(s[1..]);
          var k :| 0 <= k < |s[1..]| && s[1..][k] == t[j];
          assert s[k + 1] == t[j];
        }
      }
      assert r == [s[0]] + t;
    }
  }

  /** The sort returns a sorted permutation of its input. */
  lemma {:induction false} SortBySorts<T>(s: seq<T>, key: T -> string)
    ensures SortedBy(SortBy(s, key), key)
    ensures multiset(SortBy(s, key)) == multiset(s)
  {
    if s != [] {
      SortBySorts(s[1..], key);
      InsertSorted(s[0], SortBy(s[1..], key), key);
      InsertPermutes(s[0], SortBy(s[1..], key), key);
      assert s == [s[0]] + s[1..];
    }
  }

  lemma SortedTail(a: seq<string>)
    requires a != [] && SortedBy(a, Identity)
    ensures SortedBy(a[1..], Identity)
  {
    forall x, y | 0 <= x < y < |a[1..]|
      ensures LessEq(Identity(a[1..][x]), Identity(a[1..][y]))
    {
      assert a[1..][x] == a[x + 1] && a[1..][y] == a[y + 1];
    }
  }

  lemma SortedHeadLeast(a: seq<string>, v: string)
    requires SortedBy(a, Identity) && v in multiset(a)
    ensures LessEq(a[0], v)
  {
    var i :| 0 <= i < |a| && a[i] == v;
    if i > 0 {
      assert LessEq(Identity(a[0]), Identity(a[i]));
    }
  }

  /** Two sorted arrangements of the same strings are the same sequence. */
  lemma {:induction false} SortedUnique(a: seq<string>, b: seq<string>)
    requires SortedBy(a, Identity) && SortedBy(b, Identity)
    requires multiset(a) == multiset(b)
    ensures a == b
    decreases |a|
  {
    if a != [] {
      assert |b| == |multiset(b)| == |a|;
      SortedHeadLeast(a, b[0]);
      SortedHeadLeast(b, a[0]);
      LessEqAntisymmetric(a[0], b[0]);
      TailMultiset(a, b);
      SortedTail(a);
      SortedTail(b);
      SortedUnique(a[1..], b[1..]);
      assert a == [a[0]] + a[1..] && b == [b[0]] + b[1..];
    }
  }

  /** Two sequences with the same elements and the same head have the same elements after it. */
  lemma TailMultiset<T>(a: seq<T>, b: seq<T>)
    requires a != [] && b != [] && a[0] == b[0] && multiset(a) == multiset(b)
    ensures multiset(a[1..]) == multiset(b[1..])
  {
    assert a == [a[0]] + a[1..] && b == [b[0]] + b[1..];
    assert multiset(a[1..]) == multiset(a) - multiset{a[0]};
    assert multiset(b[1..]) == multiset(b) - multiset{b[0]};
  }

  /**
   * A string sort depends only on the strings sorted, not on the order
   * they arrive in.
   */
  lemma SortStringsCanonical(a: seq<string>, b: seq<string>)
    requires multiset(a) == multiset(b)
    ensures SortStrings(a) == SortStrings(b)
  {
    SortBySorts(a, Identity);
    SortBySorts(b, Identity);
    SortedUnique(SortStrings(a), SortStrings(b));
  }

  /** Every element of `s` maps to a run of outputs; the runs are concatenated in order. */
  function ConcatMap<T, U>(f: T -> seq<U>, s: seq<T>): seq<U> {
    if s == [] then [] else f(s[0]) + ConcatMap(f, s[1..])
  }

  lemma {:induction false} ConcatMapAppend<T, U>(f: T -> seq<U>, a: seq<T>, b: seq<T>)
    ensures ConcatMap(f, a + b) == ConcatMap(f, a) + ConcatMap(f, b)
  {
    if a == [] {
      assert a + b == b;
    } else {
      calc {
        ConcatMap(f, a + b);
      == { assert (a + b)[0] == a[0] && (a + b)[1..] == a[1..] + b; }
        f(a[0]) + ConcatMap(f, a[1..] + b);
      == { ConcatMapAppend(f, a[1..], b); }
        f(a[0]) + (ConcatMap(f, a[1..]) + ConcatMap(f, b));
      ==
        ConcatMap(f, a) + ConcatMap(f, b);
      }
    }
  }

  /** Rearranging the input only rearranges the output. */
  lemma {:induction false} ConcatMapPermutation<T, U>(f: T -> seq<U>, a: seq<T>, b: seq<T>)
    requires multiset(a) == multiset(b)
    ensures multiset(ConcatMap(f, a)) == multiset(ConcatMap(f, b))
    decreases |a|
  {
    if a == [] {
      assert |b| == |multiset(b)| == 0;
    } else {
      var left, right := RemoveFirst(a, b);
      ConcatMapPermutation(f, a[1..], left + right);
      ConcatMapSplice(f, left, a[0], right);
      assert ConcatMap(f, a) == f(a[0]) + ConcatMap(f, a[1..]);
    }
  }

  /** Where the head of `a` sits in `b`, a rearrangement of `a`: what is around it rearranges the rest of `a`. */
  lemma RemoveFirst<T>(a: seq<T>, b: seq<T>) returns (left: seq<T>, right: seq<T>)
    requires a != [] && multiset(a) == multiset(b)
    ensures b == left + [a[0]] + right && multiset(a[1..]) == multiset(left + right)
  {
    var x := a[0];
    assert x in multiset(b);
    var j :| 0 <= j < |b| && b[j] == x;
    left, right := b[..j], b[j + 1..];
    assert b == left + [x] + right;
    assert a == [x] + a[1..];
    assert multiset(b) == multiset(left) + multiset{x} + multiset(right);
    assert multiset(a[1..]) == multiset(a) - multiset{x};
  }

  /** Mapping `left + [x] + right` gives `f(x)` and the mapped `left + right`, up to order. */
  lemma ConcatMapSplice<T, U>(f: T -> seq<U>, left: seq<T>, x: T, right: seq<T>)
    ensures multiset(ConcatMap(f, left + [x] + right)) == multiset(f(x)) + multiset(ConcatMap(f, left + right))
  {
    ConcatMapAppend(f, left + [x], right);
    ConcatMapAppend(f, left, [x]);
    ConcatMapAppend(f, left, right);
    assert ConcatMap(f, [x]) == f(x) + ConcatMap(f, []);
  }

  predicate Distinct<T(==)>(s: seq<T>) {
    forall i, j :: 0 <= i < j < |s| ==> s[i] != s[j]
  }

  lemma {:induction false} DistinctCount<T>(s: seq<T>, x: T)
    requires Distinct(s)
    ensures multiset(s)[x] <= 1
  {
    if s != [] {
      DistinctCount(s[1..], x);
      assert s == [s[0]] + s[1..];
      if s[0] == x {
        assert x !in s[1..];
      }
    }
  }

  /** A rearrangement of distinct elements is distinct. */
  lemma DistinctPermutation<T>(a: seq<T>, b: seq<T>)
    requires multiset(a) == multiset(b) && Distinct(a)
    ensures Distinct(b)
  {
    forall i, j | 0 <= i < j < |b| ensures b[i] != b[j] {
      if b[i] == b[j] {
        var x := b[i];
        assert b == b[..j] + [x] + b[j + 1..];
        assert x in multiset(b[..j]);
        assert multiset(b)[x] >= 2;
        DistinctCount(a, x);
      }
    }
  }

  /** `s.map(f)`. */
  function Map<T, U>(f: T -> U, s: seq<T>): (r: seq<U>)
    ensures |r| == |s|
    ensures forall i :: 0 <= i < |s| ==> r[i] == f(s[i])
  {
    if s == [] then [] else [f(s[0])] + Map(f, s[1..])
  }

  lemma MapAppend<T, U>(f: T -> U, a: seq<T>, b: seq<T>)
    ensures Map(f, a + b) == Map(f, a) + Map(f, b)
  {
  }

  lemma {:induction false} MapAsConcat<T, U>(f: T -> U, s: seq<T>)
    ensures Map(f, s) == ConcatMap((x: T) => [f(x)], s)
  {
    if s != [] {
      MapAsConcat(f, s[1..]);
    }
  }

  /** Rearranging the input of a `map` only rearranges its output. */
  lemma MapPermutation<T, U>(f: T -> U, a: seq<T>, b: seq<T>)
    requires multiset(a) == multiset(b)
    ensures multiset(Map(f, a)) == multiset(Map(f, b))
  {
    MapAsConcat(f, a);
    MapAsConcat(f, b);
    ConcatMapPermutation((x: T) => [f(x)], a, b);
  }
}

=== FILE: ulid.dfy ===
/**
 * The ULID helpers of intrinsicFunctions.js: Crockford's Base32 alphabet,
 * `replaceCharAt`, `incrementBase32`, `encodeTime` and `decodeTime`.
 *
 * A ULID is a 10-character timestamp followed by 16 random characters,
 * all drawn from the alphabet, most significant digit first. `Value`
 * reads a string over the alphabet as a base-32 numeral; it is the
 * reference the increment and the time codec are proved against.
 */
module Ulid {
  import opened Wrappers
  import opened JsString

  const EncodingLen := 32

  /** Crockford's Base32: the ten digits, then the capitals without I, L, O and U. */
  const Encoding: string := "0123456789" + "ABCDEFGHJKMNPQRSTVWXYZ"

  /** Written out, the alphabet is the usual 32-character string. */
  lemma EncodingSpelled()
    ensures Encoding == "0123456789ABCDEFGHJKMNPQRSTVWXYZ"
  {
  }

  const TimeLen := 10
  const RandomLen := 16
  /** 2^48 - 1, the largest millisecond timestamp a ULID is meant to hold. */
  const TimeMax := 0x1_0000_0000_0000 - 1

  function Pow(b: nat, e: nat): (r: nat)
    ensures b > 0 ==> r > 0
  {
    if e == 0 then 1 else b * Pow(b, e - 1)
  }

  /** The alphabet is in strictly increasing character order, so its characters are distinct. */
  lemma EncodingIncreasing()
    ensures |Encoding| == EncodingLen
    ensures forall i, j :: 0 <= i < j < |Encoding| ==> Encoding[i] < Encoding[j]
  {
    assert forall i :: 0 <= i < |Encoding| - 1 ==> Encoding[i] < Encoding[i + 1];
    forall i, j | 0 <= i < j < |Encoding| ensures Encoding[i] < Encoding[j] {
      StepsIncrease(i, j);
    }
  }

  lemma {:induction false} StepsIncrease(i: int, j: int)
    requires 0 <= i < j < |Encoding|
    requires forall k :: 0 <= k < |Encoding| - 1 ==> Encoding[k] < Encoding[k + 1]
    ensures Encoding[i] < Encoding[j]
    decreases j - i
  {
    if i + 1 < j {
      StepsIncrease(i + 1, j);
    }
  }

  /** `ENCODING.indexOf(ENCODING[k])` is `k`. */
  lemma EncodingIndex(k: int)
    requires 0 <= k < |Encoding|
    ensures IndexOf(Encoding, Encoding[k]) == k
  {
    EncodingIncreasing();
    assert Encoding[k] !in Encoding[..k];
    IndexOfAt(Encoding, Encoding[k], k);
  }

  /** The four letters Crockford leaves out are not in the alphabet; it starts with `0` and ends with `Z`. */
  lemma EncodingLetters()
    ensures 'I' !in Encoding && 'L' !in Encoding && 'O' !in Encoding && 'U' !in Encoding
    ensures Encoding[0] == '0' && Encoding[EncodingLen - 1] == 'Z'
  {
    EncodingIncreasing();
    assert Encoding[17] == 'H' && Encoding[18] == 'J';
    assert Encoding[19] == 'K' && Encoding[20] == 'M';
    assert Encoding[21] == 'N' && Encoding[22] == 'P';
    assert Encoding[26] == 'T' && Encoding[27] == 'V';
  }

  /** A character has the largest index exactly when it is `Z`. */
  lemma IsLastDigit(c: char)
    ensures IndexOf(Encoding, c) == EncodingLen - 1 <==> c == 'Z'
  {
    assert Encoding[EncodingLen - 1] == 'Z';
    if c == 'Z' {
      IndexOfAt(Encoding, c, EncodingLen - 1);
    }
  }

  /** A character has index 0 exactly when it is `0`. */
  lemma IsZeroDigit(c: char)
    ensures IndexOf(Encoding, c) == 0 <==> c == '0'
  {
    assert Encoding[0] == '0';
    if c == '0' {
      IndexOfAt(Encoding, c, 0);
    }
  }

  /** `c` is found in the alphabet. */
  predicate IsBase32(c: char) {
    IndexOf(Encoding, c) >= 0
  }

  predicate InAlphabet(s: string) {
    forall i :: 0 <= i < |s| ==> IsBase32(s[i])
  }

  /** `s` read as a base-32 numeral over the alphabet, most significant digit first. */
  function Value(s: string): int {
    if s == [] then 0 else Value(s[..|s| - 1]) * EncodingLen + IndexOf(Encoding, s[|s| - 1])
  }

  /** A numeral of `n` digits is below 32^n. */
  lemma {:induction false} ValueRange(s: string)
    requires InAlphabet(s)
    ensures 0 <= Value(s) < Pow(EncodingLen, |s|)
  {
    if s != [] {
      var init := s[..|s| - 1];
      assert InAlphabet(init) by {
        forall i | 0 <= i < |init| ensures IsBase32(init[i]) {
          assert init[i] == s[i];
        }
      }
      ValueRange(init);
      var d := IndexOf(Encoding, s[|s| - 1]);
      assert 0 <= d < EncodingLen;
      assert Value(s) == Value(init) * EncodingLen + d;
      assert Value(init) * EncodingLen <= (Pow(EncodingLen, |init|) - 1) * EncodingLen;
    }
  }

  function Zeros(n: nat): (r: string)
    ensures |r| == n && forall i :: 0 <= i < n ==> r[i] == '0'
  {
    seq(n, _ => '0')
  }

  /** JavaScript's `s.substr(start, length)`: a negative start counts from the end, and both are clamped. */
  function Substr(s: string, start: int, length: int): (r: string)
    ensures |r| <= |s|
  {
    var from := if start < 0 then (if |s| + start < 0 then 0 else |s| + start) else (if start > |s| then |s| else start);
    var count := if length < 0 then 0 else if length > |s| - from then |s| - from else length;
    s[from..from + count]
  }

  /** JavaScript's `s.substr(start)`: from `start` to the end, with the same clamping. */
  function SubstrFrom(s: string, start: int): (r: string)
    ensures |r| <= |s|
  {
    var from := if start < 0 then (if |s| + start < 0 then 0 else |s| + start) else (if start > |s| then |s| else start);
    s[from..]
  }

  /**
   * `replaceCharAt`: an index past the end leaves the string as it is; an
   * index inside replaces that one character; a negative index puts the
   * character in front of a suffix of the string, the whole string for -1.
   */
  function ReplaceCharAt(s: string, index: int, c: char): (r: string)
    ensures index > |s| - 1 ==> r == s
    ensures 0 <= index < |s| ==>
      |r| == |s| && r[index] == c && forall k :: 0 <= k < |s| && k != index ==> r[k] == s[k]
    ensures index < 0 ==> 1 <= |r| <= |s| + 1 && r[0] == c && r[1..] == s[|s| - (|r| - 1)..]
    ensures index == -1 ==> r == [c] + s
  {
    if index > |s| - 1 then s
    else
      var front := Substr(s, 0, index);
      var back := SubstrFrom(s, index + 1);
      assert index < 0 ==> front == [] && back == s[|s| - |back|..];
      assert index >= 0 ==> front == s[..index] && back == s[index + 1..];
      front + [c] + back
  }

  /**
   * What `incrementBase32` computes: the last character advances to its
   * successor in the alphabet; a `Z` there becomes `0` and the carry moves
   * left; a carry out of the first position puts a `0` in front. A
   * character outside the alphabet has index -1 and becomes `0`.
   */
  function Incremented(s: string): string
    decreases |s|
  {
    if s == [] then [Encoding[0]]
    else
      var d := IndexOf(Encoding, s[|s| - 1]);
      if d == EncodingLen - 1 then Incremented(s[..|s| - 1]) + [Encoding[0]]
      else s[..|s| - 1] + [Encoding[d + 1]]
  }

  /**
   * `incrementBase32`, walking from the last index down to -1. It always
   * produces a string: the branch that would return `undefined` is never
   * taken.
   */
  method IncrementBase32(s: string) returns (r: Option<string>)
    ensures r == Some(Incremented(s))
  {
    var done: Option<string> := None;
    var index: int := |s|;
    var str := s;
    assert s[..index] == s && Zeros(0) == [];
    while done.None? && index >= 0
      invariant -1 <= index <= |s|
      invariant done.None? ==>
        && 0 <= index
        && str == s[..index] + Zeros(|s| - index)
        && Incremented(s) == Incremented(s[..index]) + Zeros(|s| - index)
      invariant done.Some? ==> done.value == Incremented(s)
      decreases index + 1
    {
      index := index - 1;
      var d := if 0 <= index < |str| then IndexOf(Encoding, str[index]) else -1;
      if d == EncodingLen - 1 {
        CarryStep(s, index, str);
        str := ReplaceCharAt(str, index, Encoding[0]);
      } else {
        AdvanceStep(s, index, str, d);
        done := Some(ReplaceCharAt(str, index, Encoding[d + 1]));
      }
    }
    return done;
  }

  /** A trailing `Z` turns into a `0` and carries. */
  lemma CarryStep(s: string, index: int, str: string)
    requires 0 <= index < |s| && str == s[..index + 1] + Zeros(|s| - index - 1)
    requires IndexOf(Encoding, str[index]) == EncodingLen - 1
    ensures Incremented(s[..index + 1]) + Zeros(|s| - index - 1) == Incremented(s[..index]) + Zeros(|s| - index)
    ensures ReplaceCharAt(str, index, Encoding[0]) == s[..index] + Zeros(|s| - index)
  {
    assert str[index] == s[index];
    assert s[..index + 1][..index] == s[..index];
    assert Zeros(|s| - index) == [Encoding[0]] + Zeros(|s| - index - 1);
  }

  /** Any other character advances, and the walk stops with the incremented string. */
  lemma AdvanceStep(s: string, index: int, str: string, d: int)
    requires -1 <= index < |s| && str == s[..index + 1] + Zeros(|s| - index - 1)
    requires d == (if 0 <= index < |str| then IndexOf(Encoding, str[index]) else -1)
    requires d != EncodingLen - 1
    ensures ReplaceCharAt(str, index, Encoding[d + 1]) == Incremented(s[..index + 1]) + Zeros(|s| - index - 1)
  {
    if index >= 0 {
      assert str[index] == s[index];
      assert s[..index + 1][..index] == s[..index];
    }
  }

  /**
   * The trailing run of `Z` becomes `0`s, the character just before it
   * advances to its successor, everything further left stays.
   */
  lemma {:induction false} IncrementShape(s: string, p: int)
    requires 0 <= p < |s| && s[p] != 'Z'
    requires forall k :: p < k < |s| ==> s[k] == 'Z'
    ensures Incremented(s) == s[..p] + [Encoding[IndexOf(Encoding, s[p]) + 1]] + Zeros(|s| - p - 1)
    decreases |s|
  {
    var last := |s| - 1;
    IsLastDigit(s[last]);
    assert Encoding[0] == '0';
    if p == last {
      assert IndexOf(Encoding, s[last]) != EncodingLen - 1;
    } else {
      assert IndexOf(Encoding, s[last]) == EncodingLen - 1;
      var init := s[..last];
      IncrementShape(init, p);
      assert init[..p] == s[..p];
      ZerosSnoc(|init| - p - 1);
    }
  }

  /** On a numeral that is not all `Z`, the increment keeps the length and adds one. */
  lemma {:induction false} IncrementAddsOne(s: string, p: int)
    requires InAlphabet(s) && 0 <= p < |s| && s[p] != 'Z'
    ensures |Incremented(s)| == |s| && InAlphabet(Incremented(s))
    ensures Value(Incremented(s)) == Value(s) + 1
    decreases |s|
  {
    var last := |s| - 1;
    var init := s[..last];
    IsLastDigit(s[last]);
    assert InAlphabet(init) by {
      forall i | 0 <= i < |init| ensures IsBase32(init[i]) {
        assert init[i] == s[i];
      }
    }
    if IndexOf(Encoding, s[last]) == EncodingLen - 1 {
      assert init[p] == s[p];
      IncrementAddsOne(init, p);
      CarryAddsOne(s);
    } else {
      NoCarryAddsOne(s);
    }
  }

  /** A last digit below `Z` advances in place. */
  lemma NoCarryAddsOne(s: string)
    requires InAlphabet(s) && s != [] && IndexOf(Encoding, s[|s| - 1]) != EncodingLen - 1
    ensures |Incremented(s)| == |s| && InAlphabet(Incremented(s))
    ensures Value(Incremented(s)) == Value(s) + 1
  {
    var init := s[..|s| - 1];
    var d := IndexOf(Encoding, s[|s| - 1]);
    var r := Incremented(s);
    EncodingIndex(d + 1);
    assert r == init + [Encoding[d + 1]];
    assert r[..|r| - 1] == init;
    forall k | 0 <= k < |r| ensures IsBase32(r[k]) {
      if k < |init| {
        assert r[k] == s[k];
      }
    }
  }

  /** A last digit `Z` becomes `0` and the increment of the rest carries the one. */
  lemma CarryAddsOne(s: string)
    requires s != [] && IndexOf(Encoding, s[|s| - 1]) == EncodingLen - 1
    requires var init := s[..|s| - 1];
      |Incremented(init)| == |init| && InAlphabet(Incremented(init)) && Value(Incremented(init)) == Value(init) + 1
    ensures |Incremented(s)| == |s| && InAlphabet(Incremented(s))
    ensures Value(Incremented(s)) == Value(s) + 1
  {
    var ri := Incremented(s[..|s| - 1]);
    var r := Incremented(s);
    IsZeroDigit(Encoding[0]);
    assert r == ri + [Encoding[0]];
    assert r[..|r| - 1] == ri;
    forall k | 0 <= k < |r| ensures IsBase32(r[k]) {
      if k < |ri| {
        assert r[k] == ri[k];
      }
    }
  }

  /** The quirk: an all-`Z` numeral becomes all `0`s and one character longer, worth 0. */
  lemma {:induction false} IncrementAllZ(s: string)
    requires forall i :: 0 <= i < |s| ==> s[i] == 'Z'
    ensures Incremented(s) == Zeros(|s| + 1)
    ensures Value(Incremented(s)) == 0
    decreases |s|
  {
    assert Encoding[0] == '0';
    if s != [] {
      var init := s[..|s| - 1];
      IsLastDigit(s[|s| - 1]);
      IncrementAllZ(init);
      ZerosSnoc(|s|);
    }
    AllZerosValue(|s| + 1);
  }

  lemma ZerosSnoc(n: nat)
    ensures Zeros(n + 1) == Zeros(n) + "0"
  {
  }

  lemma {:induction false} AllZerosValue(n: nat)
    ensures Value(Zeros(n)) == 0
  {
    if n > 0 {
      IsZeroDigit('0');
      assert Zeros(n)[..n - 1] == Zeros(n - 1);
      AllZerosValue(n - 1);
    }
  }

  /** JavaScript's `%` on integers: the remainder takes the sign of the dividend. */
  function JsRem(a: int, m: nat): (r: int)
    requires m > 0
    ensures a >= 0 ==> r == a % m
    ensures a < 0 ==> -r < m && r <= 0
  {
    if a >= 0 then a % m else -((-a) % m)
  }

  /** `s.charAt(i)`: the character at `i`, or the empty string out of range. */
  function CharAt(s: string, i: int): (r: string)
    ensures 0 <= i < |s| ==> r == [s[i]]
    ensures !(0 <= i < |s|) ==> r == ""
  {
    if 0 <= i < |s| then [s[i]] else ""
  }

  /** What `encodeTime(now, len)` computes: the last digit is `now % 32`, the rest encodes the quotient. */
  function EncodedTime(now: int, len: int): string
    decreases len
  {
    if len <= 0 then ""
    else
      var m := JsRem(now, EncodingLen);
      EncodedTime((now - m) / EncodingLen, len - 1) + CharAt(Encoding, m)
  }

  /** `encodeTime`: the loop that prepends one digit per round. */
  method EncodeTime(now0: int, len0: int) returns (str: string)
    ensures str == EncodedTime(now0, len0)
  {
    var now := now0;
    var len := len0;
    str := "";
    while len > 0
      invariant EncodedTime(now0, len0) == EncodedTime(now, len) + str
      decreases len
    {
      var m := JsRem(now, EncodingLen);
      str := CharAt(Encoding, m) + str;
      now := (now - m) / EncodingLen;
      len := len - 1;
    }
  }

  /** The ULID reading of a remainder: splitting off the last base-32 digit. */
  lemma ModSplit(n: nat, p: nat)
    requires p > 0
    ensures (n / EncodingLen % p) * EncodingLen + n % EncodingLen == n % (EncodingLen * p)
  {
    var q := n / EncodingLen;
    var r := n % EncodingLen;
    var q2 := q / p;
    var r2 := q % p;
    assert n == EncodingLen * (p * q2 + r2) + r;
    assert n == (EncodingLen * p) * q2 + (r2 * EncodingLen + r);
    assert 0 <= r2 * EncodingLen + r < EncodingLen * p by {
      assert r2 <= p - 1;
      assert r2 * EncodingLen <= (p - 1) * EncodingLen;
    }
    ModUnique(n, EncodingLen * p, q2, r2 * EncodingLen + r);
  }

  lemma ModUnique(n: int, d: int, q: int, r: int)
    requires d > 0 && n == d * q + r && 0 <= r < d
    ensures n % d == r
  {
    var k := q - n / d;
    assert d * k == d * q - d * (n / d);
    assert d * k == n % d - r;
    if k >= 1 {
      MulGrows(d, k);
    } else if k <= -1 {
      MulGrows(d, -k);
    }
  }

  lemma {:induction false} MulGrows(d: int, k: int)
    requires d > 0 && k >= 1
    ensures d * k >= d
    decreases k
  {
    if k > 1 {
      MulGrows(d, k - 1);
      assert d * k == d * (k - 1) + d;
    }
  }

  /** For a non-negative time, `encodeTime` gives `len` alphabet characters worth `now` modulo 32^len. */
  lemma {:induction false} EncodedTimeValue(now: int, len: nat)
    requires now >= 0
    ensures |EncodedTime(now, len)| == len && InAlphabet(EncodedTime(now, len))
    ensures Value(EncodedTime(now, len)) == now % Pow(EncodingLen, len)
  {
    if len > 0 {
      var m := now % EncodingLen;
      var q := now / EncodingLen;
      assert JsRem(now, EncodingLen) == m;
      assert (now - m) / EncodingLen == q;
      assert EncodedTime(now, len) == EncodedTime(q, len - 1) + CharAt(Encoding, m);
      EncodedTimeValue(q, len - 1);
      TimeDigit(EncodedTime(q, len - 1), EncodedTime(now, len), now, Pow(EncodingLen, len - 1));
      assert Pow(EncodingLen, len) == EncodingLen * Pow(EncodingLen, len - 1);
    }
  }

  /** Appending the digit of `now % 32` to a numeral worth `now / 32` modulo `p` gives one worth `now` modulo `32 * p`. */
  lemma TimeDigit(head: string, s: string, now: nat, p: nat)
    requires p > 0 && InAlphabet(head) && Value(head) == now / EncodingLen % p
    requires s == head + CharAt(Encoding, now % EncodingLen)
    ensures |s| == |head| + 1 && InAlphabet(s) && Value(s) == now % (EncodingLen * p)
  {
    DigitAppended(head, s, now % EncodingLen);
    ModSplit(now, p);
    Substitute(Value(s), Value(head), now % EncodingLen, now / EncodingLen % p, now % (EncodingLen * p));
  }

  /** Chains the digit step and the remainder split, kept apart from the terms that produce them. */
  lemma Substitute(vs: int, vh: int, m: int, a: int, b: int)
    requires vs == vh * EncodingLen + m && vh == a && a * EncodingLen + m == b
    ensures vs == b
  {
  }

  /** Appending the digit `m` to a numeral multiplies its value by 32 and adds `m`. */
  lemma DigitAppended(head: string, s: string, m: nat)
    requires m < EncodingLen && InAlphabet(head) && s == head + CharAt(Encoding, m)
    ensures |s| == |head| + 1 && InAlphabet(s) && Value(s) == Value(head) * EncodingLen + m
  {
    assert s == head + [Encoding[m]];
    assert s[..|s| - 1] == head;
    forall i | 0 <= i < |s| ensures IsBase32(s[i]) {
      if i < |head| {
        assert s[i] == head[i];
      }
    }
    EncodingIndex(m);
  }

  function Reverse(s: string): (r: string)
    ensures |r| == |s|
  {
    if s == [] then [] else [s[|s| - 1]] + Reverse(s[..|s| - 1])
  }

  /** The `reduce` of `decodeTime`: digit `index` of the reversed string weighs 32^index. */
  function Accumulate(digits: string, index: nat, carry: int): int
    decreases |digits| - index
  {
    if index >= |digits| then carry
    else Accumulate(digits, index + 1, carry + IndexOf(Encoding, digits[index]) * Pow(EncodingLen, index))
  }

  /** `decodeTime`: the first ten characters, reversed, summed by weight. */
  function DecodeTime(id: string): int {
    Accumulate(Reverse(Substr(id, 0, TimeLen)), 0, 0)
  }

  function WeightedSum(digits: string, index: nat): int
    decreases |digits| - index
  {
    if index >= |digits| then 0
    else IndexOf(Encoding, digits[index]) * Pow(EncodingLen, index) + WeightedSum(digits, index + 1)
  }

  lemma {:induction false} AccumulateSum(digits: string, index: nat, carry: int)
    ensures Accumulate(digits, index, carry) == carry + WeightedSum(digits, index)
    decreases |digits| - index
  {
    if index < |digits| {
      var t := IndexOf(Encoding, digits[index]) * Pow(EncodingLen, index);
      assert Accumulate(digits, index, carry) == Accumulate(digits, index + 1, carry + t);
      AccumulateSum(digits, index + 1, carry + t);
      assert WeightedSum(digits, index) == t + WeightedSum(digits, index + 1);
    }
  }

  lemma {:induction false} WeightedSumShift(x: char, digits: string, index: nat)
    ensures WeightedSum([x] + digits, index + 1) == EncodingLen * WeightedSum(digits, index)
    decreases |digits| - index
  {
    if index < |digits| {
      WeightedSumShift(x, digits, index + 1);
      assert ([x] + digits)[index + 1] == digits[index];
      var d := IndexOf(Encoding, digits[index]);
      var p := Pow(EncodingLen, index);
      assert Pow(EncodingLen, index + 1) == EncodingLen * p;
      assert WeightedSum([x] + digits, index + 1)
        == d * (EncodingLen * p) + WeightedSum([x] + digits, index + 2);
      assert WeightedSum(digits, index) == d * p + WeightedSum(digits, index + 1);
      MulShift(d, p);
    }
  }

  lemma MulShift(d: int, p: int)
    ensures d * (EncodingLen * p) == EncodingLen * (d * p)
  {
  }

  lemma {:induction false} ReversedSum(s: string)
    ensures WeightedSum(Reverse(s), 0) == Value(s)
  {
    if s != [] {
      var init := s[..|s| - 1];
      ReversedSum(init);
      WeightedSumShift(s[|s| - 1], Reverse(init), 0);
    }
  }

  /** `decodeTime` reads the first ten characters as a base-32 numeral. */
  lemma DecodeTimeValue(id: string)
    ensures DecodeTime(id) == Value(id[..if |id| < TimeLen then |id| else TimeLen])
  {
    var t := Substr(id, 0, TimeLen);
    assert t == id[..if |id| < TimeLen then |id| else TimeLen];
    AccumulateSum(Reverse(t), 0, 0);
    ReversedSum(t);
  }

  /**
   * The round trip: for every time below 32^10, and whatever random part
   * follows it, `decodeTime` gives back the time `encodeTime` wrote.
   */
  lemma TimeRoundTrip(now: int, random: string)
    requires 0 <= now < Pow(EncodingLen, TimeLen)
    ensures |EncodedTime(now, TimeLen)| == TimeLen
    ensures DecodeTime(EncodedTime(now, TimeLen) + random) == now
  {
    var t := EncodedTime(now, TimeLen);
    var id := t + random;
    EncodedTimeValue(now, TimeLen);
    assert Value(t) == now by {
      SmallMod(now, Pow(EncodingLen, TimeLen));
    }
    assert id[..TimeLen] == t;
    DecodeTimeValue(id);
  }

  lemma SmallMod(n: int, d: int)
    requires 0 <= n < d
    ensures n % d == n
  {
  }

  /** Every timestamp up to 2^48 - 1 fits in ten digits. */
  lemma TimeMaxFits()
    ensures TimeMax < Pow(EncodingLen, TimeLen)
  {
    assert Pow(EncodingLen, TimeLen) == 0x4_0000_0000_0000;
  }

  // ---------------------------------------------------------------------
  // Order: the encoding sorts like the numbers it encodes
  // ---------------------------------------------------------------------

  /** Equal-length strings keep their order whatever follows each of them. */
  lemma {:induction false} LessAppend(x: string, y: string, u: string, v: string)
    requires |x| == |y| && Less(x, y)
    ensures Less(x + u, y + v)
  {
    assert (x + u)[0] == x[0] && (y + v)[0] == y[0];
    if x[0] == y[0] {
      assert (x + u)[1..] == x[1..] + u && (y + v)[1..] == y[1..] + v;
      LessAppend(x[1..], y[1..], u, v);
    }
  }

  /** A common prefix followed by two characters compares as those characters. */
  lemma {:induction false} LessLastChar(p: string, a: char, b: char)
    requires CodeUnitRank(a) < CodeUnitRank(b)
    ensures Less(p + [a], p + [b])
  {
    if p == [] {
      assert a != b;
    } else {
      assert (p + [a])[1..] == p[1..] + [a] && (p + [b])[1..] == p[1..] + [b];
      LessLastChar(p[1..], a, b);
    }
  }

  /** The prefix without the last digit is still over the alphabet. */
  lemma InitInAlphabet(s: string)
    requires s != [] && InAlphabet(s)
    ensures InAlphabet(s[..|s| - 1])
  {
    var init := s[..|s| - 1];
    forall i | 0 <= i < |init| ensures IsBase32(init[i]) {
      assert init[i] == s[i];
    }
  }

  /** Two numerals of the same length with the same value are the same string. */
  lemma {:induction false} ValueInjective(x: string, y: string)
    requires |x| == |y| && InAlphabet(x) && InAlphabet(y) && Value(x) == Value(y)
    ensures x == y
  {
    if x != [] {
      var n := |x| - 1;
      var xi, yi := x[..n], y[..n];
      InitInAlphabet(x);
      InitInAlphabet(y);
      var da, db := IndexOf(Encoding, x[n]), IndexOf(Encoding, y[n]);
      assert IsBase32(x[n]) && IsBase32(y[n]);
      EncodingIncreasing();
      assert Value(x) == Value(xi) * EncodingLen + da;
      assert Value(y) == Value(yi) * EncodingLen + db;
      assert Value(xi) == Value(yi) && da == db;
      ValueInjective(xi, yi);
      assert x == xi + [x[n]] && y == yi + [y[n]];
    }
  }

  /** Of two numerals of the same length, the smaller value is the smaller string. */
  lemma {:induction false} ValueOrder(x: string, y: string)
    requires |x| == |y| && InAlphabet(x) && InAlphabet(y) && Value(x) < Value(y)
    ensures Less(x, y)
  {
    var n := |x| - 1;
    var xi, yi := x[..n], y[..n];
    InitInAlphabet(x);
    InitInAlphabet(y);
    assert IsBase32(x[n]) && IsBase32(y[n]);
    assert x == xi + [x[n]] && y == yi + [y[n]];
    if Value(xi) < Value(yi) {
      ValueOrder(xi, yi);
      LessAppend(xi, yi, [x[n]], [y[n]]);
    } else {
      LastDigitDecides(xi, yi, x[n], y[n]);
    }
  }

  /** Two numerals whose leading digits are not smaller on the left differ, when ordered, in their last digit only. */
  lemma LastDigitDecides(xi: string, yi: string, a: char, b: char)
    requires |xi| == |yi| && InAlphabet(xi) && InAlphabet(yi) && IsBase32(a) && IsBase32(b)
    requires Value(xi) >= Value(yi) && Value(xi + [a]) < Value(yi + [b])
    ensures Less(xi + [a], yi + [b])
  {
    var da, db := IndexOf(Encoding, a), IndexOf(Encoding, b);
    EncodingIncreasing();
    assert (xi + [a])[..|xi|] == xi && (yi + [b])[..|yi|] == yi;
    assert Value(xi) == Value(yi) && da < db;
    ValueInjective(xi, yi);
    assert Encoding[da] == a && Encoding[db] == b;
    assert a < b <= Encoding[EncodingLen - 1];
    LessLastChar(xi, a, b);
  }

  /**
   * Identifiers sort by time: for two times below 32^10, the earlier one's
   * ten-character prefix is below the later one's in JavaScript's string
   * order, whatever random characters follow each.
   */
  lemma TimeOrder(a: int, b: int, randomA: string, randomB: string)
    requires 0 <= a < b < Pow(EncodingLen, TimeLen)
    ensures Less(EncodedTime(a, TimeLen) + randomA, EncodedTime(b, TimeLen) + randomB)
  {
    EncodedTimeValue(a, TimeLen);
    EncodedTimeValue(b, TimeLen);
    SmallMod(a, Pow(EncodingLen, TimeLen));
    SmallMod(b, Pow(EncodingLen, TimeLen));
    ValueOrder(EncodedTime(a, TimeLen), EncodedTime(b, TimeLen));
    LessAppend(EncodedTime(a, TimeLen), EncodedTime(b, TimeLen), randomA, randomB);
  }
}

=== FILE: wrappers.dfy ===
/** Failure-carrying values shared by every module of the model. */
module Wrappers {

  datatype Option<T> = None | Some(value: T)

  datatype Result<T, E> = Ok(value: T) | Err(error: E)
}
